=== FILE: README.md ===
# Portfolio content service: a Dafny model

This project models the core of a small portfolio site. It covers the Express backend's
content store (`src/db.js`), the read routes and admin write routes with their request
helpers, the bearer-token admin sessions (`src/index.js`), and the frontend's API URL helpers
(`src/lib/api.js`).

**Store.** The SQLite database is an immutable `Db` value:
- three entity tables (categories, images, references), each a sequence of rows in table order
  with unique primary keys;
- two link tables, `image_categories` and `reference_images`, each a sequence of id pairs;
- the `about` and `logo` singleton rows.

Every `store` call is a pure function from one `Db` to the next. Its `Date.now()` becomes a
`now` parameter, and `crypto.randomUUID()` becomes a `freshId` parameter.

**Read side.** These are pure functions of the `Db` and the request:
- the `rowTo*` normalisers;
- `pickLang` and the language middleware;
- `buildMedia`;
- the three `format*` projections;
- the `GET /api/images` sort, filter and paginate pipeline, with JavaScript's `slice`.

**Write side.** Each admin route becomes a function from the request body to the store
call it makes:
- a body field is absent, null or a string;
- uploaded files are the file names multer stored them under;
- a handler that throws (Express answers 500) is an explicit `Failed` outcome.

**Sessions.** The session map is a `map` from token to session, and the clock is a parameter.

**Client URLs.** The frontend's `API_BASE` is a parameter.

Modules follow the source:

| module | models |
|---|---|
| `StoreSchema` | rows and normalisers |
| `Tables` | keyed tables |
| `Links` | link tables |
| `Store` | the `store` object |
| `StoreProperties` | cross-operation facts |
| `Localization` | `pickLang` and the language middleware |
| `Media` | `buildMedia` |
| `Query` | `parseBool`, `parseNumber`, `pickQuery` and the filters |
| `Pagination` | `slice` and page counts |
| `Projection` | `format*` |
| `ImageList` | `GET /api/images` |
| `ReadRoutes` | the other GET routes |
| `AdminRoutes` | the admin write routes |
| `Sessions` | login and `auth` |
| `ApiClient` | `api.js` |

`Seqs`, `Sorting`, `Strings` and `Wrappers` hold the JavaScript built-ins the code relies
on: `filter`, a stable `sort`, `split`, `trim`, `toLowerCase` and `replace`.

## Model

| member | source | states |
|---|---|---|
| StoreSchema.Initial | my-portfolio-express-backend/src/db.js:17-76 | the fresh database satisfies the key constraints, holds about and logo rows whose texts and path are all '' stamped with the current time, and has empty entity and link tables |
| StoreSchema.Str | my-portfolio-express-backend/src/db.js:177-205 | a NULL text column reads as '', any other as itself |
| StoreSchema.Truthy | my-portfolio-express-backend/src/db.js:182 | `!!column` of an integer column is true exactly for a non-NULL non-zero value |
| StoreSchema.RowToCategory | my-portfolio-express-backend/src/db.js:177-183 | every text reads back as a string with '' for NULL, position as stored and 0 for NULL, active iff the column is truthy |
| StoreSchema.RowToImage | my-portfolio-express-backend/src/db.js:185-195 | texts and path default to '', home iff truthy, position as stored and 0 for NULL, a zero `created_at` reads as now, the link lists are the given ones |
| StoreSchema.RowToReference | my-portfolio-express-backend/src/db.js:197-205 | texts, year and both logo paths default to '', the image ids are the given ones |
| Tables.Find | my-portfolio-express-backend/src/db.js:250-257 | the lookup by primary key finds a row iff one carries the id, and it is a row of the table with that id |
| Tables.FindAfterInsert | my-portfolio-express-backend/src/db.js:234-249 | after inserting a row with a new key, that key finds the row and every other key finds what it found before |
| Tables.FindAfterUpdate | my-portfolio-express-backend/src/db.js:258-282 | after `UPDATE ... WHERE id=?` only that id reads differently, and only if it was stored |
| Tables.FindAfterDelete | my-portfolio-express-backend/src/db.js:283-286 | after `DELETE ... WHERE id=?` that id is gone and every other id reads as before |
| Tables.UniqueAfterInsert | my-portfolio-express-backend/src/db.js:36-37 | inserting a row whose key is not stored keeps the primary keys unique |
| Tables.UniqueAfterDelete | my-portfolio-express-backend/src/db.js:283-286 | deleting rows keeps the primary keys unique |
| Links.RightsOf | my-portfolio-express-backend/src/db.js:312-315 | the category ids read for an image are exactly the right ends of its link rows |
| Links.LeftsOf | my-portfolio-express-backend/src/db.js:316-319 | the reference ids read for an image are exactly the left ends of the link rows pointing at it |
| Links.OneRelationTwoReadings | my-portfolio-express-backend/src/db.js:316-319 | reading one link table from either end gives the same relation |
| Links.WithoutLeft | my-portfolio-express-backend/src/db.js:338 | `DELETE ... WHERE image_id=?` keeps exactly the links whose left end differs |
| Links.WithoutRight | my-portfolio-express-backend/src/db.js:284 | `DELETE ... WHERE category_id=?` keeps exactly the links whose right end differs |
| Links.LinksFrom | my-portfolio-express-backend/src/db.js:339-343 | the inserted link rows pair the entity with each listed id, in list order |
| Links.LinksTo | my-portfolio-express-backend/src/db.js:345-349 | the inserted `reference_images` rows pair each listed reference with the image, in list order |
| Links.RightsOfAppend | my-portfolio-express-backend/src/db.js:339-343 | reading appended link rows reads the old rows, then the new ones |
| Links.RightsOfReplaceRights | my-portfolio-express-backend/src/db.js:337-343 | delete-then-insert makes the entity's links exactly the new list and leaves every other entity's links alone |
| Links.LeftsOfReplaceLefts | my-portfolio-express-backend/src/db.js:344-349 | delete-then-insert from the other end makes the image's references exactly the new list and leaves other images alone |
| Links.MaybeReplaceRights | my-portfolio-express-backend/src/db.js:373-380 | links are replaced by a supplied list (an empty one clears them) and untouched when no list is supplied |
| Links.MaybeReplaceLefts | my-portfolio-express-backend/src/db.js:465-472 | the same replace-only-when-supplied rule for a reference's images |
| Links.RightsOfWithoutLeft | my-portfolio-express-backend/src/db.js:391-395 | removing one entity's links empties its reading and changes no other entity's |
| Links.RightsOfWithoutRight | my-portfolio-express-backend/src/db.js:283-286 | removing the links to a category drops exactly that id from every image's list, order kept |
| Links.LeftsOfWithoutLeft | my-portfolio-express-backend/src/db.js:475-478 | removing a reference's links drops exactly that reference from every image's list, order kept |
| Store.ChosenId | my-portfolio-express-backend/src/db.js:235 | a non-empty supplied id is used, otherwise the fresh one |
| Store.Flag | my-portfolio-express-backend/src/db.js:246 | the stored bit is 1 exactly for an explicit true |
| Store.UpdateAbout | my-portfolio-express-backend/src/db.js:211-216 | both languages are overwritten, one left out is cleared to '', the time is now, nothing else changes |
| Store.UpdateLogo | my-portfolio-express-backend/src/db.js:220-225 | path and both alt texts are overwritten with '' for absent values, the time is now, nothing else changes |
| Store.GetCategory | my-portfolio-express-backend/src/db.js:250-257 | a category is returned iff a row carries the id, and it carries that id |
| Store.ListCategories | my-portfolio-express-backend/src/db.js:226-233 | one category per row in table order, and every gettable category is listed |
| Store.CreateCategory | my-portfolio-express-backend/src/db.js:234-249 | fails iff the id is taken, else reads back with '' texts, position 0 and active iff `is_active` is true, other categories unchanged |
| Store.UpdateCategory | my-portfolio-express-backend/src/db.js:258-282 | unknown id: null and no change; known id: each supplied field (even '', 0, false) overrides, each absent one keeps the stored value, other categories unchanged |
| Store.UpdateCategoryAsWritten | my-portfolio-express-backend/src/db.js:274-279 | as written, a stored category updated without `is_active` fails on the boolean parameter |
| Store.IsActiveBindingAsWritten | my-portfolio-express-backend/src/db.js:274-279 | the bound `is_active` is the stored boolean exactly when the update leaves it out |
| Store.DeleteCategory | my-portfolio-express-backend/src/db.js:283-286 | the category is gone, other categories stay, and exactly its `image_categories` rows are removed |
| Store.ImageOf | my-portfolio-express-backend/src/db.js:293-303 | an image's category and reference ids are exactly its links in the two tables |
| Store.GetImage | my-portfolio-express-backend/src/db.js:305-321 | an image is returned iff a row carries the id; its lists are the link readings in link order |
| Store.ListImageRows | my-portfolio-express-backend/src/db.js:287-292 | the rows are a permutation of the table, newest `created_at` first; rows with equal `created_at` keep table order, one of the orders SQLite may return |
| Store.ListImages | my-portfolio-express-backend/src/db.js:287-304 | one image per row, in the `ORDER BY created_at DESC` order, each with its links |
| Store.CreateImage | my-portfolio-express-backend/src/db.js:322-351 | fails iff the id is taken, else reads back with the defaults, `createdAt` now unless supplied, and links exactly the supplied lists; every other image reads as before, its row, categories and references included |
| Store.UpdateImage | my-portfolio-express-backend/src/db.js:352-390 | unknown id: null and no change; known id: per-field override or keep, `createdAt` never changes, each link list replaced only when supplied; every other image reads as before, its categories and references included |
| Store.DeleteImage | my-portfolio-express-backend/src/db.js:391-395 | the image is gone, other images stay, and exactly its rows in both link tables are removed |
| Store.ReferenceOf | my-portfolio-express-backend/src/db.js:402-408 | a reference's image ids are exactly its `reference_images` links |
| Store.GetReference | my-portfolio-express-backend/src/db.js:410-422 | a reference is returned iff a row carries the id; its image ids are its links in link order |
| Store.ListReferences | my-portfolio-express-backend/src/db.js:396-409 | one reference per row in table order, and every gettable reference is listed |
| Store.CreateReference | my-portfolio-express-backend/src/db.js:423-445 | fails iff the id is taken, else reads back with '' defaults and links exactly the supplied images |
| Store.UpdateReference | my-portfolio-express-backend/src/db.js:446-474 | unknown id: null and no change; known id: per-field override or keep, image links replaced only when supplied |
| Store.DeleteReference | my-portfolio-express-backend/src/db.js:475-478 | the reference is gone and exactly its `reference_images` rows are removed |
| StoreProperties.ImageReferenceAgreement | my-portfolio-express-backend/src/db.js:316-319 | r is among image i's references exactly when i is among reference r's images |
| StoreProperties.CreateImageLinksReferences | my-portfolio-express-backend/src/db.js:344-349 | after `createImage`, a stored reference lists the new image exactly when the image named it |
| StoreProperties.DeleteCategoryCascade | my-portfolio-express-backend/src/db.js:283-286 | deleting a category keeps every image and only drops that category from its list |
| StoreProperties.DeleteImageCascade | my-portfolio-express-backend/src/db.js:391-395 | deleting an image keeps every reference and only drops that image from its list |
| StoreProperties.DeleteImageKeepsOtherImages | my-portfolio-express-backend/src/db.js:391-395 | deleting an image leaves every other image and its categories alone |
| StoreProperties.DeleteReferenceCascade | my-portfolio-express-backend/src/db.js:475-478 | deleting a reference keeps every image and only drops that reference from its list |
| StoreProperties.DeleteMissingCategoryIsNoOp | my-portfolio-express-backend/src/db.js:283-286 | deleting an id that is neither stored nor linked changes nothing |
| StoreProperties.DeleteMissingCategoryDropsDanglingLinks | my-portfolio-express-backend/src/db.js:283-286 | deleting an unstored category id still removes its dangling links and no category |
| StoreProperties.ListedImagesAreGettable | my-portfolio-express-backend/src/db.js:287-321 | every listed image is exactly what `getImage` returns for its id |
| StoreProperties.EveryImageIsListed | my-portfolio-express-backend/src/db.js:287-321 | every gettable image appears in the list |
| StoreProperties.ListImagesNewestFirst | my-portfolio-express-backend/src/db.js:290 | the listed images are in descending `createdAt` order |
| StoreProperties.EmptyCategoryUpdateKeepsCategory | my-portfolio-express-backend/src/db.js:258-282 | an update that supplies no field reads back the stored category |
| StoreProperties.UpdateCategoryIdempotent | my-portfolio-express-backend/src/db.js:258-282 | applying the same update twice reads back what one application did |
| StoreProperties.TitleOnlyUpdateFailsAsWritten | my-portfolio-express-backend/src/db.js:274-279 | a title-only update fails as written, while the corrected update renames and keeps the active flag |
| Localization.PickLang | my-portfolio-express-backend/src/index.js:59-62 | a plain string is returned unchanged, else the first non-empty of the requested language, `en`, `tr`, else '' |
| Localization.PickLangIsOneOfTheTranslations | my-portfolio-express-backend/src/index.js:59-62 | the pick is one of the two texts, and is non-empty whenever one of them is |
| Localization.PrimarySubtag | my-portfolio-express-backend/src/index.js:54 | the header's prefix up to the first ',' or '-' |
| Localization.RequestLang | my-portfolio-express-backend/src/index.js:50-57 | always `en` or `tr`; a non-empty `lang` query decides alone, lowercased, else the first Accept-Language subtag |
| Localization.UpperCaseQuerySelectsTurkish | my-portfolio-express-backend/src/index.js:51 | `?lang=TR` selects Turkish whatever the header |
| Localization.UpperCaseHeaderFallsBackToEnglish | my-portfolio-express-backend/src/index.js:54-55 | an upper-case `TR-tr` header is not lowercased and falls back to English |
| Localization.RegionalHeaderSelectsTurkish | my-portfolio-express-backend/src/index.js:54-55 | a `tr-...` header selects Turkish |
| Media.BuildMedia | my-portfolio-express-backend/src/index.js:64-75 | null for an empty path, an `http` path verbatim, else the base, '/', then the path without its leading '/'; the medium url equals the url |
| Media.MediaBaseUrl | my-portfolio-express-backend/src/index.js:66-67 | a configured base wins, otherwise exactly protocol, `://` and host |
| Query.Coalesce | my-portfolio-express-backend/src/index.js:248 | `a ?? b` takes `a` unless it is undefined or null |
| Query.ParseBool | my-portfolio-express-backend/src/index.js:150-158 | booleans unchanged, a number is true iff 1, a string iff its lowercase is true/on/1/yes, anything else false |
| Query.ParseBoolIgnoresCase | my-portfolio-express-backend/src/index.js:153-155 | strings equal up to case parse alike |
| Query.ToNumber | my-portfolio-express-backend/src/index.js:161 | `Number(val)` on integers: numbers as themselves, booleans 1/0, blank strings and null 0, a trimmed optionally signed digit string its signed decimal value, other strings NaN |
| Query.NumberOfText | my-portfolio-express-backend/src/index.js:161 | a trimmed non-empty string is a number iff it is an optionally signed digit string, and then its value is the digits' decimal value, negated after a '-' |
| Query.Digits | my-portfolio-express-backend/src/index.js:161 | the printed form of a natural number is a digit string without a leading zero whose decimal value is the number |
| Query.DigitsOfValue | my-portfolio-express-backend/src/index.js:161 | a digit string without a leading zero is the printed form of its own value |
| Query.Printed | my-portfolio-express-backend/src/index.js:161 | the printed form of an integer is a trimmed, optionally signed digit string denoting it |
| Query.NumberOfPrinted | my-portfolio-express-backend/src/index.js:161 | `Number(String(n))` is `n` for every integer |
| Query.ParseNumber | my-portfolio-express-backend/src/index.js:160-163 | a finite parse is used, NaN gives the fallback |
| Query.PickQuery | my-portfolio-express-backend/src/index.js:165-170 | the value of the first listed key present, undefined iff none is present |
| Query.TitleMatchesEitherTranslation | my-portfolio-express-backend/src/index.js:259-263 | a category matches iff its non-empty en or tr title equals the query ignoring case |
| Query.MatchingCategoryIds | my-portfolio-express-backend/src/index.js:258-265 | an id is listed iff some category with that id has a matching title |
| Query.SequentialFiltersSelect | my-portfolio-express-backend/src/index.js:247-269 | applying the home filter, then the category filter, equals one filter by the combined condition |
| Query.FilterImages | my-portfolio-express-backend/src/index.js:247-269 | the result is an order-preserving subsequence holding exactly the images that pass both filters |
| ImageList.RequestFilters | my-portfolio-express-backend/src/index.js:247-265 | the home filter applies iff a home value is given and is its `parseBool`; a truthy string title is matched against the categories; a truthy non-string title fails the request iff some category has an en or tr title, and otherwise matches no category |
| ImageList.SharedCategoryIsMatchingLink | my-portfolio-express-backend/src/index.js:258-268 | an image passes the category filter iff one of its linked categories has a matching title |
| ImageList.NewestFirstList | my-portfolio-express-backend/src/index.js:243 | the re-sorted list is a permutation of the listed images (same multiset) in descending `createdAt` order |
| ImageList.SelectedIsPasses | my-portfolio-express-backend/src/index.js:247-268 | the pipeline's per-image test is exactly passing the requested filters |
| ImageList.SelectImages | my-portfolio-express-backend/src/index.js:243-269 | the selection is the newest-first list filtered by `Passes` (home flag and category match), so it is newest first and keeps each passing image as often as it is listed |
| ImageList.SelectImagesOrdered | my-portfolio-express-backend/src/index.js:243-269 | filtering a newest-first list keeps it newest first |
| ImageList.RequestedPage | my-portfolio-express-backend/src/index.js:271-274 | a sent non-null value (body first, then query) is read with `parseNumber(v, 1)`; an absent or null one gives page 1 |
| ImageList.RequestedPageSize | my-portfolio-express-backend/src/index.js:275-280 | a sent non-null value is read with `parseNumber(v, 25)`; an absent or null one gives the result count, or 1 for none |
| ImageList.FormatAll | my-portfolio-express-backend/src/index.js:285-287 | one view per image, in order, each the `formatImage` of its image against all listed categories and references |
| ImageList.ImagesRoute | my-portfolio-express-backend/src/index.js:240-297 | fails iff a truthy non-string title meets a titled category; otherwise the total, page count and data are those of the selected images |
| ImageList.ImagesRouteTotal | my-portfolio-express-backend/src/index.js:243-269 | the reported total is the number of listed images that pass the filters, counted with multiplicity |
| ImageList.SelectedCount | my-portfolio-express-backend/src/index.js:243-269 | the selection is a permutation of the listed images that pass the filters |
| ImageList.SelectImagesArePassing | my-portfolio-express-backend/src/index.js:247-269 | the home and category filters together keep exactly the images `Passes` accepts |
| ImageList.UnparsablePageSizeIs25 | my-portfolio-express-backend/src/index.js:275-280 | `pagination[pageSize]=abc` gives page size 25 |
| ImageList.LettersAreNaN | my-portfolio-express-backend/src/index.js:161 | `Number('abc')` is NaN |
| ImageList.ImagesRouteWindow | my-portfolio-express-backend/src/index.js:281-282 | for page and page size at least 1, the data are the selected images from `(page-1)*pageSize` on, in order, at most `pageSize` of them |
| ImageList.ResortKeepsStoreOrder | my-portfolio-express-backend/src/index.js:243 | re-sorting the store's newest-first list changes nothing |
| ImageList.NonStringTitleResponse | my-portfolio-express-backend/src/index.js:254-268 | a truthy non-string title is a server error iff some category has a title, and otherwise an empty first page |
| ImageList.PlainRequestListsEverything | my-portfolio-express-backend/src/index.js:271-295 | a request without parameters returns every image on one page |
| ImageList.ReturnedImagesPassFilters | my-portfolio-express-backend/src/index.js:240-287 | every returned view is the projection of a stored image that passes the filters |
| Pagination.SliceBound | my-portfolio-express-backend/src/index.js:282 | a `slice` bound counts back from the end when negative and is clamped to the length |
| Pagination.JsSlice | my-portfolio-express-backend/src/index.js:282 | `slice` with ordered non-negative bounds is the clamped subsequence, and empty when the bounds cross |
| Pagination.PageCountOf | my-portfolio-express-backend/src/index.js:292 | for a positive page size, the ceiling of total/pageSize and at least 1; Infinity for page size 0 and a non-empty list |
| Pagination.Paginate | my-portfolio-express-backend/src/index.js:281-294 | data is the slice from `(page-1)*pageSize`; total, page, page size and page count are reported |
| Pagination.PageWindow | my-portfolio-express-backend/src/index.js:281-282 | the page's k-th entry is the result at offset + k |
| Pagination.PageHoldsResults | my-portfolio-express-backend/src/index.js:282 | whatever the page and size, a page only holds results |
| Pagination.DefaultPageSize | my-portfolio-express-backend/src/index.js:278 | `results.length \|\| 1` is at least 1 and at least the count |
| Pagination.WholeListOnFirstPage | my-portfolio-express-backend/src/index.js:275-292 | without a page size, page 1 is the whole list and the only page |
| Pagination.ResultOnItsPage | my-portfolio-express-backend/src/index.js:281-292 | result i is on page `i/pageSize + 1` at `i%pageSize`, within the page count |
| Pagination.AllPagesRebuildList | my-portfolio-express-backend/src/index.js:281-292 | the pages read in turn give back the whole list |
| Projection.Resolve | my-portfolio-express-backend/src/index.js:91-93 | ids resolve in link order, dangling ids are dropped, and every result is from the pool |
| Projection.FormatCategory | my-portfolio-express-backend/src/index.js:77-87 | a category view picks the language, keeps both translations, position and active flag |
| Projection.CategoryViews | my-portfolio-express-backend/src/index.js:94 | one view per category, in order, each the `formatCategory` of its category |
| Projection.StubReferenceViews | my-portfolio-express-backend/src/index.js:95-98 | one view per reference, in order, each formatted with its images as stubs, the stubs being the reference's image ids in link order |
| Projection.FormatImage | my-portfolio-express-backend/src/index.js:89-115 | id, home flag, position and both translation bundles are the image's; categories are the `formatCategory` views of the resolved links and references the stub views of the resolved links, in link order with dangling ids dropped; with empty pools the view is a leaf |
| Projection.FormatReference | my-portfolio-express-backend/src/index.js:117-135 | both translation bundles, year and logos are the reference's; skipping images gives one stub per linked id; expanding gives the `formatImage` (with empty pools) of each resolved image, dangling ids dropped, every nested image a leaf |
| Projection.LeafViews | my-portfolio-express-backend/src/index.js:127-130 | each expanded image is formatted with no categories and no references, in order, so each is a leaf |
| ReadRoutes.AboutRoute | my-portfolio-express-backend/src/index.js:186-198 | the text is one of the two translations, the requested one when non-empty, and empty only when both are |
| ReadRoutes.LogoRoute | my-portfolio-express-backend/src/index.js:200-210 | the image is `buildMedia` of the stored path, null iff the path is empty; the alt text follows `pickLang`: the requested translation when non-empty, else the other one, '' only when both are empty |
| ReadRoutes.CategoriesInDisplayOrder | my-portfolio-express-backend/src/index.js:213-215 | a permutation of the stored categories in ascending position, equal positions in table order |
| ReadRoutes.StoredCategoryId | my-portfolio-express-backend/src/db.js:226-233 | a listed category carries the id of a stored row |
| ReadRoutes.CategoriesRoute | my-portfolio-express-backend/src/index.js:212-219 | the views are `formatCategory` of the categories in display order: ascending position, every stored category shown, each id once under the primary-key constraint |
| ReadRoutes.DisplayOrderIdsDistinct | my-portfolio-express-backend/src/index.js:212-219 | under the primary-key constraint the sorted categories carry distinct ids |
| ReadRoutes.ReferencesRoute | my-portfolio-express-backend/src/index.js:221-226 | one view per reference in table order, each the `formatReference` of its reference with images as stubs, listing stubs for exactly its linked image ids |
| ReadRoutes.ReferencesRouteStubsAreLinks | my-portfolio-express-backend/src/index.js:221-226 | a reference view shows a stub for an image iff the store links them |
| ReadRoutes.ImageRoute | my-portfolio-express-backend/src/index.js:228-238 | 404 iff the image is unknown; otherwise the view is the `formatImage` of the stored image against all listed categories and references, so it lists exactly its linked categories and references that exist |
| ReadRoutes.KnownCategoryIsStored | my-portfolio-express-backend/src/index.js:92 | an id is found among the listed categories iff the category is stored |
| ReadRoutes.KnownReferenceIsStored | my-portfolio-express-backend/src/index.js:96 | an id is found among the listed references iff the reference is stored |
| Sessions.AdminPassword | my-portfolio-express-backend/src/index.js:18 | the configured password when non-empty, else `change-me`; never empty |
| Sessions.Login | my-portfolio-express-backend/src/index.js:172-184 | a token is issued iff the password is non-empty and correct; it maps to a session expiring a day after now; a refusal changes nothing |
| Sessions.BearerToken | my-portfolio-express-backend/src/index.js:138 | the header with its first `Bearer ` cut out wherever it sits, the header itself when it has none, '' when absent |
| Sessions.BearerCutMidHeader | my-portfolio-express-backend/src/index.js:138 | `Token Bearer abc` becomes `Token abc` |
| Sessions.Auth | my-portfolio-express-backend/src/index.js:137-148 | admits iff the token names a live session and refreshes `lastSeen`; an expired token is removed; other requests change nothing |
| Sessions.LoginThenAuth | my-portfolio-express-backend/src/index.js:137-184 | a fresh token is admitted exactly until a day has passed, then refused and removed |
| Sessions.FailedLoginChangesNothing | my-portfolio-express-backend/src/index.js:172-176 | a wrong password leaves every later `auth` decision as it was |
| Sessions.AuthDoesNotExtendExpiry | my-portfolio-express-backend/src/index.js:137-148 | `auth` never changes a session's creation or expiry time |
| AdminRoutes.TextOr | my-portfolio-express-backend/src/index.js:431-432 | `field ?? fallback` on a body text: the string if one was sent, else the fallback |
| AdminRoutes.StoreText | my-portfolio-express-backend/src/db.js:269-272 | the field as the store sees it: present iff a string was sent, agreeing with `??` for every fallback |
| AdminRoutes.IdList | my-portfolio-express-backend/src/index.js:396 | every entry of a split, trimmed and filtered list is non-empty, comma-free and trimmed |
| AdminRoutes.IdListOfEmpty | my-portfolio-express-backend/src/index.js:441-447 | an empty list field gives no ids |
| AdminRoutes.IdListOfJoin | my-portfolio-express-backend/src/index.js:441-447 | parsing the comma-join of list ids gives back exactly those ids |
| AdminRoutes.UploadPath | my-portfolio-express-backend/src/index.js:386 | an upload is served under `/uploads/` followed by its file name |
| AdminRoutes.NewPath | my-portfolio-express-backend/src/index.js:456-460 | no path iff neither a non-empty remote URL nor a file was sent; the URL wins over the file |
| AdminRoutes.PutAbout | my-portfolio-express-backend/src/index.js:299-303 | `translations` is used when sent, else the top-level fields; each language is its string or ''; nothing else changes |
| AdminRoutes.PostLogo | my-portfolio-express-backend/src/index.js:305-321 | 400 iff neither a remote URL nor a file was sent; else the URL or upload path with the alt texts or '' |
| AdminRoutes.PositionOf | my-portfolio-express-backend/src/index.js:335 | `parseNumber(position, 0)` |
| AdminRoutes.PostCategory | my-portfolio-express-backend/src/index.js:323-339 | '' texts, position 0 and active unless `is_active` parses false |
| AdminRoutes.PatchCategory | my-portfolio-express-backend/src/index.js:341-356 | over the corrected store update: 404 iff unknown; each sent text overrides, a null or absent one keeps; position and flag are parsed when sent |
| AdminRoutes.PatchCategoryAsWritten | my-portfolio-express-backend/src/index.js:341-356 | over the store as written: a body without `is_active` on a stored category makes the store throw (a 500); any other body behaves as `PatchCategory` |
| AdminRoutes.PatchCategoryIdempotent | my-portfolio-express-backend/src/index.js:341-356 | sending the same PATCH twice reads back what one did |
| AdminRoutes.IdListOr | my-portfolio-express-backend/src/index.js:395-400 | a missing or empty list field gives no ids, else the parsed list |
| AdminRoutes.PostImage | my-portfolio-express-backend/src/index.js:363-405 | defaults '', home false, position 0, path '' when neither URL nor file; `createdAt` is now; links are the parsed lists |
| AdminRoutes.CompletePair | my-portfolio-express-backend/src/index.js:428-438 | no pair iff neither language was sent; a half-sent pair is completed from the existing record |
| AdminRoutes.ImagePatch | my-portfolio-express-backend/src/index.js:427-461 | each field of the update, read against the existing image, is the sent value or the existing one |
| AdminRoutes.PatchImage | my-portfolio-express-backend/src/index.js:407-465 | 404 iff unknown; 500 iff a list field is null; else per-field merge, `createdAt` kept, lists replaced only when sent |
| AdminRoutes.PatchImageSetsListedCategories | my-portfolio-express-backend/src/index.js:441-447 | sending a joined list of ids makes exactly those the image's categories |
| AdminRoutes.PatchImageEmptyListClearsCategories | my-portfolio-express-backend/src/index.js:441-447 | sending an empty `categories` field removes every category link of the image |
| AdminRoutes.PatchImageIdempotent | my-portfolio-express-backend/src/index.js:407-465 | sending the same PATCH twice reads back what one did |
| AdminRoutes.PostReference | my-portfolio-express-backend/src/index.js:472-516 | '' defaults, each logo from its URL or upload or '', images from the parsed list |
| AdminRoutes.PatchReference | my-portfolio-express-backend/src/index.js:518-583 | 404 iff unknown; 500 iff `images` is null; else per-field merge, each logo replaced only by a new URL or upload, images replaced only when sent |
| ApiClient.StripTrailingSlash | my-portfolio-frontend/src/lib/api.js:3 | the result has no trailing '/' and the input is the result followed only by '/' |
| ApiClient.StripTrailingSlashIdempotent | my-portfolio-frontend/src/lib/api.js:3 | stripping twice strips nothing more |
| ApiClient.EnsureLeadingSlash | my-portfolio-frontend/src/lib/api.js:4 | the result starts with '/' and equals the input iff the input already did |
| ApiClient.EnsureLeadingSlashIdempotent | my-portfolio-frontend/src/lib/api.js:4 | applying it twice changes nothing more |
| ApiClient.NormalizePathForBase | my-portfolio-frontend/src/lib/api.js:61-71 | starts with '/'; exactly one leading `/api` is dropped when the base ends in `/api` and the path starts with `/api/`, else only slash-normalised |
| ApiClient.ApiUrl | my-portfolio-frontend/src/lib/api.js:73 | the base followed by the normalised path |
| ApiClient.ApiUrlJoinsWithOneSlash | my-portfolio-frontend/src/lib/api.js:73 | with a stripped base, the url is the base, '/', then the path without its leading '/' |
| ApiClient.ApiPrefixAbsorbed | my-portfolio-frontend/src/lib/api.js:66-68 | on an `/api` base, `/api/x` and `/x` give the same URL |
| ApiClient.NoDoubledApiSegment | my-portfolio-frontend/src/lib/api.js:65-68 | on an `/api` base the URL never reads `/api/api/` unless the path itself did |
| ApiClient.WithBase | my-portfolio-frontend/src/lib/api.js:75-79 | missing or empty input is returned as is, `http` input unchanged, anything else is `apiUrl(input)`: the base and one '/' |
| Strings.Lower | my-portfolio-express-backend/src/index.js:262 | `toLowerCase` maps each character on its own, keeping the length |
| Strings.EqualsIgnoreCaseIsLowerEquality | my-portfolio-express-backend/src/index.js:262 | the title comparison is equality of lowercased strings |
| Strings.Split | my-portfolio-express-backend/src/index.js:396 | `split` yields at least one piece and no piece holds the separator |
| Strings.SplitJoin | my-portfolio-express-backend/src/index.js:396 | joining the pieces of a split gives back the string |
| Strings.JoinSplit | my-portfolio-express-backend/src/index.js:396 | splitting a join of separator-free pieces gives back the pieces |
| Strings.Trim | my-portfolio-express-backend/src/index.js:396 | only whitespace at the two ends is removed: the result is a contiguous piece of the input with whitespace before and after it, itself trimmed, and empty iff the input was all whitespace |
| Strings.TrimOfTrimmed | my-portfolio-express-backend/src/index.js:396 | trimming a trimmed string changes nothing |
| Strings.ReplaceFirst | my-portfolio-express-backend/src/index.js:138 | `replace` with a string pattern changes nothing when the pattern does not occur, and otherwise replaces its first occurrence, wherever it sits, keeping the rest |
| Strings.TakeUntil | my-portfolio-express-backend/src/index.js:54 | the prefix before the first separator |
| Seqs.Filter | my-portfolio-express-backend/src/index.js:251 | `filter` keeps exactly the passing elements, in order |
| Seqs.FilterAppend | my-portfolio-express-backend/src/index.js:251 | filtering distributes over concatenation |
| Seqs.FilterFilter | my-portfolio-express-backend/src/index.js:251-268 | two filters in turn equal one filter by both tests |
| Seqs.FilterMultiset | my-portfolio-express-backend/src/index.js:251 | each element is kept as often as it occurs if it passes, otherwise not at all |
| Seqs.FilterPermutation | my-portfolio-express-backend/src/index.js:243-251 | filtering two permutations of each other gives two permutations of each other, of equal length |
| Sorting.SortBy | my-portfolio-express-backend/src/index.js:213-215 | the comparator sort returns a sorted permutation |
| Sorting.SortByStable | my-portfolio-express-backend/src/index.js:213-215 | the sort is stable: elements with equal keys keep their order |
| Sorting.SortByOfSorted | my-portfolio-express-backend/src/index.js:243 | sorting an already sorted list changes nothing |

## Left out

- Persistence is not modelled: better-sqlite3, the WAL pragma, the `created_at` migration and
  `seedIfEmpty`. Each store call is one atomic step, so the window between a row write and its
  link replacement does not exist here.
- Express plumbing is left out: CORS, body parsing, static mounts, `app.listen` and the `GET /`
  status route. The 500 handler appears only as the `Failed` outcomes.
- Route composition is left out. The `auth` guard in front of each admin route is `Sessions.Auth`,
  and each handler is modelled as if admitted. A refused request reaches no handler.
- The three DELETE routes have no wrapper of their own. They call `Store.DeleteCategory`,
  `Store.DeleteImage` and `Store.DeleteReference` and answer 204.
- Multer is not modelled: disk storage, the `Date.now()-name` file naming and the sanitising
  regular expression. An upload is the stored file name, as an optional parameter.
- `crypto.randomUUID()` is a `freshId` parameter with no precondition. A taken id is the
  primary-key failure, returned as `Rejected` with the database unchanged.
- Query.ToNumber: reads only integers. Fractions, exponents, hexadecimal literals, `Infinity`
  and one-element arrays are NaN here, although `Number()` accepts them.
- Pagination.PageCountOf: uses integer division in place of floating-point `Math.ceil`.
  Page and page size are integers, so fractional ones are not modelled.
- Strings.Lower: lowercases only ASCII letters. JavaScript's `toLowerCase` is Unicode-aware.
- Strings.Trim: removes only ASCII whitespace. JavaScript's `trim` also removes Unicode spaces
  and line terminators.
- Body fields of other JSON types are not modelled. Text fields are absent, null or strings.
  The source's failures on other types are missing:
  - a number or array where a list string is expected makes `.split` throw;
  - a null `title` object in `POST /admin/categories` makes `title.en` throw.
- AdminRoutes.PostLogo: stores a null alt text as ''. The route binds null, so
  `GET /api/logo` would show null in its translations.
- AdminRoutes.PutAbout: takes `translations` as an object of language fields. A non-object
  value there is not modelled.
- `updateAbout` and `updateLogo` overwrite every column: an omitted language is cleared, not
  kept. The model follows the code.
- Store.ListImageRows: fixes table order for rows with equal `created_at`. SQLite leaves that
  order unspecified, and seeded rows share the default timestamp. The route's stable re-sort
  keeps whatever order the store returns, so the model shows one admissible order.
- AdminRoutes.PatchCategory: calls the corrected `Store.UpdateCategory`. The route as written
  answers 500 for a body without `is_active` on a stored category; that behaviour is
  `AdminRoutes.PatchCategoryAsWritten` (see "## Findings").
- Store.UpdateCategory: cannot receive a null `is_active`, nor `Store.UpdateImage` a null
  `home`. The store would write 0 for one; the routes never pass one.
- Media.MediaBaseUrl: is not called by any modelled route. `BuildMedia`, `ReadRoutes.LogoRoute`
  and `Projection.FormatImage` take the base URL it computes as a parameter.
- `withLang` and `parseJsonResponse` of `api.js` are left out: they depend on the WHATWG `URL`
  class, `window` and `fetch`. The `API_BASE` selection from the environment is a parameter.
- The React/Next.js UI and the translations route are not part of this model.

## Findings

| source | as written | input that shows it | evidently intended | confidence | as-written member | corrected member |
|---|---|---|---|---|---|---|
| my-portfolio-express-backend/src/db.js:274-279 | when an update leaves `is_active` out, `updateCategory` binds `existing.is_active`, a boolean made by `rowToCategory`. better-sqlite3 refuses boolean parameters, so the statement throws and the route answers 500 | `PATCH /admin/categories/:id` with body `{"title": {"en": "x"}}` on a stored category | keep the stored flag, written as 1 or 0, as `updateImage` does for `home` at db.js:368 | medium, not executed; rests on better-sqlite3's binding rules, which are not part of this model | Store.UpdateCategoryAsWritten, AdminRoutes.PatchCategoryAsWritten (shown by StoreProperties.TitleOnlyUpdateFailsAsWritten) | Store.UpdateCategory |

=== FILE: admin_routes.dfy ===
/** The admin write routes of `src/index.js`: how each request body becomes a store call.
    Bodies are form fields; a text field is absent (`None`), null, or a string. Uploaded files
    are given by the name multer stored them under. */
module AdminRoutes {
  import opened Wrappers
  import opened Seqs
  import opened Strings
  import opened Tables
  import opened Localization
  import opened StoreSchema
  import opened Store
  import opened Links
  import opened Query
  import opened Media
  import opened ReadRoutes

  /** A present text field: null, or a string. */
  datatype BodyText = Null | Text(s: string)

  /** `field ?? fallback`. */
  function TextOr(field: Option<BodyText>, fallback: string): (r: string)
    ensures field.Some? && field.value.Text? ==> r == field.value.s
    ensures field.None? || field.value.Null? ==> r == fallback
  {
    if field.Some? && field.value.Text? then field.value.s else fallback
  }

  /** The field as the store reads it: null and undefined are both absent there. */
  function StoreText(field: Option<BodyText>): (r: Option<string>)
    ensures r.Some? <==> field.Some? && field.value.Text?
    ensures forall fallback :: r.GetOr(fallback) == TextOr(field, fallback)
  {
    if field.Some? && field.value.Text? then Some(field.value.s) else None
  }

  /** A truthy text field: a non-empty string. */
  predicate Filled(field: Option<BodyText>)
  {
    field.Some? && field.value.Text? && field.value.s != ""
  }

  /** A non-empty id with no comma and no surrounding whitespace: what a list entry can be. */
  predicate IsListId(id: Id)
  {
    id != "" && ',' !in id && IsTrimmed(id)
  }

  function TrimAll(pieces: seq<string>): (r: seq<string>)
    ensures |r| == |pieces|
    ensures forall k :: 0 <= k < |r| ==> r[k] == Trim(pieces[k])
  {
    seq(|pieces|, k requires 0 <= k < |pieces| => Trim(pieces[k]))
  }

  function NonEmpty(s: string): bool
  {
    s != ""
  }

  /** `s.split(',').map((v) => v.trim()).filter(Boolean)`. */
  function IdList(s: string): (r: seq<Id>)
    ensures forall k :: 0 <= k < |r| ==> IsListId(r[k])
  {
    var pieces := Split(s, ',');
    TrimmedPiecesAreListIds(pieces);
    Filter(TrimAll(pieces), NonEmpty)
  }

  /** Trimming comma-free pieces and dropping the empty ones leaves only list ids. */
  lemma TrimmedPiecesAreListIds(pieces: seq<string>)
    requires forall i :: 0 <= i < |pieces| ==> ',' !in pieces[i]
    ensures var r := Filter(TrimAll(pieces), NonEmpty);
            forall k :: 0 <= k < |r| ==> IsListId(r[k])
  {
    var trimmed := TrimAll(pieces);
    var r := Filter(trimmed, NonEmpty);
    forall k | 0 <= k < |r| ensures IsListId(r[k]) {
      var i :| 0 <= i < |trimmed| && trimmed[i] == r[k];
      var t := Trim(pieces[i]);
      assert ',' !in t by {
        forall j | 0 <= j < |t| ensures t[j] != ',' {
          assert t[j] in pieces[i];
        }
      }
    }
  }

  /** An empty field is an empty list. */
  lemma IdListOfEmpty()
    ensures IdList("") == []
  {
    assert Split("", ',') == [""];
    assert TrimAll([""]) == [""];
  }

  /** A comma-joined list of ids reads back as that list: the form the admin panel sends. */
  lemma {:induction false} IdListOfJoin(ids: seq<Id>)
    requires |ids| >= 1
    requires forall k :: 0 <= k < |ids| ==> IsListId(ids[k])
    ensures IdList(Join(ids, ',')) == ids
  {
    JoinSplit(ids, ',');
    var trimmed := TrimAll(ids);
    forall k | 0 <= k < |ids| ensures trimmed[k] == ids[k] {
      TrimOfTrimmed(ids[k]);
    }
    assert trimmed == ids;
    FilterAllKept(ids, NonEmpty);
  }

  /** The path multer's stored file is served under. */
  function UploadPath(filename: string): (r: string)
    ensures StartsWith(r, "/uploads/")
    ensures r[9..] == filename
  {
    "/uploads/" + filename
  }

  /** The new media path of a request: a non-empty remote URL wins, then an uploaded file;
      with neither there is none. */
  function NewPath(remoteUrl: Option<BodyText>, file: Option<string>): (r: Option<string>)
    ensures r.None? <==> !Filled(remoteUrl) && file.None?
    ensures Filled(remoteUrl) ==> r == Some(remoteUrl.value.s)
    ensures !Filled(remoteUrl) && file.Some? ==> r == Some(UploadPath(file.value))
  {
    if Filled(remoteUrl) then Some(remoteUrl.value.s)
    else if file.Some? then Some(UploadPath(file.value))
    else None
  }

  // ---------------------------------------------------------------- about and logo

  /** An `{ en, tr }` pair of text fields. */
  datatype LangPair = LangPair(en: Option<BodyText>, tr: Option<BodyText>)

  /** The body of `PUT /admin/about`: a `translations` object, or `en`/`tr` at the top. */
  datatype AboutBody = AboutBody(translations: Option<LangPair>, top: LangPair)

  /** `PUT /admin/about`: the `translations` object when sent, else the top-level fields; a
      language left out or null is cleared. */
  function PutAbout(db: Db, body: AboutBody, now: int): (r: Db)
    ensures var pair := body.translations.GetOr(body.top);
            r.about.contentEn == TextOr(pair.en, "") && r.about.contentTr == TextOr(pair.tr, "")
    ensures r.about.updatedAt == now
    ensures r == db.(about := r.about)
  {
    var pair := body.translations.GetOr(body.top);
    UpdateAbout(db, StoreText(pair.en), StoreText(pair.tr), now)
  }

  /** The body of `POST /admin/logo`. */
  datatype LogoBody = LogoBody(altEn: Option<BodyText>, altTr: Option<BodyText>, remoteUrl: Option<BodyText>)

  /** The outcome of `POST /admin/logo`: saved, or 400 when neither a URL nor a file came. */
  datatype LogoOutcome = LogoSaved(db: Db) | LogoMissing

  /** `POST /admin/logo`. */
  function PostLogo(db: Db, body: LogoBody, file: Option<string>, now: int): (r: LogoOutcome)
    ensures r.LogoMissing? <==> !Filled(body.remoteUrl) && file.None?
    ensures r.LogoSaved? ==>
              && r.db.logo.imgPath == NewPath(body.remoteUrl, file).value
              && r.db.logo.altEn == TextOr(body.altEn, "")
              && r.db.logo.altTr == TextOr(body.altTr, "")
              && r.db == db.(logo := r.db.logo)
  {
    match NewPath(body.remoteUrl, file)
    case None => LogoMissing
    case Some(path) => LogoSaved(UpdateLogo(db, Some(path), StoreText(body.altEn), StoreText(body.altTr), now))
  }

  /** What `PUT /admin/about` stores is what `GET /api/about` serves. */
  lemma PutAboutThenGet(db: Db, body: AboutBody, now: int, lang: LangCode)
    ensures var pair := body.translations.GetOr(body.top);
            var view := AboutRoute(PutAbout(db, body, now), lang);
            && view.translations == Bundle(TextOr(pair.en, ""), TextOr(pair.tr, ""))
            && view.updatedAt == now
  {
  }

  /** After a saved `POST /admin/logo`, `GET /api/logo` serves the new image and texts. */
  lemma PostLogoThenGet(db: Db, body: LogoBody, file: Option<string>, now: int, lang: LangCode, baseUrl: string)
    requires PostLogo(db, body, file, now).LogoSaved?
    ensures var view := LogoRoute(PostLogo(db, body, file, now).db, lang, baseUrl);
            && view.img == BuildMedia(NewPath(body.remoteUrl, file).value, baseUrl)
            && view.translations == Bundle(TextOr(body.altEn, ""), TextOr(body.altTr, ""))
  {
  }

  // ---------------------------------------------------------------- categories

  /** The body of `POST /admin/categories` and `PATCH /admin/categories/:id`. */
  datatype CategoryBody = CategoryBody(
    title: Option<LangPair>,
    description: Option<LangPair>,
    position: Option<JsValue>,
    isActive: Option<JsValue>)

  /** `parseNumber(position, 0)`: a number that does not parse counts as 0. */
  function PositionOf(v: JsValue): (r: int)
    ensures ToNumber(v).Some? ==> r == ToNumber(v).value
    ensures ToNumber(v).None? ==> r == 0
  {
    ParseNumber(ToNumber(v), 0)
  }

  /** `POST /admin/categories`: missing texts are '', the position defaults to 0 and the
      category is active unless `is_active` says otherwise. */
  function PostCategory(db: Db, body: CategoryBody, freshId: Id): (r: Created<Category>)
    ensures r.Rejected? <==> HasKey(db.categories, CategoryKey, freshId)
    ensures r.Created? ==>
              var title := body.title.GetOr(LangPair(None, None));
              var description := body.description.GetOr(LangPair(None, None));
              && r.value.id == freshId
              && r.value.title == Bundle(TextOr(title.en, ""), TextOr(title.tr, ""))
              && r.value.description == Bundle(TextOr(description.en, ""), TextOr(description.tr, ""))
              && r.value.position == (if body.position.Some? then PositionOf(body.position.value) else 0)
              && r.value.isActive == (body.isActive.None? || ParseBool(body.isActive.value))
  {
    var title := body.title.GetOr(LangPair(None, None));
    var description := body.description.GetOr(LangPair(None, None));
    var input := CategoryInput(
      None,
      StoreText(title.en), StoreText(title.tr),
      StoreText(description.en), StoreText(description.tr),
      Some(PositionOf(body.position.GetOr(JsNumber(0)))),
      Some(ParseBool(body.isActive.GetOr(JsBool(true)))));
    CreateCategory(db, input, freshId)
  }

  /** `PATCH /admin/categories/:id`: each sent field replaces the stored one (a title or
      description object may carry one language only); a sent position that does not parse
      becomes 0; `None` is the 404 for an unknown id. */
  function PatchCategory(db: Db, id: Id, body: CategoryBody): (r: Updated<Category>)
    ensures r.value.None? <==> GetCategory(db, id).None?
    ensures r.value.None? ==> r.db == db
    ensures r.value.Some? ==>
              var before := GetCategory(db, id).value;
              var title := body.title.GetOr(LangPair(None, None));
              var description := body.description.GetOr(LangPair(None, None));
              && r.value.value.title == Bundle(TextOr(title.en, before.title.en), TextOr(title.tr, before.title.tr))
              && r.value.value.description
                   == Bundle(TextOr(description.en, before.description.en), TextOr(description.tr, before.description.tr))
              && r.value.value.position == (if body.position.Some? then PositionOf(body.position.value) else before.position)
              && r.value.value.isActive == (if body.isActive.Some? then ParseBool(body.isActive.value) else before.isActive)
  {
    UpdateCategory(db, id, CategoryPatch(body))
  }

  /** The update object `PATCH /admin/categories/:id` hands the store: only the sent fields. */
  function CategoryPatch(body: CategoryBody): CategoryInput
  {
    var title := body.title.GetOr(LangPair(None, None));
    var description := body.description.GetOr(LangPair(None, None));
    CategoryInput(
      None,
      StoreText(title.en), StoreText(title.tr),
      StoreText(description.en), StoreText(description.tr),
      if body.position.Some? then Some(PositionOf(body.position.value)) else None,
      if body.isActive.Some? then Some(ParseBool(body.isActive.value)) else None)
  }

  /** `PATCH /admin/categories/:id` over the store's `updateCategory` as written: a body without
      `is_active` on a stored id makes the store throw, which Express answers with a 500;
      every other body behaves as `PatchCategory`. */
  function PatchCategoryAsWritten(db: Db, id: Id, body: CategoryBody): (r: WriteOutcome<Category>)
    ensures r.BindFailed? <==> GetCategory(db, id).Some? && body.isActive.None?
    ensures r.Written? ==> r.result == PatchCategory(db, id, body)
  {
    UpdateCategoryAsWritten(db, id, CategoryPatch(body))
  }

  /** Sending the same category PATCH twice leaves the category as the first one did. */
  lemma PatchCategoryIdempotent(db: Db, id: Id, body: CategoryBody)
    requires PatchCategory(db, id, body).value.Some?
    ensures var first := PatchCategory(db, id, body);
            var second := PatchCategory(first.db, id, body);
            second.value == first.value
  {
    var first := PatchCategory(db, id, body);
    var second := PatchCategory(first.db, id, body);
    assert GetCategory(first.db, id) == first.value;
    assert second.value.Some?;
    assert second.value.value.id == id == first.value.value.id;
  }

  // ---------------------------------------------------------------- images

  /** The form fields of `POST /admin/images` and `PATCH /admin/images/:id`. `categories`
      and `references` are comma-separated id lists. */
  datatype ImageBody = ImageBody(
    titleEn: Option<BodyText>, titleTr: Option<BodyText>,
    altEn: Option<BodyText>, altTr: Option<BodyText>,
    home: Option<JsValue>,
    position: Option<JsValue>,
    categories: Option<BodyText>,
    references: Option<BodyText>,
    remoteUrl: Option<BodyText>)

  /** `list ? list.split(',')…: []`: a missing, null or empty field is no ids. */
  function IdListOr(field: Option<BodyText>): (r: seq<Id>)
    ensures !Filled(field) ==> r == []
    ensures Filled(field) ==> r == IdList(field.value.s)
  {
    if Filled(field) then IdList(field.value.s) else []
  }

  /** `POST /admin/images`: missing texts are '', `home` is false and the position 0 unless
      sent, the path is the remote URL or the upload (else ''), and the links are exactly the
      listed ids. */
  function PostImage(db: Db, body: ImageBody, file: Option<string>, freshId: Id, now: int): (r: Created<Image>)
    ensures r.Rejected? <==> HasKey(db.images, ImageKey, freshId)
    ensures r.Created? ==>
              && r.value.id == freshId
              && r.value.title == Bundle(TextOr(body.titleEn, ""), TextOr(body.titleTr, ""))
              && r.value.alt == Bundle(TextOr(body.altEn, ""), TextOr(body.altTr, ""))
              && r.value.home == (body.home.Some? && ParseBool(body.home.value))
              && r.value.position == (if body.position.Some? then PositionOf(body.position.value) else 0)
              && r.value.imagePath == NewPath(body.remoteUrl, file).GetOr("")
              && r.value.createdAt == now
              && r.value.categoryIds == IdListOr(body.categories)
              && r.value.referenceIds == IdListOr(body.references)
  {
    var input := ImageInput(
      None,
      StoreText(body.titleEn), StoreText(body.titleTr),
      StoreText(body.altEn), StoreText(body.altTr),
      Some(ParseBool(body.home.GetOr(JsBool(false)))),
      Some(PositionOf(body.position.GetOr(JsNumber(0)))),
      Some(NewPath(body.remoteUrl, file).GetOr("")),
      None,
      Some(IdListOr(body.categories)),
      Some(IdListOr(body.references)));
    CreateImage(db, input, freshId, now)
  }

  /** The outcome of a PATCH route: the entity read back, 404, or the server error a null id
      list causes (`null.split` throws before the store is called). */
  datatype Patched<T> = Patched(db: Db, value: T) | NotFound | Failed

  /** `(en !== undefined || tr !== undefined) ? { en: en ?? existing.en, tr: tr ?? existing.tr }
      : undefined`: a half-sent pair is completed from the stored one. */
  function CompletePair(en: Option<BodyText>, tr: Option<BodyText>, existing: Bundle): (r: Option<Bundle>)
    ensures r.None? <==> en.None? && tr.None?
    ensures r.Some? ==> r.value == Bundle(TextOr(en, existing.en), TextOr(tr, existing.tr))
  {
    if en.Some? || tr.Some? then Some(Bundle(TextOr(en, existing.en), TextOr(tr, existing.tr))) else None
  }

  /** A sent id list, or `None` when the field is absent. */
  function SentIds(field: Option<BodyText>): Option<seq<Id>>
    requires field != Some(Null)
  {
    if field.Some? then Some(IdList(field.value.s)) else None
  }

  /** The store update a `PATCH /admin/images/:id` body asks for, against the stored image:
      each field falls back to the stored value when the body leaves it out. */
  function ImagePatch(existing: Image, body: ImageBody, file: Option<string>): (input: ImageInput)
    requires body.categories != Some(Null) && body.references != Some(Null)
    ensures input.titleEn.GetOr(existing.title.en) == TextOr(body.titleEn, existing.title.en)
    ensures input.titleTr.GetOr(existing.title.tr) == TextOr(body.titleTr, existing.title.tr)
    ensures input.altEn.GetOr(existing.alt.en) == TextOr(body.altEn, existing.alt.en)
    ensures input.altTr.GetOr(existing.alt.tr) == TextOr(body.altTr, existing.alt.tr)
    ensures input.home.GetOr(existing.home) == if body.home.Some? then ParseBool(body.home.value) else existing.home
    ensures input.position.GetOr(existing.position)
            == if body.position.Some? then PositionOf(body.position.value) else existing.position
    ensures input.imagePath == NewPath(body.remoteUrl, file)
    ensures input.categoryIds.GetOr(existing.categoryIds)
            == if body.categories.Some? then IdList(body.categories.value.s) else existing.categoryIds
    ensures input.referenceIds.GetOr(existing.referenceIds)
            == if body.references.Some? then IdList(body.references.value.s) else existing.referenceIds
  {
    var title := CompletePair(body.titleEn, body.titleTr, existing.title);
    var alt := CompletePair(body.altEn, body.altTr, existing.alt);
    ImageInput(
      None,
      if title.Some? then Some(title.value.en) else None,
      if title.Some? then Some(title.value.tr) else None,
      if alt.Some? then Some(alt.value.en) else None,
      if alt.Some? then Some(alt.value.tr) else None,
      if body.home.Some? then Some(ParseBool(body.home.value)) else None,
      if body.position.Some? then Some(PositionOf(body.position.value)) else None,
      NewPath(body.remoteUrl, file),
      None,
      SentIds(body.categories),
      SentIds(body.references))
  }

  /** `PATCH /admin/images/:id`. */
  function PatchImage(db: Db, id: Id, body: ImageBody, file: Option<string>, now: int): (r: Patched<Image>)
    ensures r.NotFound? <==> GetImage(db, id, now).None?
    ensures r.Failed? <==> GetImage(db, id, now).Some? && (body.categories == Some(Null) || body.references == Some(Null))
    ensures r.Patched? ==>
              var before := GetImage(db, id, now).value;
              && GetImage(r.db, id, now) == Some(r.value)
              && r.value.title == Bundle(TextOr(body.titleEn, before.title.en), TextOr(body.titleTr, before.title.tr))
              && r.value.alt == Bundle(TextOr(body.altEn, before.alt.en), TextOr(body.altTr, before.alt.tr))
              && r.value.home == (if body.home.Some? then ParseBool(body.home.value) else before.home)
              && r.value.position == (if body.position.Some? then PositionOf(body.position.value) else before.position)
              && r.value.imagePath == NewPath(body.remoteUrl, file).GetOr(before.imagePath)
              && r.value.createdAt == before.createdAt
              && r.value.categoryIds == (if body.categories.Some? then IdList(body.categories.value.s) else before.categoryIds)
              && r.value.referenceIds == (if body.references.Some? then IdList(body.references.value.s) else before.referenceIds)
  {
    match GetImage(db, id, now)
    case None => NotFound
    case Some(existing) =>
      if body.categories == Some(Null) || body.references == Some(Null) then Failed
      else
        var input := ImagePatch(existing, body, file);
        var u := UpdateImage(db, id, input, now);
        Patched(u.db, u.value.value)
  }

  /** Sending the ids an image should link to, joined by commas, makes them its links. */
  lemma PatchImageSetsListedCategories(db: Db, id: Id, body: ImageBody, file: Option<string>, now: int,
                                       ids: seq<Id>)
    requires GetImage(db, id, now).Some?
    requires body.references != Some(Null)
    requires |ids| >= 1 && forall k :: 0 <= k < |ids| ==> IsListId(ids[k])
    requires body.categories == Some(Text(Join(ids, ',')))
    ensures var r := PatchImage(db, id, body, file, now);
            r.Patched? && r.value.categoryIds == ids && GetImage(r.db, id, now).value.categoryIds == ids
  {
    IdListOfJoin(ids);
  }

  /** An empty `categories` field unlinks the image from every category. */
  lemma PatchImageEmptyListClearsCategories(db: Db, id: Id, body: ImageBody, file: Option<string>, now: int)
    requires GetImage(db, id, now).Some?
    requires body.references != Some(Null)
    requires body.categories == Some(Text(""))
    ensures var r := PatchImage(db, id, body, file, now);
            r.Patched? && r.value.categoryIds == [] && RightsOf(r.db.imageCategories, id) == []
  {
    IdListOfEmpty();
  }

  /** Sending the same PATCH twice leaves the image as the first one did. */
  lemma PatchImageIdempotent(db: Db, id: Id, body: ImageBody, file: Option<string>, now: int)
    requires PatchImage(db, id, body, file, now).Patched?
    ensures var first := PatchImage(db, id, body, file, now);
            var second := PatchImage(first.db, id, body, file, now);
            second.Patched? && second.value == first.value
  {
    var first := PatchImage(db, id, body, file, now);
    var second := PatchImage(first.db, id, body, file, now);
    assert GetImage(first.db, id, now) == Some(first.value);
    assert second.Patched?;
    assert second.value.id == id == first.value.id;
  }

  // ---------------------------------------------------------------- references

  /** The form fields of `POST /admin/references` and `PATCH /admin/references/:id`. */
  datatype ReferenceBody = ReferenceBody(
    titleEn: Option<BodyText>, titleTr: Option<BodyText>,
    descriptionEn: Option<BodyText>, descriptionTr: Option<BodyText>,
    year: Option<BodyText>,
    images: Option<BodyText>,
    remoteLogoLight: Option<BodyText>,
    remoteLogoDark: Option<BodyText>)

  /** `POST /admin/references`: missing texts are '', each logo is its remote URL or its upload
      (else ''), and the image links are exactly the listed ids. */
  function PostReference(db: Db, body: ReferenceBody, lightFile: Option<string>, darkFile: Option<string>,
                         freshId: Id): (r: Created<Reference>)
    ensures r.Rejected? <==> HasKey(db.references, ReferenceKey, freshId)
    ensures r.Created? ==>
              && r.value.id == freshId
              && r.value.title == Bundle(TextOr(body.titleEn, ""), TextOr(body.titleTr, ""))
              && r.value.description == Bundle(TextOr(body.descriptionEn, ""), TextOr(body.descriptionTr, ""))
              && r.value.year == TextOr(body.year, "")
              && r.value.logoLightPath == NewPath(body.remoteLogoLight, lightFile).GetOr("")
              && r.value.logoDarkPath == NewPath(body.remoteLogoDark, darkFile).GetOr("")
              && r.value.imageIds == IdListOr(body.images)
  {
    var input := ReferenceInput(
      None,
      StoreText(body.titleEn), StoreText(body.titleTr),
      StoreText(body.descriptionEn), StoreText(body.descriptionTr),
      StoreText(body.year),
      Some(NewPath(body.remoteLogoLight, lightFile).GetOr("")),
      Some(NewPath(body.remoteLogoDark, darkFile).GetOr("")),
      Some(IdListOr(body.images)));
    CreateReference(db, input, freshId)
  }

  /** `PATCH /admin/references/:id`. */
  function PatchReference(db: Db, id: Id, body: ReferenceBody, lightFile: Option<string>, darkFile: Option<string>)
    : (r: Patched<Reference>)
    ensures r.NotFound? <==> GetReference(db, id).None?
    ensures r.Failed? <==> GetReference(db, id).Some? && body.images == Some(Null)
    ensures r.Patched? ==>
              var before := GetReference(db, id).value;
              && GetReference(r.db, id) == Some(r.value)
              && r.value.title == Bundle(TextOr(body.titleEn, before.title.en), TextOr(body.titleTr, before.title.tr))
              && r.value.description
                   == Bundle(TextOr(body.descriptionEn, before.description.en), TextOr(body.descriptionTr, before.description.tr))
              && r.value.year == TextOr(body.year, before.year)
              && r.value.logoLightPath == NewPath(body.remoteLogoLight, lightFile).GetOr(before.logoLightPath)
              && r.value.logoDarkPath == NewPath(body.remoteLogoDark, darkFile).GetOr(before.logoDarkPath)
              && r.value.imageIds == (if body.images.Some? then IdList(body.images.value.s) else before.imageIds)
  {
    match GetReference(db, id)
    case None => NotFound
    case Some(existing) =>
      if body.images == Some(Null) then Failed
      else
        var title := CompletePair(body.titleEn, body.titleTr, existing.title);
        var description := CompletePair(body.descriptionEn, body.descriptionTr, existing.description);
        var input := ReferenceInput(
          None,
          if title.Some? then Some(title.value.en) else None,
          if title.Some? then Some(title.value.tr) else None,
          if description.Some? then Some(description.value.en) else None,
          if description.Some? then Some(description.value.tr) else None,
          StoreText(body.year),
          NewPath(body.remoteLogoLight, lightFile),
          NewPath(body.remoteLogoDark, darkFile),
          SentIds(body.images));
        var u := UpdateReference(db, id, input);
        Patched(u.db, u.value.value)
  }
}

=== FILE: api_client.dfy ===
/** The gallery site's URL helpers (`src/lib/api.js` of the frontend). `API_BASE` is a
    parameter here; the site derives it from the environment through `StripTrailingSlash`. */
module ApiClient {
  import opened Wrappers
  import opened Strings

  /** `s.replace(/\/+$/, "")`: removes the whole run of trailing slashes. */
  function StripTrailingSlash(s: string): (r: string)
    ensures StartsWith(s, r)
    ensures r == [] || r[|r| - 1] != '/'
    ensures forall i :: |r| <= i < |s| ==> s[i] == '/'
  {
    if s != [] && s[|s| - 1] == '/' then StripTrailingSlash(s[..|s| - 1]) else s
  }

  /** A base in the form the site computes has nothing left to strip. */
  lemma StripTrailingSlashIdempotent(s: string)
    ensures StripTrailingSlash(StripTrailingSlash(s)) == StripTrailingSlash(s)
  {
  }

  /** Prepends '/' unless the string already starts with one. */
  function EnsureLeadingSlash(s: string): (r: string)
    ensures StartsWith(r, "/")
    ensures r == s <==> StartsWith(s, "/")
    ensures r != s ==> r == "/" + s
  {
    if StartsWith(s, "/") then s else "/" + s
  }

  lemma EnsureLeadingSlashIdempotent(s: string)
    ensures EnsureLeadingSlash(EnsureLeadingSlash(s)) == EnsureLeadingSlash(s)
  {
  }

  /** The base already names the `/api` mount point. */
  predicate MountedAtApi(apiBase: string)
  {
    EndsWith(apiBase, "/api")
  }

  /** `normalizePathForBase`: slash-normalise the path, then drop one leading "/api"
      when the base already ends in "/api" and the path starts with "/api/". */
  function NormalizePathForBase(apiBase: string, path: string): (r: string)
    ensures StartsWith(r, "/")
    ensures MountedAtApi(apiBase) && StartsWith(EnsureLeadingSlash(path), "/api/")
            ==> "/api" + r == EnsureLeadingSlash(path)
    ensures !(MountedAtApi(apiBase) && StartsWith(EnsureLeadingSlash(path), "/api/"))
            ==> r == EnsureLeadingSlash(path)
  {
    var p := EnsureLeadingSlash(path);
    if MountedAtApi(apiBase) && StartsWith(p, "/api/") then
      assert p == "/api" + p[4..];
      p[4..]
    else p
  }

  /** `apiUrl(path)`: the base followed by the normalised path. */
  function ApiUrl(apiBase: string, path: string): (r: string)
    ensures StartsWith(r, apiBase)
    ensures r[|apiBase|..] == NormalizePathForBase(apiBase, path)
  {
    var tail := NormalizePathForBase(apiBase, path);
    assert (apiBase + tail)[..|apiBase|] == apiBase;
    apiBase + tail
  }

  /** With a base as the site computes it (no trailing slash), base and path are joined by exactly one '/'. */
  lemma {:induction false} ApiUrlJoinsWithOneSlash(apiBase: string, path: string)
    requires StripTrailingSlash(apiBase) == apiBase
    ensures ApiUrl(apiBase, path)[|apiBase|] == '/'
    ensures apiBase == [] || ApiUrl(apiBase, path)[|apiBase| - 1] != '/'
  {
    var r := ApiUrl(apiBase, path);
    var tail := NormalizePathForBase(apiBase, path);
    assert r[|apiBase|..] == tail;
    assert tail[0] == '/';
    if apiBase != [] {
      assert r[|apiBase| - 1] == apiBase[|apiBase| - 1];
    }
  }

  /** Under an "/api" base, "/api/x" and "/x" name the same URL: the prefix is absorbed once. */
  lemma {:induction false} ApiPrefixAbsorbed(apiBase: string, rest: string)
    requires MountedAtApi(apiBase)
    requires StartsWith(rest, "/") && !StartsWith(rest, "/api/")
    ensures ApiUrl(apiBase, "/api" + rest) == apiBase + rest
    ensures ApiUrl(apiBase, rest) == apiBase + rest
  {
    var p := "/api" + rest;
    assert p[..1] == "/";
    assert p[..5] == "/api" + rest[..1];
    assert EnsureLeadingSlash(p) == p;
    assert p[4..] == rest;
  }

  /** Under an "/api" base the URL never shows "/api/api/" right after the base, unless
      the caller's own path already started with "/api/api/". */
  lemma {:induction false} NoDoubledApiSegment(apiBase: string, path: string)
    requires MountedAtApi(apiBase)
    requires !StartsWith(EnsureLeadingSlash(path), "/api/api/")
    ensures !StartsWith(ApiUrl(apiBase, path)[|apiBase| - 4..], "/api/api/")
  {
    var r := ApiUrl(apiBase, path);
    var p := EnsureLeadingSlash(path);
    var tail := NormalizePathForBase(apiBase, path);
    assert apiBase[|apiBase| - 4..] == "/api";
    assert r[|apiBase| - 4..] == "/api" + tail;
    if StartsWith(p, "/api/") {
      assert "/api" + tail == p;
    } else {
      assert tail == p;
      if |p| >= 5 {
        assert ("/api" + p)[..9][4..] == p[..5];
      }
    }
  }

  /** `withBase(maybePath)`: falsy input and absolute 'http' URLs pass through; anything
      else goes through `apiUrl`. */
  function WithBase(apiBase: string, maybePath: Option<string>): (r: Option<string>)
    ensures maybePath.None? ==> r.None?
    ensures maybePath == Some("") ==> r == Some("")
    ensures maybePath.Some? && StartsWith(maybePath.value, "http") ==> r == maybePath
    ensures maybePath.Some? && maybePath.value != "" && !StartsWith(maybePath.value, "http")
            ==> r.Some? && StartsWith(r.value, apiBase) && |r.value| > |apiBase| && r.value[|apiBase|] == '/'
    ensures maybePath.Some? && maybePath.value != "" && !StartsWith(maybePath.value, "http")
            ==> r == Some(ApiUrl(apiBase, maybePath.value))
  {
    match maybePath
    case None => None
    case Some(p) =>
      if p == "" || StartsWith(p, "http") then maybePath
      else
        var url := ApiUrl(apiBase, p);
        assert url[|apiBase|..][0] == '/';
        Some(url)
  }
}

=== FILE: image_list.dfy ===
/** `GET /api/images` of `src/index.js`: every image newest first, the optional home and
    category-title filters, then one page of the result with its pagination metadata. */
module ImageList {
  import opened Wrappers
  import opened Seqs
  import opened Sorting
  import opened Tables
  import opened Localization
  import opened StoreSchema
  import opened Store
  import opened StoreProperties
  import opened Projection
  import opened Pagination
  import opened Query
  import opened Strings

  /** The literal bracketed keys `pickQuery` falls back to. */
  const HomeKey: string := "filters[home][$eq]"
  const TitleKey: string := "filters[categories][Title][$eq]"
  const PageKey: string := "pagination[page]"
  const PageSizeKey: string := "pagination[pageSize]"

  /** What the route reads from `req.query`: the values the query parser nests
      (`filters.home.$eq`, `filters.categories.Title.$eq`, `pagination.page`,
      `pagination.pageSize`; `None` when absent) and the flat parameter map. */
  datatype ImagesRequest = ImagesRequest(
    homeEq: Option<JsValue>,
    titleEq: Option<JsValue>,
    page: Option<JsValue>,
    pageSize: Option<JsValue>,
    query: map<string, JsValue>)

  /** A request with no parameters at all. */
  const PlainRequest: ImagesRequest := ImagesRequest(None, None, None, None, map[])

  /** `filters?.home?.$eq ?? pickQuery(req, ['filters[home][$eq]'])`. */
  function HomeParam(req: ImagesRequest): Option<JsValue>
  {
    Coalesce(req.homeEq, PickQuery(req.query, [HomeKey]))
  }

  /** `filters?.categories?.Title?.$eq ?? pickQuery(req, ['filters[categories][Title][$eq]'])`. */
  function TitleParam(req: ImagesRequest): Option<JsValue>
  {
    Coalesce(req.titleEq, PickQuery(req.query, [TitleKey]))
  }

  /** The category filter of a request. `AnyCategory`: none is applied. `TitleIs(q)`: the
      image must be linked to a category whose English or Turkish title matches `q`.
      `NoCategory`: the matching category ids came out empty without a title being compared,
      so every image is filtered out. */
  datatype TitleFilter = AnyCategory | TitleIs(q: string) | NoCategory

  /** The filters a request asks for: a home flag, and a category filter. */
  datatype Filters = Filters(home: Option<bool>, title: TitleFilter)

  /** Some stored category has a non-empty English or Turkish title, so that
      `pickLang(cat.title, …)` is truthy for it and the route calls
      `categoryTitle.toLowerCase()`. */
  predicate HasTitledCategory(db: Db)
  {
    exists k :: 0 <= k < |ListCategories(db)| && (ListCategories(db)[k].title.en != "" || ListCategories(db)[k].title.tr != "")
  }

  /** The title parameter is truthy but not a string, so it has no `toLowerCase`. */
  predicate NonStringTitle(req: ImagesRequest)
  {
    TitleParam(req).Some? && IsTruthy(TitleParam(req).value) && !TitleParam(req).value.JsString?
  }

  /** The filters of a request against the stored categories. A falsy title (absent, '', null,
      0, false) applies no category filter. A truthy title that is not a string makes
      `categoryTitle.toLowerCase()` throw, so the request ends in a server error (`None`), but
      only once `.some` reaches a truthy `pickLang` value: when no category has a title, the
      call is never made, no category matches, and every image is filtered out. */
  function RequestFilters(db: Db, req: ImagesRequest): (r: Option<Filters>)
    ensures r.None? <==> NonStringTitle(req) && HasTitledCategory(db)
    ensures r.Some? ==> (r.value.home.Some? <==> HomeParam(req).Some?)
    ensures r.Some? && HomeParam(req).Some? ==> r.value.home == Some(ParseBool(HomeParam(req).value))
    ensures r.Some? ==> (r.value.title.AnyCategory? <==> TitleParam(req).None? || !IsTruthy(TitleParam(req).value))
    ensures r.Some? ==> (r.value.title.NoCategory? <==> NonStringTitle(req))
    ensures r.Some? && r.value.title.TitleIs? ==>
              r.value.title.q != "" && TitleParam(req) == Some(JsString(r.value.title.q))
  {
    var home := if HomeParam(req).Some? then Some(ParseBool(HomeParam(req).value)) else None;
    match TitleParam(req)
    case None => Some(Filters(home, AnyCategory))
    case Some(v) =>
      if !IsTruthy(v) then Some(Filters(home, AnyCategory))
      else if v.JsString? then Some(Filters(home, TitleIs(v.s)))
      else if HasTitledCategory(db) then None
      else Some(Filters(home, NoCategory))
  }

  /** The route's re-sort `(b.createdAt || 0) - (a.createdAt || 0)`: newest first. */
  function NewestFirstImage(img: Image): int
  {
    -img.createdAt
  }

  /** Whether an image passes the filters: its home flag is the requested one, and it is linked
      to some stored category whose English or Turkish title matches the requested title. */
  predicate Passes(db: Db, img: Image, f: Filters)
  {
    && (f.home.None? || img.home == f.home.value)
    && match f.title
       case AnyCategory => true
       case TitleIs(q) =>
         exists k :: 0 <= k < |ListCategories(db)| && ListCategories(db)[k].id in img.categoryIds
                     && TitleMatches(ListCategories(db)[k].title, q)
       case NoCategory => false
  }

  /** The category test the route applies (the image shares an id with the matching
      categories) is the test `Passes` states. */
  lemma {:induction false} SharedCategoryIsMatchingLink(db: Db, img: Image, q: string)
    ensures Intersects(img.categoryIds, MatchingCategoryIds(ListCategories(db), q))
        <==> exists k :: 0 <= k < |ListCategories(db)| && ListCategories(db)[k].id in img.categoryIds
                         && TitleMatches(ListCategories(db)[k].title, q)
  {
    var cats := ListCategories(db);
    var ids := MatchingCategoryIds(cats, q);
    if Intersects(img.categoryIds, ids) {
      var i :| 0 <= i < |img.categoryIds| && img.categoryIds[i] in ids;
      var k :| 0 <= k < |cats| && cats[k].id == img.categoryIds[i] && TitleMatches(cats[k].title, q);
    }
    if exists k :: 0 <= k < |cats| && cats[k].id in img.categoryIds && TitleMatches(cats[k].title, q) {
      var k :| 0 <= k < |cats| && cats[k].id in img.categoryIds && TitleMatches(cats[k].title, q);
      var i :| 0 <= i < |img.categoryIds| && img.categoryIds[i] == cats[k].id;
      assert img.categoryIds[i] in ids;
    }
  }

  /** Every listed image, newest first. */
  function NewestFirstList(db: Db, now: int): (r: seq<Image>)
    ensures SortedBy(r, NewestFirstImage)
    ensures multiset(r) == multiset(ListImages(db, now))
    ensures forall img :: img in r <==> img in ListImages(db, now)
  {
    var r := SortBy(ListImages(db, now), NewestFirstImage);
    assert forall img :: img in r <==> img in ListImages(db, now) by {
      forall img ensures img in r <==> img in ListImages(db, now) {
        assert img in r <==> img in multiset(r);
      }
    }
    r
  }

  /** The ids of the categories whose title matches the requested title, when a category
      filter is applied. */
  function MatchingIds(db: Db, f: Filters): Option<seq<Id>>
  {
    match f.title
    case AnyCategory => None
    case TitleIs(q) => Some(MatchingCategoryIds(ListCategories(db), q))
    case NoCategory => Some([])
  }

  lemma SelectedIsPasses(db: Db, f: Filters, img: Image)
    ensures Selected(img, f.home, MatchingIds(db, f)) <==> Passes(db, img, f)
  {
    if f.title.TitleIs? {
      SharedCategoryIsMatchingLink(db, img, f.title.q);
    }
  }

  /** The test `Passes` for one request's filters. */
  function PassesFor(db: Db, f: Filters): Image -> bool
  {
    (img: Image) => Passes(db, img, f)
  }

  /** The images a request selects, before pagination: the newest-first list filtered by
      `Passes`, so newest first, each passing the filters, every listed image that passes
      among them, each as often as it is listed. */
  function SelectImages(db: Db, now: int, f: Filters): (r: seq<Image>)
    ensures r == Filter(NewestFirstList(db, now), PassesFor(db, f))
    ensures forall i, j :: 0 <= i < j < |r| ==> r[i].createdAt >= r[j].createdAt
    ensures forall k :: 0 <= k < |r| ==> r[k] in ListImages(db, now) && Passes(db, r[k], f)
    ensures forall img :: img in ListImages(db, now) && Passes(db, img, f) ==> img in r
  {
    var sorted := NewestFirstList(db, now);
    var r := FilterImages(sorted, f.home, MatchingIds(db, f));
    SelectImagesArePassing(db, f, sorted);
    SelectImagesOrdered(sorted, r, f.home, MatchingIds(db, f));
    SelectImagesPass(db, now, f, sorted, r);
    SelectImagesComplete(db, now, f, sorted, r);
    r
  }

  /** The pipeline's two filters keep exactly what `Passes` keeps. */
  lemma SelectImagesArePassing(db: Db, f: Filters, sorted: seq<Image>)
    ensures FilterImages(sorted, f.home, MatchingIds(db, f)) == Filter(sorted, PassesFor(db, f))
  {
    forall k | 0 <= k < |sorted|
      ensures SelectedBy(f.home, MatchingIds(db, f))(sorted[k]) == PassesFor(db, f)(sorted[k])
    {
      SelectedIsPasses(db, f, sorted[k]);
    }
    FilterAgreeing(sorted, SelectedBy(f.home, MatchingIds(db, f)), PassesFor(db, f));
  }

  /** The selection holds each listed image that passes the filters exactly as often as the
      store lists it, so its length, the reported `total`, is the number of passing images. */
  lemma SelectedCount(db: Db, now: int, f: Filters)
    ensures multiset(SelectImages(db, now, f)) == multiset(Filter(ListImages(db, now), PassesFor(db, f)))
    ensures |SelectImages(db, now, f)| == |Filter(ListImages(db, now), PassesFor(db, f))|
  {
    FilterPermutation(NewestFirstList(db, now), ListImages(db, now), PassesFor(db, f));
  }

  lemma SelectImagesPass(db: Db, now: int, f: Filters, sorted: seq<Image>, r: seq<Image>)
    requires forall img :: img in sorted <==> img in ListImages(db, now)
    requires r == FilterImages(sorted, f.home, MatchingIds(db, f))
    ensures forall k :: 0 <= k < |r| ==> r[k] in ListImages(db, now) && Passes(db, r[k], f)
  {
    forall k | 0 <= k < |r| ensures r[k] in ListImages(db, now) && Passes(db, r[k], f) {
      assert r[k] in sorted;
      SelectedIsPasses(db, f, r[k]);
    }
  }

  lemma SelectImagesComplete(db: Db, now: int, f: Filters, sorted: seq<Image>, r: seq<Image>)
    requires forall img :: img in sorted <==> img in ListImages(db, now)
    requires r == FilterImages(sorted, f.home, MatchingIds(db, f))
    ensures forall img :: img in ListImages(db, now) && Passes(db, img, f) ==> img in r
  {
    forall img | img in ListImages(db, now) && Passes(db, img, f) ensures img in r {
      SelectedIsPasses(db, f, img);
      var k :| 0 <= k < |sorted| && sorted[k] == img;
    }
  }

  lemma SelectImagesOrdered(sorted: seq<Image>, r: seq<Image>, home: Option<bool>, ids: Option<seq<Id>>)
    requires SortedBy(sorted, NewestFirstImage)
    requires r == FilterImages(sorted, home, ids)
    ensures forall i, j :: 0 <= i < j < |r| ==> r[i].createdAt >= r[j].createdAt
  {
    SubsequenceOfSorted(r, sorted, NewestFirstImage);
    assert forall i, j :: 0 <= i < j < |r| ==> NewestFirstImage(r[i]) <= NewestFirstImage(r[j]);
  }

  /** `pagination.page ?? pickQuery(req, ['pagination[page]']) ?? 1`, through `parseNumber(…, 1)`. */
  function RequestedPage(req: ImagesRequest): (r: int)
    ensures Coalesce(req.page, PickQuery(req.query, [PageKey])).None? ==> r == 1
    ensures var sent := Coalesce(req.page, PickQuery(req.query, [PageKey]));
            sent.Some? && sent.value.JsNull? ==> r == 1
    ensures var sent := Coalesce(req.page, PickQuery(req.query, [PageKey]));
            sent.Some? && !sent.value.JsNull? ==> r == ParseNumber(ToNumber(sent.value), 1)
  {
    var v := Coalesce(Coalesce(req.page, PickQuery(req.query, [PageKey])), Some(JsNumber(1))).value;
    ParseNumber(ToNumber(v), 1)
  }

  /** `pagination.pageSize ?? pickQuery(req, ['pagination[pageSize]']) ?? (results.length || 1)`,
      through `parseNumber(…, 25)`. */
  function RequestedPageSize(req: ImagesRequest, total: nat): (r: int)
    ensures Coalesce(req.pageSize, PickQuery(req.query, [PageSizeKey])).None? ==> r == DefaultPageSize(total)
    ensures var sent := Coalesce(req.pageSize, PickQuery(req.query, [PageSizeKey]));
            sent.Some? && sent.value.JsNull? ==> r == DefaultPageSize(total)
    ensures var sent := Coalesce(req.pageSize, PickQuery(req.query, [PageSizeKey]));
            sent.Some? && !sent.value.JsNull? ==> r == ParseNumber(ToNumber(sent.value), 25)
  {
    var v := Coalesce(Coalesce(req.pageSize, PickQuery(req.query, [PageSizeKey])), Some(JsNumber(DefaultPageSize(total)))).value;
    ParseNumber(ToNumber(v), 25)
  }

  /** A page size that does not parse falls back to 25, not to the result count. */
  lemma UnparsablePageSizeIs25(total: nat)
    ensures RequestedPageSize(ImagesRequest(None, None, None, Some(JsString("abc")), map[]), total) == 25
  {
    var req := ImagesRequest(None, None, None, Some(JsString("abc")), map[]);
    assert Coalesce(req.pageSize, PickQuery(req.query, [PageSizeKey])) == Some(JsString("abc"));
    LettersAreNaN();
  }

  /** `Number('abc')` is NaN. */
  lemma LettersAreNaN()
    ensures ToNumber(JsString("abc")).None?
  {
    var t := "abc";
    assert !IsWhitespace(t[0]) && !IsWhitespace(t[|t| - 1]);
    TrimOfTrimmed(t);
    assert !HasSign(t);
    assert Unsigned(t) == t;
    assert !IsDigit(t[0]);
    assert !IsDecimalInteger(t);
  }

  /** The response: a page of formatted images, or the server error a non-string title causes
      when some category has a title. */
  datatype ImagesResponse = ImagesPage(page: Page<ImageView>) | ImagesFailed

  /** `images.map((img) => formatImage(img, req.lang, categories, references, req))`. */
  function FormatAll(db: Db, images: seq<Image>, lang: LangCode, baseUrl: string): (r: seq<ImageView>)
    ensures |r| == |images|
    ensures forall k :: 0 <= k < |r| ==> r[k].id == images[k].id
    ensures forall k :: 0 <= k < |r| ==> r[k] == FormatImage(images[k], lang, ListCategories(db), ListReferences(db), baseUrl)
  {
    var cats := ListCategories(db);
    var refs := ListReferences(db);
    seq(|images|, k requires 0 <= k < |images| => FormatImage(images[k], lang, cats, refs, baseUrl))
  }

  /** `GET /api/images`: the selected images, one page of them formatted, and the counts. */
  function ImagesRoute(db: Db, now: int, req: ImagesRequest, lang: LangCode, baseUrl: string): (r: ImagesResponse)
    ensures r.ImagesFailed? <==> RequestFilters(db, req).None?
    ensures r.ImagesPage? ==>
              var selected := SelectImages(db, now, RequestFilters(db, req).value);
              && r.page.total == |selected|
              && r.page.page == RequestedPage(req)
              && r.page.pageSize == RequestedPageSize(req, |selected|)
              && r.page.pageCount == PageCountOf(|selected|, r.page.pageSize)
              && r.page.data == FormatAll(db, Paginate(selected, r.page.page, r.page.pageSize).data, lang, baseUrl)
  {
    if RequestFilters(db, req).None? then ImagesFailed
    else
      var selected := SelectImages(db, now, RequestFilters(db, req).value);
      var p := Paginate(selected, RequestedPage(req), RequestedPageSize(req, |selected|));
      ImagesPage(Page(FormatAll(db, p.data, lang, baseUrl), p.page, p.pageSize, p.pageCount, p.total))
  }

  /** The reported `total` is the number of listed images that pass the request's filters. */
  lemma ImagesRouteTotal(db: Db, now: int, req: ImagesRequest, lang: LangCode, baseUrl: string)
    requires RequestFilters(db, req).Some?
    ensures ImagesRoute(db, now, req, lang, baseUrl).page.total
            == |Filter(ListImages(db, now), PassesFor(db, RequestFilters(db, req).value))|
  {
    SelectedCount(db, now, RequestFilters(db, req).value);
  }

  /** `data` shows, in order, the entries of `selected` from page `page`'s offset on, at most
      `pageSize` of them. */
  predicate ShowsWindow(data: seq<ImageView>, selected: seq<Image>, page: int, pageSize: int)
  {
    var start := Offset(page, pageSize);
    && 0 <= start
    && |data| <= pageSize
    && |data| == Min(start + pageSize, |selected|) - Min(start, |selected|)
    && forall k :: 0 <= k < |data| ==> start + k < |selected| && data[k].id == selected[start + k].id
  }

  /** For a page and page size of at least 1, the response holds the selected images from
      the page's offset on, at most `pageSize` of them, in order. */
  lemma ImagesRouteWindow(db: Db, now: int, req: ImagesRequest, lang: LangCode, baseUrl: string)
    requires RequestFilters(db, req).Some?
    ensures var r := ImagesRoute(db, now, req, lang, baseUrl);
            var selected := SelectImages(db, now, RequestFilters(db, req).value);
            r.page.page >= 1 && r.page.pageSize >= 1 ==> ShowsWindow(r.page.data, selected, r.page.page, r.page.pageSize)
  {
    var r := ImagesRoute(db, now, req, lang, baseUrl);
    var selected := SelectImages(db, now, RequestFilters(db, req).value);
    if r.page.page >= 1 && r.page.pageSize >= 1 {
      FormattedWindow(db, selected, r.page.page, r.page.pageSize, lang, baseUrl, r.page.data);
    }
  }

  /** The formatted page of any list shows the window of that list the page selects. */
  lemma FormattedWindow(db: Db, selected: seq<Image>, page: int, pageSize: int, lang: LangCode, baseUrl: string,
                        data: seq<ImageView>)
    requires page >= 1 && pageSize >= 1
    requires data == FormatAll(db, Paginate(selected, page, pageSize).data, lang, baseUrl)
    ensures ShowsWindow(data, selected, page, pageSize)
  {
    PageWindow(selected, page, pageSize);
  }

  /** When no stored row carries the zero timestamp, the route's re-sort leaves the store's
      newest-first order as it is. */
  lemma ResortKeepsStoreOrder(db: Db, now: int)
    requires forall k :: 0 <= k < |db.images| ==> db.images[k].createdAt != 0
    ensures SortBy(ListImages(db, now), NewestFirstImage) == ListImages(db, now)
  {
    ListImagesNewestFirst(db, now);
    SortByOfSorted(ListImages(db, now), NewestFirstImage);
  }

  /** A request without parameters returns every stored image on a single page. */
  lemma {:induction false} PlainRequestListsEverything(db: Db, now: int, lang: LangCode, baseUrl: string)
    ensures var r := ImagesRoute(db, now, PlainRequest, lang, baseUrl);
            && r.ImagesPage?
            && r.page.total == |db.images|
            && r.page.page == 1
            && r.page.pageCount == Pages(1)
            && |r.page.data| == |db.images|
  {
    var f := Filters(None, AnyCategory);
    assert RequestFilters(db, PlainRequest) == Some(f);
    var selected := SelectImages(db, now, f);
    var sorted := SortBy(ListImages(db, now), NewestFirstImage);
    FilterAllKept(sorted, SelectedBy(None, None));
    assert |selected| == |db.images|;
    WholeListOnFirstPage(selected);
  }

  /** A truthy title that is not a string (an array from a repeated parameter, say) is a
      server error exactly when some category has a title; otherwise no category matches and
      the response is an empty first page. */
  lemma {:induction false} NonStringTitleResponse(db: Db, now: int, req: ImagesRequest, lang: LangCode, baseUrl: string)
    requires NonStringTitle(req)
    ensures var r := ImagesRoute(db, now, req, lang, baseUrl);
            && (r.ImagesFailed? <==> HasTitledCategory(db))
            && (r.ImagesPage? ==> r.page.total == 0 && r.page.data == [] && r.page.pageCount == Pages(1))
  {
    var r := ImagesRoute(db, now, req, lang, baseUrl);
    if !HasTitledCategory(db) {
      var f := RequestFilters(db, req).value;
      var selected := SelectImages(db, now, f);
      if |selected| > 0 {
        assert false;
      }
    }
  }

  /** Every image a request returns, whatever its page and page size, is a stored image that
      satisfies the request's filters. */
  lemma ReturnedImagesPassFilters(db: Db, now: int, req: ImagesRequest, lang: LangCode, baseUrl: string, k: int)
    requires RequestFilters(db, req).Some?
    requires 0 <= k < |ImagesRoute(db, now, req, lang, baseUrl).page.data|
    ensures var r := ImagesRoute(db, now, req, lang, baseUrl);
            exists img :: img in ListImages(db, now) && Passes(db, img, RequestFilters(db, req).value)
                          && r.page.data[k] == FormatImage(img, lang, ListCategories(db), ListReferences(db), baseUrl)
  {
    var r := ImagesRoute(db, now, req, lang, baseUrl);
    var f := RequestFilters(db, req).value;
    var selected := SelectImages(db, now, f);
    PageEntryIsSelected(db, selected, r.page.page, r.page.pageSize, lang, baseUrl, k);
    var i :| 0 <= i < |selected| && r.page.data[k] == FormatImage(selected[i], lang, ListCategories(db), ListReferences(db), baseUrl);
    assert selected[i] in ListImages(db, now) && Passes(db, selected[i], f);
  }

  /** Each entry of a formatted page is the formatted form of some entry of the paged list. */
  lemma PageEntryIsSelected(db: Db, selected: seq<Image>, page: int, pageSize: int, lang: LangCode, baseUrl: string, k: int)
    requires 0 <= k < |FormatAll(db, Paginate(selected, page, pageSize).data, lang, baseUrl)|
    ensures exists i :: 0 <= i < |selected|
              && FormatAll(db, Paginate(selected, page, pageSize).data, lang, baseUrl)[k]
                 == FormatImage(selected[i], lang, ListCategories(db), ListReferences(db), baseUrl)
  {
    var p := Paginate(selected, page, pageSize);
    PageHoldsResults(selected, page, pageSize, k);
    var i :| 0 <= i < |selected| && selected[i] == p.data[k];
  }
}

=== FILE: links.dfy ===
/** A link table (`image_categories`, `reference_images`): rows holding only two ids, in
    insertion order, with no uniqueness constraint. `left` is the first column, `right` the second. */
module Links {
  import opened Wrappers
  import opened Seqs
  import opened Tables

  datatype Link = Link(left: Id, right: Id)

  /** `SELECT right FROM links WHERE left=?`, in table order (duplicates kept). */
  function RightsOf(links: seq<Link>, left: Id): (r: seq<Id>)
    ensures |r| <= |links|
    ensures forall x :: x in r <==> Link(left, x) in links
  {
    if links == [] then []
    else (if links[0].left == left then [links[0].right] else []) + RightsOf(links[1..], left)
  }

  /** `SELECT left FROM links WHERE right=?`, in table order (duplicates kept). */
  function LeftsOf(links: seq<Link>, right: Id): (r: seq<Id>)
    ensures |r| <= |links|
    ensures forall x :: x in r <==> Link(x, right) in links
  {
    if links == [] then []
    else (if links[0].right == right then [links[0].left] else []) + LeftsOf(links[1..], right)
  }

  /** Both reads see the same rows: `x` is on the right of `y` exactly when `y` is on the left of `x`. */
  lemma OneRelationTwoReadings(links: seq<Link>, left: Id, right: Id)
    ensures right in RightsOf(links, left) <==> left in LeftsOf(links, right)
  {
  }

  function LeftIsNot(left: Id): Link -> bool
  {
    (l: Link) => l.left != left
  }

  function RightIsNot(right: Id): Link -> bool
  {
    (l: Link) => l.right != right
  }

  /** `DELETE FROM links WHERE left=?`. */
  function WithoutLeft(links: seq<Link>, left: Id): (r: seq<Link>)
    ensures forall l :: l in r <==> l in links && l.left != left
  {
    Filter(links, LeftIsNot(left))
  }

  /** `DELETE FROM links WHERE right=?`. */
  function WithoutRight(links: seq<Link>, right: Id): (r: seq<Link>)
    ensures forall l :: l in r <==> l in links && l.right != right
  {
    Filter(links, RightIsNot(right))
  }

  /** One `INSERT` per id, in list order, all with the same left id. */
  function LinksFrom(left: Id, rights: seq<Id>): (r: seq<Link>)
    ensures |r| == |rights|
    ensures forall i :: 0 <= i < |rights| ==> r[i] == Link(left, rights[i])
  {
    seq(|rights|, i requires 0 <= i < |rights| => Link(left, rights[i]))
  }

  /** One `INSERT` per id, in list order, all with the same right id. */
  function LinksTo(lefts: seq<Id>, right: Id): (r: seq<Link>)
    ensures |r| == |lefts|
    ensures forall i :: 0 <= i < |lefts| ==> r[i] == Link(lefts[i], right)
  {
    seq(|lefts|, i requires 0 <= i < |lefts| => Link(lefts[i], right))
  }

  /** Delete-then-insert of one entity's links, keyed on the left column. */
  function ReplaceRights(links: seq<Link>, left: Id, rights: seq<Id>): seq<Link>
  {
    WithoutLeft(links, left) + LinksFrom(left, rights)
  }

  /** Delete-then-insert of one entity's links, keyed on the right column. */
  function ReplaceLefts(links: seq<Link>, right: Id, lefts: seq<Id>): seq<Link>
  {
    WithoutRight(links, right) + LinksTo(lefts, right)
  }

  lemma {:induction false} RightsOfAppend(a: seq<Link>, b: seq<Link>, left: Id)
    ensures RightsOf(a + b, left) == RightsOf(a, left) + RightsOf(b, left)
  {
    if a == [] {
      assert a + b == b;
    } else {
      assert (a + b)[1..] == a[1..] + b;
      RightsOfAppend(a[1..], b, left);
    }
  }

  lemma {:induction false} LeftsOfAppend(a: seq<Link>, b: seq<Link>, right: Id)
    ensures LeftsOf(a + b, right) == LeftsOf(a, right) + LeftsOf(b, right)
  {
    if a == [] {
      assert a + b == b;
    } else {
      assert (a + b)[1..] == a[1..] + b;
      LeftsOfAppend(a[1..], b, right);
    }
  }

  lemma {:induction false} RightsOfLinksFrom(left: Id, rights: seq<Id>, x: Id)
    ensures RightsOf(LinksFrom(left, rights), x) == if x == left then rights else []
  {
    if rights != [] {
      RightsOfLinksFrom(left, rights[1..], x);
      assert LinksFrom(left, rights)[1..] == LinksFrom(left, rights[1..]);
      assert rights == [rights[0]] + rights[1..];
    }
  }

  lemma {:induction false} LeftsOfLinksTo(lefts: seq<Id>, right: Id, x: Id)
    ensures LeftsOf(LinksTo(lefts, right), x) == if x == right then lefts else []
  {
    if lefts != [] {
      LeftsOfLinksTo(lefts[1..], right, x);
      assert LinksTo(lefts, right)[1..] == LinksTo(lefts[1..], right);
      assert lefts == [lefts[0]] + lefts[1..];
    }
  }

  lemma {:induction false} RightsOfWithoutLeft(links: seq<Link>, left: Id, x: Id)
    ensures RightsOf(WithoutLeft(links, left), x) == if x == left then [] else RightsOf(links, x)
  {
    if links != [] {
      var head, tail := links[0], links[1..];
      assert [head] + tail == links;
      RightsOfWithoutLeft(tail, left, x);
      FilterAppend([head], tail, LeftIsNot(left));
      var kept := Filter([head], LeftIsNot(left));
      RightsOfAppend(kept, WithoutLeft(tail, left), x);
      RightsOfAppend([head], tail, x);
      if head.left == left {
        FilterNoneKept([head], LeftIsNot(left));
      } else {
        FilterAllKept([head], LeftIsNot(left));
      }
    }
  }

  lemma {:induction false} LeftsOfWithoutRight(links: seq<Link>, right: Id, x: Id)
    ensures LeftsOf(WithoutRight(links, right), x) == if x == right then [] else LeftsOf(links, x)
  {
    if links != [] {
      var head, tail := links[0], links[1..];
      assert [head] + tail == links;
      LeftsOfWithoutRight(tail, right, x);
      FilterAppend([head], tail, RightIsNot(right));
      var kept := Filter([head], RightIsNot(right));
      LeftsOfAppend(kept, WithoutRight(tail, right), x);
      LeftsOfAppend([head], tail, x);
      if head.right == right {
        FilterNoneKept([head], RightIsNot(right));
      } else {
        FilterAllKept([head], RightIsNot(right));
      }
    }
  }

  /** Replace-on-write: the entity reads back exactly the supplied list, in order;
      every other entity reads back what it read before. */
  lemma {:induction false} RightsOfReplaceRights(links: seq<Link>, left: Id, rights: seq<Id>, x: Id)
    ensures RightsOf(ReplaceRights(links, left, rights), x) == if x == left then rights else RightsOf(links, x)
  {
    RightsOfAppend(WithoutLeft(links, left), LinksFrom(left, rights), x);
    RightsOfWithoutLeft(links, left, x);
    RightsOfLinksFrom(left, rights, x);
  }

  /** The same, keyed on the right column. */
  lemma {:induction false} LeftsOfReplaceLefts(links: seq<Link>, right: Id, lefts: seq<Id>, x: Id)
    ensures LeftsOf(ReplaceLefts(links, right, lefts), x) == if x == right then lefts else LeftsOf(links, x)
  {
    LeftsOfAppend(WithoutRight(links, right), LinksTo(lefts, right), x);
    LeftsOfWithoutRight(links, right, x);
    LeftsOfLinksTo(lefts, right, x);
  }

  /** Replace-on-write when a list is supplied; an absent list leaves the table as it was. */
  function MaybeReplaceRights(links: seq<Link>, left: Id, rights: Option<seq<Id>>): (r: seq<Link>)
    ensures forall x :: RightsOf(r, x) == if x == left && rights.Some? then rights.value else RightsOf(links, x)
  {
    match rights
    case None => links
    case Some(ids) =>
      assert forall x :: RightsOf(ReplaceRights(links, left, ids), x) == if x == left then ids else RightsOf(links, x) by {
        forall x ensures RightsOf(ReplaceRights(links, left, ids), x) == if x == left then ids else RightsOf(links, x) {
          RightsOfReplaceRights(links, left, ids, x);
        }
      }
      ReplaceRights(links, left, ids)
  }

  /** The same, keyed on the right column. */
  function MaybeReplaceLefts(links: seq<Link>, right: Id, lefts: Option<seq<Id>>): (r: seq<Link>)
    ensures forall x :: LeftsOf(r, x) == if x == right && lefts.Some? then lefts.value else LeftsOf(links, x)
  {
    match lefts
    case None => links
    case Some(ids) =>
      assert forall x :: LeftsOf(ReplaceLefts(links, right, ids), x) == if x == right then ids else LeftsOf(links, x) by {
        forall x ensures LeftsOf(ReplaceLefts(links, right, ids), x) == if x == right then ids else LeftsOf(links, x) {
          LeftsOfReplaceLefts(links, right, ids, x);
        }
      }
      ReplaceLefts(links, right, ids)
  }

  /** The test "is not `id`" on ids. */
  function IdIsNot(id: Id): Id -> bool
  {
    x => x != id
  }

  /** Deleting every link to `right` removes exactly `right` from each left entity's reading,
      keeping the rest in order. */
  lemma {:induction false} RightsOfWithoutRight(links: seq<Link>, right: Id, x: Id)
    ensures RightsOf(WithoutRight(links, right), x) == Filter(RightsOf(links, x), IdIsNot(right))
  {
    if links != [] {
      RightsOfWithoutRight(links[1..], right, x);
      assert [links[0]] + links[1..] == links;
      FilterAppend([links[0]], links[1..], RightIsNot(right));
      RightsOfAppend(Filter([links[0]], RightIsNot(right)), WithoutRight(links[1..], right), x);
      var head := if links[0].left == x then [links[0].right] else [];
      FilterAppend(head, RightsOf(links[1..], x), IdIsNot(right));
    }
  }

  /** Deleting every link from `left` removes exactly `left` from each right entity's reading,
      keeping the rest in order. */
  lemma {:induction false} LeftsOfWithoutLeft(links: seq<Link>, left: Id, x: Id)
    ensures LeftsOf(WithoutLeft(links, left), x) == Filter(LeftsOf(links, x), IdIsNot(left))
  {
    if links != [] {
      LeftsOfWithoutLeft(links[1..], left, x);
      assert [links[0]] + links[1..] == links;
      FilterAppend([links[0]], links[1..], LeftIsNot(left));
      LeftsOfAppend(Filter([links[0]], LeftIsNot(left)), WithoutLeft(links[1..], left), x);
      var head := if links[0].right == x then [links[0].left] else [];
      FilterAppend(head, LeftsOf(links[1..], x), IdIsNot(left));
    }
  }
}

=== FILE: localization.dfy ===
/** Language bundles, the single fallback rule `pickLang`, and the per-request language
    the backend middleware derives from `?lang=` and `Accept-Language`. */
module Localization {
  import opened Strings

  /** The supported languages, `SUPPORTED_LANGS = ['en', 'tr']`. */
  datatype LangCode = En | Tr {
    function Code(): string {
      match this
      case En => "en"
      case Tr => "tr"
    }
  }

  /** A field in both languages; '' stands for a missing translation. */
  datatype Bundle = Bundle(en: string, tr: string) {
    function Get(lang: LangCode): string {
      match lang
      case En => en
      case Tr => tr
    }
  }

  /** What `pickLang` may be handed: legacy plain text, or a translation object. */
  datatype Localized = Plain(text: string) | Translations(bundle: Bundle)

  /** `pickLang(translations, lang)`: plain text is returned as is; otherwise the requested
      language, then English, then Turkish, the first that is non-empty, else ''. */
  function PickLang(t: Localized, lang: LangCode): (r: string)
    ensures t.Plain? ==> r == t.text
    ensures t.Translations? && t.bundle.Get(lang) != "" ==> r == t.bundle.Get(lang)
    ensures t.Translations? && t.bundle.Get(lang) == "" && t.bundle.en != "" ==> r == t.bundle.en
    ensures t.Translations? && t.bundle.Get(lang) == "" && t.bundle.en == "" ==> r == t.bundle.tr
    ensures t.Translations? ==> (r == "" <==> t.bundle.en == "" && t.bundle.tr == "")
  {
    match t
    case Plain(text) => text
    case Translations(b) =>
      if b.Get(lang) != "" then b.Get(lang)
      else if b.en != "" then b.en
      else b.tr
  }

  /** Whatever the requested language, the pick is one of the bundle's two values
      (or ''), and it is never '' while some translation exists. */
  lemma PickLangIsOneOfTheTranslations(b: Bundle, lang: LangCode)
    ensures PickLang(Translations(b), lang) in {b.en, b.tr}
    ensures b.en != "" || b.tr != "" ==> PickLang(Translations(b), lang) != ""
  {
  }

  /** The primary subtag of the first entry of an `Accept-Language` header:
      `header.split(',')[0].split('-')[0]`. */
  function PrimarySubtag(header: string): (r: string)
    ensures StartsWith(header, r)
    ensures ',' !in r && '-' !in r
    ensures |r| == |header| || header[|r|] == ',' || header[|r|] == '-'
  {
    TakeUntil(TakeUntil(header, ','), '-')
  }

  /** The language middleware: a non-empty `lang` query parameter (lowercased) decides on
      its own, an unsupported one falling back to English; without it the header's primary
      subtag decides, compared as written (not lowercased). */
  function RequestLang(langQuery: string, acceptLanguage: string): (r: LangCode)
    ensures langQuery != "" ==> (r == Tr <==> Lower(langQuery) == "tr")
    ensures langQuery == "" ==> (r == Tr <==> PrimarySubtag(acceptLanguage) == "tr")
  {
    var requested := Lower(langQuery);
    var candidate := if requested != "" then requested else PrimarySubtag(acceptLanguage);
    if candidate == "tr" then Tr else En
  }

  /** The query parameter is case-insensitive: `?lang=TR` selects Turkish. */
  lemma {:induction false} UpperCaseQuerySelectsTurkish(header: string)
    ensures RequestLang("TR", header) == Tr
  {
    assert Lower("TR") == "tr";
  }

  /** The header is not lowercased: `Accept-Language: TR-tr` yields English. */
  lemma {:induction false} UpperCaseHeaderFallsBackToEnglish()
    ensures RequestLang("", "TR-tr") == En
  {
    assert PrimarySubtag("TR-tr")[0] == 'T';
  }

  /** A header such as "tr-TR,en;q=0.8" selects Turkish. */
  lemma {:induction false} RegionalHeaderSelectsTurkish(rest: string)
    ensures RequestLang("", "tr-" + rest) == Tr
  {
    var h := "tr-" + rest;
    TakeUntilPrefix("tr-", rest, ',');
    var first := TakeUntil(rest, ',');
    TakeUntilPrefix("tr", "-" + first, '-');
    assert "tr-" + first == "tr" + ("-" + first);
    assert PrimarySubtag(h) == "tr";
  }
}

=== FILE: media.dfy ===
/** `buildMedia` of the backend: a stored path becomes the media descriptor clients render. */
module Media {
  import opened Wrappers
  import opened Strings

  /** `{ url, formats: { medium: { url } } }`. */
  datatype MediaRef = MediaRef(url: string, mediumUrl: string)

  /** The path as it follows the joining '/' in a base-relative URL. */
  function WithoutLeadingSlash(path: string): string
  {
    if StartsWith(path, "/") then path[1..] else path
  }

  /** Empty path: no media. A path starting with "http" is used verbatim. Otherwise the path
      is appended to the base with a '/' between them, added only when the path has none. */
  function BuildMedia(path: string, baseUrl: string): (r: Option<MediaRef>)
    ensures r.None? <==> path == ""
    ensures r.Some? ==> r.value.mediumUrl == r.value.url
    ensures r.Some? && StartsWith(path, "http") ==> r.value.url == path
    ensures r.Some? && !StartsWith(path, "http") ==>
              && StartsWith(r.value.url, baseUrl)
              && |r.value.url| > |baseUrl|
              && r.value.url[|baseUrl|] == '/'
              && r.value.url[|baseUrl| + 1..] == WithoutLeadingSlash(path)
  {
    if path == "" then None
    else
      var url :=
        if StartsWith(path, "http") then path
        else baseUrl + (if StartsWith(path, "/") then "" else "/") + path;
      assert !StartsWith(path, "http") && StartsWith(path, "/") ==> path == "/" + path[1..];
      Some(MediaRef(url, url))
  }

  /** `process.env.BASE_URL || \`${req.protocol}://${req.get('host')}\``: the `baseUrl` that
      `BuildMedia` and the routes take as a parameter. */
  function MediaBaseUrl(configured: string, protocol: string, host: string): (r: string)
    ensures configured != "" ==> r == configured
    ensures configured == "" ==> StartsWith(r, protocol + "://") && EndsWith(r, host)
    ensures configured == "" ==> |r| == |protocol| + 3 + |host|
  {
    if configured != "" then configured
    else
      var r := protocol + "://" + host;
      assert r[..|protocol + "://"|] == protocol + "://";
      assert r[|r| - |host|..] == host;
      r
  }
}

=== FILE: pagination.dfy ===
/** The pagination step of `GET /api/images` (`src/index.js`): a window of the filtered list
    chosen with JavaScript's `Array.prototype.slice`, and the page count
    `Math.ceil(total / pageSize) || 1`. Page and page size are integers here. */
module Pagination {

  function Min(a: int, b: int): int
  {
    if a <= b then a else b
  }

  lemma MulNonnegative(a: int, b: int)
    requires a >= 0 && b >= 0
    ensures a * b >= 0
  {
  }

  lemma MulPredecessor(a: int, b: int)
    ensures (a - 1) * b == a * b - b
  {
  }

  lemma MulCancelLess(a: int, b: int, c: int)
    requires c >= 1 && a * c < b * c
    ensures a < b
  {
  }

  /** The quotient `(total + pageSize - 1) / pageSize` is the ceiling of `total / pageSize`. */
  lemma CeilingQuotient(total: nat, pageSize: int)
    requires pageSize >= 1
    ensures var q := (total + pageSize - 1) / pageSize;
            && q >= 0
            && q * pageSize >= total
            && (q - 1) * pageSize < total
            && (total <= pageSize ==> q <= 1)
  {
    var q := (total + pageSize - 1) / pageSize;
    var m := (total + pageSize - 1) % pageSize;
    assert total + pageSize - 1 == q * pageSize + m && 0 <= m < pageSize;
    MulPredecessor(q, pageSize);
    assert (q - 1) * pageSize < total;
    MulCancelLess(-1, q, pageSize);
    if total <= pageSize {
      MulPredecessor(q - 1, pageSize);
      MulCancelLess(q - 2, 0, pageSize);
    }
  }

  /** How `slice` reads one bound: a negative bound counts back from the end, and the result is
      clamped to `[0, len]`. */
  function SliceBound(i: int, len: nat): (r: nat)
    ensures r <= len
    ensures 0 <= i ==> r == Min(i, len)
    ensures i < 0 && -i <= len ==> r == len + i
    ensures i < 0 && -i > len ==> r == 0
  {
    if i < 0 then (if len + i > 0 then len + i else 0)
    else if i < len then i else len
  }

  /** `s.slice(start, end)`. */
  function JsSlice<T>(s: seq<T>, start: int, end: int): (r: seq<T>)
    ensures |r| <= |s|
    ensures 0 <= start <= end ==> r == s[Min(start, |s|)..Min(end, |s|)]
    ensures 0 <= end <= start ==> r == []
  {
    var from := SliceBound(start, |s|);
    var to := SliceBound(end, |s|);
    if to <= from then [] else s[from..to]
  }

  /** A page count as the response reports it; `Unbounded` is JavaScript's `Infinity`, which
      a zero page size produces for a non-empty list. */
  datatype PageCount = Pages(n: int) | Unbounded

  /** `Math.ceil(total / pageSize) || 1`: a zero or NaN quotient (an empty list, a
      quotient rounding to -0) falls back to 1. */
  function PageCountOf(total: nat, pageSize: int): (r: PageCount)
    ensures pageSize >= 1 ==> r.Pages? && r.n >= 1 && r.n * pageSize >= total
    ensures pageSize >= 1 && total > 0 ==> (r.n - 1) * pageSize < total
    ensures pageSize >= 1 && total <= pageSize ==> r == Pages(1)
    ensures pageSize == 0 ==> (r == Unbounded <==> total > 0)
    ensures pageSize == 0 && total == 0 ==> r == Pages(1)
    ensures pageSize < 0 ==> r.Pages? && r.n <= 1
  {
    if pageSize > 0 then
      var q := (total + pageSize - 1) / pageSize;
      CeilingQuotient(total, pageSize);
      if q == 0 then Pages(1) else Pages(q)
    else if pageSize == 0 then
      if total > 0 then Unbounded else Pages(1)
    else
      var q := -(total / -pageSize);
      if q == 0 then Pages(1) else Pages(q)
  }

  /** The page a request shows, and the counts reported beside it. */
  datatype Page<T> = Page(data: seq<T>, page: int, pageSize: int, pageCount: PageCount, total: nat)

  /** `results.slice((page - 1) * pageSize, (page - 1) * pageSize + pageSize)` with its metadata. */
  function Paginate<T>(results: seq<T>, page: int, pageSize: int): (r: Page<T>)
    ensures r.total == |results| && r.page == page && r.pageSize == pageSize
    ensures r.pageCount == PageCountOf(|results|, pageSize)
    ensures page >= 1 && pageSize >= 1 ==>
              var start := (page - 1) * pageSize;
              start >= 0 && r.data == results[Min(start, |results|)..Min(start + pageSize, |results|)]
    ensures page >= 1 && pageSize >= 1 ==> |r.data| <= pageSize
  {
    var start := (page - 1) * pageSize;
    assert page >= 1 && pageSize >= 1 ==> start >= 0 by {
      if page >= 1 && pageSize >= 1 {
        MulNonnegative(page - 1, pageSize);
      }
    }
    Page(JsSlice(results, start, start + pageSize), page, pageSize, PageCountOf(|results|, pageSize), |results|)
  }

  /** Where page `page` starts: `(page - 1) * pageSize`. */
  function Offset(page: int, pageSize: int): (r: int)
    ensures page >= 1 && pageSize >= 0 ==> r >= 0
  {
    assert page >= 1 && pageSize >= 0 ==> (page - 1) * pageSize >= 0 by {
      if page >= 1 && pageSize >= 0 {
        MulNonnegative(page - 1, pageSize);
      }
    }
    (page - 1) * pageSize
  }

  /** For a page and page size of at least 1, the page holds the results from its offset on,
      in order. */
  lemma PageWindow<T>(results: seq<T>, page: int, pageSize: int)
    requires page >= 1 && pageSize >= 1
    ensures var start := Offset(page, pageSize);
            var data := Paginate(results, page, pageSize).data;
            && |data| == Min(start + pageSize, |results|) - Min(start, |results|)
            && forall k :: 0 <= k < |data| ==> start + k < |results| && data[k] == results[start + k]
  {
    var start := Offset(page, pageSize);
    var data := Paginate(results, page, pageSize).data;
    assert data == results[Min(start, |results|)..Min(start + pageSize, |results|)];
  }

  /** Whatever the page and page size (zero, negative), a page only holds results. */
  lemma PageHoldsResults<T>(results: seq<T>, page: int, pageSize: int, k: int)
    requires 0 <= k < |Paginate(results, page, pageSize).data|
    ensures Paginate(results, page, pageSize).data[k] in results
  {
    var start := (page - 1) * pageSize;
    var from := SliceBound(start, |results|);
    var to := SliceBound(start + pageSize, |results|);
    assert Paginate(results, page, pageSize).data == results[from..to];
    assert results[from..to][k] == results[from + k];
  }

  /** `pageSize` when the request names none: `results.length || 1`. */
  function DefaultPageSize(total: nat): (r: int)
    ensures r >= 1 && r >= total
  {
    if total == 0 then 1 else total
  }

  /** Without a page size, the first page is the whole list and the only page. */
  lemma WholeListOnFirstPage<T>(results: seq<T>)
    ensures Paginate(results, 1, DefaultPageSize(|results|)).data == results
    ensures Paginate(results, 1, DefaultPageSize(|results|)).pageCount == Pages(1)
  {
  }

  /** Every result sits on page `i / pageSize + 1` at position `i % pageSize`, and that page
      is within the reported page count. */
  lemma ResultOnItsPage<T>(results: seq<T>, pageSize: int, i: int)
    requires pageSize >= 1
    requires 0 <= i < |results|
    ensures var p := i / pageSize + 1;
            var r := Paginate(results, p, pageSize);
            && i % pageSize < |r.data|
            && r.data[i % pageSize] == results[i]
            && p <= r.pageCount.n
  {
    var p := i / pageSize + 1;
    var start := (p - 1) * pageSize;
    assert start + i % pageSize == i;
    var r := Paginate(results, p, pageSize);
    var count := PageCountOf(|results|, pageSize).n;
    assert start < |results|;
    assert r.data == results[start..Min(start + pageSize, |results|)];
    MulCancelLess(p - 1, count, pageSize);
  }

  /** The first `k` pages, one after the other. */
  function FirstPages<T>(results: seq<T>, pageSize: int, k: nat): seq<T>
  {
    if k == 0 then [] else FirstPages(results, pageSize, k - 1) + Paginate(results, k, pageSize).data
  }

  /** The first `k` pages spell the list's first `k * pageSize` results. */
  lemma {:induction false} FirstPagesArePrefix<T>(results: seq<T>, pageSize: int, k: nat)
    requires pageSize >= 1
    ensures FirstPages(results, pageSize, k) == results[..Min(k * pageSize, |results|)]
  {
    MulNonnegative(k, pageSize);
    if k > 0 {
      FirstPagesArePrefix(results, pageSize, k - 1);
      MulPredecessor(k, pageSize);
      var start := (k - 1) * pageSize;
      MulNonnegative(k - 1, pageSize);
      assert start + pageSize == k * pageSize;
      var a := Min(start, |results|);
      var b := Min(start + pageSize, |results|);
      assert Paginate(results, k, pageSize).data == results[a..b];
      assert results[..b] == results[..a] + results[a..b];
    }
  }

  /** Reading every page in turn gives back the whole list, in order. */
  lemma AllPagesRebuildList<T>(results: seq<T>, pageSize: int)
    requires pageSize >= 1
    ensures FirstPages(results, pageSize, PageCountOf(|results|, pageSize).n) == results
  {
    var n := PageCountOf(|results|, pageSize).n;
    FirstPagesArePrefix(results, pageSize, n);
    assert results[..|results|] == results;
  }
}

=== FILE: projection.dfy ===
/** The response shapes of the public API (`formatCategory`, `formatImage`, `formatReference`
    in `src/index.js`): stored entities projected for one language, with linked entities
    resolved against the lists the route loaded. */
module Projection {
  import opened Wrappers
  import opened Seqs
  import opened Tables
  import opened Localization
  import opened Media
  import opened StoreSchema

  datatype CategoryView = CategoryView(
    id: Id,
    title: string,
    description: string,
    position: int,
    isActive: bool,
    titleTranslations: Bundle,
    descriptionTranslations: Bundle)

  /** `{ documentId, id }`: an image named by a reference without its content. */
  datatype ImageStub = ImageStub(documentId: Id, id: Id)

  /** A reference's `images`: bare stubs, or images formatted one level down. */
  datatype NestedImages = Stubs(stubs: seq<ImageStub>) | Expanded(views: seq<ImageView>)

  datatype ImageView = ImageView(
    id: Id,
    documentId: Id,
    title: string,
    alt: string,
    home: bool,
    position: int,
    image: Option<MediaRef>,
    categories: seq<CategoryView>,
    references: seq<ReferenceView>,
    titleTranslations: Bundle,
    altTranslations: Bundle)

  datatype ReferenceView = ReferenceView(
    id: Id,
    documentId: Id,
    title: string,
    description: string,
    year: string,
    logoLight: Option<MediaRef>,
    logoDark: Option<MediaRef>,
    images: NestedImages,
    titleTranslations: Bundle,
    descriptionTranslations: Bundle)

  function CategoryId(c: Category): Id { c.id }
  function ImageId(i: Image): Id { i.id }
  function ReferenceId(r: Reference): Id { r.id }

  /** The ids of a list of entities, in order. */
  function IdsOf<T>(s: seq<T>, idOf: T -> Id): (r: seq<Id>)
    ensures |r| == |s|
    ensures forall k :: 0 <= k < |s| ==> r[k] == idOf(s[k])
  {
    seq(|s|, k requires 0 <= k < |s| => idOf(s[k]))
  }

  /** The test "some entity of the pool carries this id". */
  function Known<T>(pool: seq<T>, idOf: T -> Id): Id -> bool
  {
    id => HasKey(pool, idOf, id)
  }

  /** `ids.map(id => pool.find(x => x.id === id)).filter(Boolean)`: each id becomes the first
      pool entry carrying it; ids no entry carries are dropped; link order is kept. */
  function Resolve<T>(ids: seq<Id>, pool: seq<T>, idOf: T -> Id): (r: seq<T>)
    ensures IdsOf(r, idOf) == Filter(ids, Known(pool, idOf))
    ensures forall k :: 0 <= k < |r| ==> r[k] in pool
  {
    var kept := Filter(ids, Known(pool, idOf));
    assert forall k :: 0 <= k < |kept| ==> HasKey(pool, idOf, kept[k]) by {
      forall k | 0 <= k < |kept| ensures HasKey(pool, idOf, kept[k]) {
        assert Known(pool, idOf)(kept[k]);
      }
    }
    seq(|kept|, k requires 0 <= k < |kept| => Find(pool, idOf, kept[k]).value)
  }

  /** `formatCategory(cat, lang)`. */
  function FormatCategory(cat: Category, lang: LangCode): (v: CategoryView)
    ensures v.id == cat.id
    ensures v.title == PickLang(Translations(cat.title), lang)
    ensures v.description == PickLang(Translations(cat.description), lang)
    ensures v.titleTranslations == cat.title && v.descriptionTranslations == cat.description
    ensures v.position == cat.position && v.isActive == cat.isActive
  {
    CategoryView(
      cat.id,
      PickLang(Translations(cat.title), lang),
      PickLang(Translations(cat.description), lang),
      cat.position,
      cat.isActive,
      cat.title,
      cat.description)
  }

  function StubOf(id: Id): ImageStub
  {
    ImageStub(id, id)
  }

  /** A reference view whose images are stubs; the form every nested reference takes. */
  predicate HasStubImages(v: ReferenceView)
  {
    v.images.Stubs?
  }

  /** An image view whose links go no deeper: no categories, no references. */
  predicate IsLeaf(v: ImageView)
  {
    v.categories == [] && v.references == []
  }

  /** The views of resolved categories, in order. */
  function CategoryViews(cats: seq<Category>, lang: LangCode): (r: seq<CategoryView>)
    ensures IdsOf(r, (c: CategoryView) => c.id) == IdsOf(cats, CategoryId)
    ensures cats == [] ==> r == []
    ensures forall k :: 0 <= k < |r| ==> r[k] == FormatCategory(cats[k], lang)
  {
    var r := seq(|cats|, k requires 0 <= k < |cats| => FormatCategory(cats[k], lang));
    assert IdsOf(r, (c: CategoryView) => c.id) == IdsOf(cats, CategoryId);
    r
  }

  /** The views of references nested in an image: stubs only, in order. */
  function StubReferenceViews(refs: seq<Reference>, lang: LangCode, baseUrl: string): (r: seq<ReferenceView>)
    ensures IdsOf(r, (v: ReferenceView) => v.id) == IdsOf(refs, ReferenceId)
    ensures forall k :: 0 <= k < |r| ==> HasStubImages(r[k])
    ensures refs == [] ==> r == []
    ensures forall k :: 0 <= k < |r| ==>
              && r[k] == FormatReference(refs[k], lang, baseUrl, true, [])
              && |r[k].images.stubs| == |refs[k].imageIds|
              && forall j :: 0 <= j < |refs[k].imageIds| ==> r[k].images.stubs[j] == StubOf(refs[k].imageIds[j])
    decreases 1
  {
    var r := seq(|refs|, k requires 0 <= k < |refs| => FormatReference(refs[k], lang, baseUrl, true, []));
    assert IdsOf(r, (v: ReferenceView) => v.id) == IdsOf(refs, ReferenceId);
    r
  }

  /** `formatImage(img, lang, categories, references, req)`: linked categories and references
      are resolved against the given lists (dangling ids dropped, link order kept); nested
      references carry image stubs only. */
  function FormatImage(img: Image, lang: LangCode, categories: seq<Category>, references: seq<Reference>,
                       baseUrl: string): (v: ImageView)
    ensures v.id == img.id && v.documentId == img.id
    ensures v.title == PickLang(Translations(img.title), lang)
    ensures v.alt == PickLang(Translations(img.alt), lang)
    ensures v.image == BuildMedia(img.imagePath, baseUrl)
    ensures v.home == img.home && v.position == img.position
    ensures v.titleTranslations == img.title && v.altTranslations == img.alt
    ensures v.categories == CategoryViews(Resolve(img.categoryIds, categories, CategoryId), lang)
    ensures v.references == StubReferenceViews(Resolve(img.referenceIds, references, ReferenceId), lang, baseUrl)
    ensures IdsOf(v.categories, (c: CategoryView) => c.id) == Filter(img.categoryIds, Known(categories, CategoryId))
    ensures IdsOf(v.references, (r: ReferenceView) => r.id) == Filter(img.referenceIds, Known(references, ReferenceId))
    ensures forall k :: 0 <= k < |v.references| ==> HasStubImages(v.references[k])
    ensures categories == [] && references == [] ==> IsLeaf(v)
    decreases 2
  {
    var cats := Resolve(img.categoryIds, categories, CategoryId);
    var refs := Resolve(img.referenceIds, references, ReferenceId);
    assert categories == [] ==> cats == [] by {
      if categories == [] {
        FilterNoneKept(img.categoryIds, Known(categories, CategoryId));
      }
    }
    assert references == [] ==> refs == [] by {
      if references == [] {
        FilterNoneKept(img.referenceIds, Known(references, ReferenceId));
      }
    }
    var catViews := CategoryViews(cats, lang);
    var refViews := StubReferenceViews(refs, lang, baseUrl);
    ImageView(
      img.id,
      img.id,
      PickLang(Translations(img.title), lang),
      PickLang(Translations(img.alt), lang),
      img.home,
      img.position,
      BuildMedia(img.imagePath, baseUrl),
      catViews,
      refViews,
      img.title,
      img.alt)
  }

  /** The views of the images a reference expands: each formatted with no categories and no
      references to draw on, in order. */
  function LeafViews(imgs: seq<Image>, lang: LangCode, baseUrl: string): (r: seq<ImageView>)
    ensures |r| == |imgs|
    ensures forall k :: 0 <= k < |r| ==> r[k] == FormatImage(imgs[k], lang, [], [], baseUrl)
    ensures IdsOf(r, (i: ImageView) => i.id) == IdsOf(imgs, ImageId)
    ensures forall k :: 0 <= k < |r| ==> IsLeaf(r[k])
    decreases 3
  {
    var r := seq(|imgs|, k requires 0 <= k < |imgs| => FormatImage(imgs[k], lang, [], [], baseUrl));
    assert IdsOf(r, (i: ImageView) => i.id) == IdsOf(imgs, ImageId);
    r
  }

  /** `formatReference(ref, lang, req, skipImages, images)`: with `skipImages` every linked id
      becomes a stub (dangling ones included); otherwise the ids are resolved against `images`
      and each is formatted with no categories and no references to draw on. */
  function FormatReference(ref: Reference, lang: LangCode, baseUrl: string, skipImages: bool,
                           images: seq<Image>): (v: ReferenceView)
    ensures v.id == ref.id && v.documentId == ref.id
    ensures v.title == PickLang(Translations(ref.title), lang)
    ensures v.description == PickLang(Translations(ref.description), lang)
    ensures v.year == ref.year
    ensures v.logoLight == BuildMedia(ref.logoLightPath, baseUrl)
    ensures v.logoDark == BuildMedia(ref.logoDarkPath, baseUrl)
    ensures v.titleTranslations == ref.title && v.descriptionTranslations == ref.description
    ensures skipImages ==> v.images == Stubs(seq(|ref.imageIds|, k requires 0 <= k < |ref.imageIds| => StubOf(ref.imageIds[k])))
    ensures !skipImages ==>
              && v.images.Expanded?
              && IdsOf(v.images.views, (i: ImageView) => i.id) == Filter(ref.imageIds, Known(images, ImageId))
              && forall k :: 0 <= k < |v.images.views| ==> IsLeaf(v.images.views[k])
    ensures !skipImages ==>
              && |v.images.views| == |Resolve(ref.imageIds, images, ImageId)|
              && forall k :: 0 <= k < |v.images.views| ==>
                   v.images.views[k] == FormatImage(Resolve(ref.imageIds, images, ImageId)[k], lang, [], [], baseUrl)
    decreases if skipImages then 0 else 4
  {
    var nested :=
      if skipImages then
        Stubs(seq(|ref.imageIds|, k requires 0 <= k < |ref.imageIds| => StubOf(ref.imageIds[k])))
      else
        Expanded(LeafViews(Resolve(ref.imageIds, images, ImageId), lang, baseUrl));
    ReferenceView(
      ref.id,
      ref.id,
      PickLang(Translations(ref.title), lang),
      PickLang(Translations(ref.description), lang),
      ref.year,
      BuildMedia(ref.logoLightPath, baseUrl),
      BuildMedia(ref.logoDarkPath, baseUrl),
      nested,
      ref.title,
      ref.description)
  }
}

=== FILE: query.dfy ===
/** Request-value helpers of `src/index.js` (`parseBool`, `parseNumber`, `pickQuery`, the
    `Number()` coercion they rely on) and the two filters of `GET /api/images`. */
module Query {
  import opened Wrappers
  import opened Seqs
  import opened Strings
  import opened Tables
  import opened Localization
  import opened StoreSchema

  /** A value as it arrives in a query string or a request body. Numbers are integers here;
      `JsComposite` is an array or an object. */
  datatype JsValue = JsNull | JsBool(b: bool) | JsNumber(n: int) | JsString(s: string) | JsComposite

  /** JavaScript truthiness: false, 0, '' and null are falsy; arrays and objects are truthy. */
  predicate IsTruthy(v: JsValue)
  {
    match v
    case JsNull => false
    case JsBool(b) => b
    case JsNumber(n) => n != 0
    case JsString(s) => s != ""
    case JsComposite => true
  }

  /** `a ?? b`: `a` unless it is undefined (`None`) or null. */
  function Coalesce(a: Option<JsValue>, b: Option<JsValue>): (r: Option<JsValue>)
    ensures a.Some? && !a.value.JsNull? ==> r == a
    ensures a.None? || a.value.JsNull? ==> r == b
  {
    if a.Some? && !a.value.JsNull? then a else b
  }

  /** The strings `parseBool` reads as true, once lowercased. */
  const TrueWords: set<string> := {"true", "on", "1", "yes"}

  /** `parseBool(val)`. */
  function ParseBool(v: JsValue): (r: bool)
    ensures v.JsBool? ==> r == v.b
    ensures v.JsNumber? ==> (r <==> v.n == 1)
    ensures v.JsString? ==> (r <==> Lower(v.s) in TrueWords)
    ensures v.JsNull? || v.JsComposite? ==> !r
  {
    match v
    case JsBool(b) => b
    case JsNumber(n) => n == 1
    case JsString(s) => Lower(s) in TrueWords
    case _ => false
  }

  /** Strings that differ only in letter case parse to the same flag. */
  lemma ParseBoolIgnoresCase(a: string, b: string)
    requires EqualsIgnoreCase(a, b)
    ensures ParseBool(JsString(a)) == ParseBool(JsString(b))
  {
    EqualsIgnoreCaseIsLowerEquality(a, b);
  }

  /** The accepted spellings in any letter case, and a few that are not accepted. */
  lemma ParseBoolWords()
    ensures ParseBool(JsString("TRUE")) && ParseBool(JsString("On")) && ParseBool(JsString("Yes"))
    ensures ParseBool(JsString("1")) && ParseBool(JsNumber(1))
    ensures !ParseBool(JsString("false")) && !ParseBool(JsString("0")) && !ParseBool(JsString(""))
    ensures !ParseBool(JsNumber(2)) && !ParseBool(JsNull)
  {
    assert Lower("TRUE") == "true";
    assert Lower("On") == "on";
    assert Lower("Yes") == "yes";
    assert Lower("1") == "1";
    assert Lower("false") == "false";
    assert Lower("0") == "0";
  }

  predicate IsDigit(c: char)
  {
    '0' <= c <= '9'
  }

  /** The value of a string of decimal digits. */
  function DecimalValue(s: string): (n: nat)
    requires AllDigits(s)
    ensures s == [] ==> n == 0
    ensures |s| == 1 ==> n == s[0] as int - '0' as int
  {
    if s == [] then 0
    else
      assert IsDigit(s[|s| - 1]);
      var prefix: nat := DecimalValue(s[..|s| - 1]);
      prefix * 10 + (s[|s| - 1] as int - '0' as int)
  }

  predicate AllDigits(s: string)
  {
    forall k :: 0 <= k < |s| ==> IsDigit(s[k])
  }

  function HasSign(s: string): bool
  {
    s != [] && (s[0] == '-' || s[0] == '+')
  }

  /** The text after an optional leading sign. */
  function Unsigned(s: string): (r: string)
    ensures |r| <= |s|
  {
    if HasSign(s) then s[1..] else s
  }

  /** An optionally signed run of decimal digits. */
  predicate IsDecimalInteger(s: string)
  {
    Unsigned(s) != [] && AllDigits(Unsigned(s))
  }

  /** The value an optionally signed digit string denotes. */
  function SignedValue(t: string): int
    requires IsDecimalInteger(t)
  {
    if t[0] == '-' then 0 - DecimalValue(Unsigned(t)) else DecimalValue(Unsigned(t))
  }

  /** The digit character for `0 <= d < 10`. */
  function DigitChar(d: int): (c: char)
    requires 0 <= d < 10
    ensures IsDigit(c) && c as int - '0' as int == d
  {
    ('0' as int + d) as char
  }

  /** `String(n)` for a natural number: its shortest decimal digit string. */
  function Digits(n: nat): (s: string)
    ensures s != [] && AllDigits(s)
    ensures s[0] == '0' ==> s == "0"
    ensures DecimalValue(s) == n
  {
    if n < 10 then [DigitChar(n)]
    else
      var prefix := Digits(n / 10);
      var s := prefix + [DigitChar(n % 10)];
      assert s[..|s| - 1] == prefix;
      s
  }

  /** A digit string without a leading zero other than "0" itself is its value printed back. */
  lemma {:induction false} DigitsOfValue(s: string)
    requires s != [] && AllDigits(s)
    requires s[0] == '0' ==> s == "0"
    ensures Digits(DecimalValue(s)) == s
    decreases |s|
  {
    if |s| > 1 {
      var prefix := s[..|s| - 1];
      var d := s[|s| - 1] as int - '0' as int;
      assert IsDigit(s[|s| - 1]);
      PositiveWithoutLeadingZero(prefix);
      DigitsOfValue(prefix);
      var n := DecimalValue(s);
      assert n == DecimalValue(prefix) * 10 + d;
      assert n / 10 == DecimalValue(prefix) && n % 10 == d;
      assert s == prefix + [DigitChar(d)];
    }
  }

  /** A digit string that does not start with '0' has a positive value. */
  lemma {:induction false} PositiveWithoutLeadingZero(s: string)
    requires s != [] && AllDigits(s) && s[0] != '0'
    ensures DecimalValue(s) > 0
    decreases |s|
  {
    if |s| > 1 {
      var prefix := s[..|s| - 1];
      assert prefix[0] == s[0];
      PositiveWithoutLeadingZero(prefix);
    } else {
      assert IsDigit(s[0]);
    }
  }

  /** `String(n)` for an integer: a '-' before the digits of a negative number. */
  function Printed(n: int): (s: string)
    ensures IsDecimalInteger(s) && IsTrimmed(s)
    ensures SignedValue(s) == n
  {
    if n < 0 then
      var s := "-" + Digits(0 - n);
      assert Unsigned(s) == Digits(0 - n);
      s
    else
      Digits(n)
  }

  /** `Number` on a trimmed, non-blank string: an optionally signed run of decimal digits is
      read as its value, anything else is NaN. */
  function NumberOfText(t: string): (r: Option<int>)
    requires t != ""
    ensures r.Some? <==> IsDecimalInteger(t)
    ensures r.Some? && t[0] == '-' ==> r.value <= 0
    ensures r.Some? && t[0] != '-' ==> r.value >= 0
    ensures r.Some? ==> r.value == SignedValue(t)
  {
    if !IsDecimalInteger(t) then None
    else
      var magnitude: int := DecimalValue(Unsigned(t));
      if t[0] == '-' then Some(0 - magnitude) else Some(magnitude)
  }

  /** `Number(val)` when it is an integer, `None` when it is NaN (or a value this model does
      not read, such as a fraction, a hexadecimal literal or an array). A blank string and
      null are 0. */
  function ToNumber(v: JsValue): (r: Option<int>)
    ensures v.JsNumber? ==> r == Some(v.n)
    ensures v.JsBool? ==> r == Some(if v.b then 1 else 0)
    ensures v.JsString? && Trim(v.s) == "" ==> r == Some(0)
    ensures v.JsString? && Trim(v.s) != "" ==> (r.Some? <==> IsDecimalInteger(Trim(v.s)))
    ensures v.JsString? && IsDecimalInteger(Trim(v.s)) ==> r == Some(SignedValue(Trim(v.s)))
    ensures v.JsNull? ==> r == Some(0)
    ensures v.JsComposite? ==> r.None?
  {
    match v
    case JsBool(b) => Some(if b then 1 else 0)
    case JsNumber(n) => Some(n)
    case JsString(s) => var t := Trim(s); if t == "" then Some(0) else NumberOfText(t)
    case JsNull => Some(0)
    case JsComposite => None
  }

  /** Signed and unsigned digit strings read as their value. */
  lemma NumberOfTextReadsDigits()
    ensures NumberOfText("12") == Some(12)
    ensures NumberOfText("-3") == Some(-3)
    ensures NumberOfText("+7") == Some(7)
    ensures NumberOfText("abc").None? && NumberOfText("-").None?
  {
    assert DecimalValue("12") == DecimalValue("1") * 10 + 2 by {
      assert "12"[..1] == "1";
    }
    assert "-3"[1..] == "3";
    assert "+7"[1..] == "7";
    assert !IsDigit("abc"[0]);
    assert "-"[1..] == [];
  }

  /** `Number(String(n))` is `n` for every integer. */
  lemma NumberOfPrinted(n: int)
    ensures ToNumber(JsString(Printed(n))) == Some(n)
  {
    TrimOfTrimmed(Printed(n));
  }

  /** `parseNumber(val, fallback)` on the coerced value: a finite number is kept, anything
      else gives the fallback. */
  function ParseNumber(parsed: Option<int>, fallback: int): (r: int)
    ensures parsed.Some? ==> r == parsed.value
    ensures parsed.None? ==> r == fallback
  {
    parsed.GetOr(fallback)
  }

  /** `pickQuery(req, keys)`: the value of the first key the query string defines. */
  function PickQuery(query: map<string, JsValue>, keys: seq<string>): (r: Option<JsValue>)
    ensures r.None? <==> forall i :: 0 <= i < |keys| ==> keys[i] !in query
    ensures r.Some? ==>
              exists i :: 0 <= i < |keys| && keys[i] in query && r.value == query[keys[i]]
                          && forall j :: 0 <= j < i ==> keys[j] !in query
  {
    if keys == [] then None
    else if keys[0] in query then
      assert keys[0] in query && query[keys[0]] == query[keys[0]];
      Some(query[keys[0]])
    else
      var r := PickQuery(query, keys[1..]);
      assert forall i :: 1 <= i < |keys| ==> keys[i] == keys[1..][i - 1];
      if r.Some? then
        var i :| 0 <= i < |keys[1..]| && keys[1..][i] in query && r.value == query[keys[1..][i]]
                 && forall j :: 0 <= j < i ==> keys[1..][j] !in query;
        assert keys[i + 1] in query && r.value == query[keys[i + 1]];
        assert forall j :: 0 <= j < i + 1 ==> keys[j] !in query by {
          forall j | 0 <= j < i + 1 ensures keys[j] !in query {
            if j > 0 {
              assert keys[j] == keys[1..][j - 1];
            }
          }
        }
        r
      else
        r
  }

  // ---------------------------------------------------------------- filters of GET /api/images

  /** `!!img.home === shouldBeHome`. */
  function HomeIs(shouldBeHome: bool): Image -> bool
  {
    (img: Image) => img.home == shouldBeHome
  }

  /** `[pickLang(title, 'en'), pickLang(title, 'tr')].some(v => v && v.toLowerCase() === q.toLowerCase())`. */
  predicate TitleMatches(title: Bundle, q: string)
  {
    var asEn := PickLang(Translations(title), En);
    var asTr := PickLang(Translations(title), Tr);
    (asEn != "" && Lower(asEn) == Lower(q)) || (asTr != "" && Lower(asTr) == Lower(q))
  }

  /** The language fallback inside `pickLang` adds nothing: a title matches exactly when one of
      its own non-empty translations equals the filter text up to letter case. */
  lemma TitleMatchesEitherTranslation(title: Bundle, q: string)
    ensures TitleMatches(title, q)
        <==> (title.en != "" && EqualsIgnoreCase(title.en, q)) || (title.tr != "" && EqualsIgnoreCase(title.tr, q))
  {
    EqualsIgnoreCaseIsLowerEquality(title.en, q);
    EqualsIgnoreCaseIsLowerEquality(title.tr, q);
  }

  function TitleMatchesText(q: string): Category -> bool
  {
    (c: Category) => TitleMatches(c.title, q)
  }

  /** `matchingCategoryIds`: the ids of the categories whose title matches, in list order. */
  function MatchingCategoryIds(categories: seq<Category>, q: string): (r: seq<Id>)
    ensures forall id :: id in r <==> exists k :: 0 <= k < |categories| && categories[k].id == id
                                                 && TitleMatches(categories[k].title, q)
  {
    var matching := Filter(categories, TitleMatchesText(q));
    var r := seq(|matching|, k requires 0 <= k < |matching| => matching[k].id);
    assert forall id :: id in r ==> exists k :: 0 <= k < |categories| && categories[k].id == id
                                                && TitleMatches(categories[k].title, q) by {
      forall id | id in r
        ensures exists k :: 0 <= k < |categories| && categories[k].id == id && TitleMatches(categories[k].title, q)
      {
        var m :| 0 <= m < |r| && r[m] == id;
        assert TitleMatchesText(q)(matching[m]);
        var k :| 0 <= k < |categories| && categories[k] == matching[m];
      }
    }
    assert forall k :: 0 <= k < |categories| && TitleMatches(categories[k].title, q) ==> categories[k].id in r by {
      forall k | 0 <= k < |categories| && TitleMatches(categories[k].title, q) ensures categories[k].id in r {
        assert TitleMatchesText(q)(categories[k]);
        var m :| 0 <= m < |matching| && matching[m] == categories[k];
        assert r[m] == categories[k].id;
      }
    }
    r
  }

  /** `(img.categoryIds || []).some((id) => matchingCategoryIds.includes(id))`. */
  function LinkedToAny(ids: seq<Id>): Image -> bool
  {
    (img: Image) => Intersects(img.categoryIds, ids)
  }

  /** Whether an image passes the filters a request asked for. */
  predicate Selected(img: Image, home: Option<bool>, categoryIds: Option<seq<Id>>)
  {
    && (home.None? || img.home == home.value)
    && (categoryIds.None? || Intersects(img.categoryIds, categoryIds.value))
  }

  function SelectedBy(home: Option<bool>, categoryIds: Option<seq<Id>>): Image -> bool
  {
    (img: Image) => Selected(img, home, categoryIds)
  }

  /** Applying the home filter, then the category filter, each only when requested, keeps the
      images that pass both. */
  lemma {:induction false} SequentialFiltersSelect(images: seq<Image>, home: Option<bool>, categoryIds: Option<seq<Id>>)
    ensures var afterHome := if home.Some? then Filter(images, HomeIs(home.value)) else images;
            (if categoryIds.Some? then Filter(afterHome, LinkedToAny(categoryIds.value)) else afterHome)
            == Filter(images, SelectedBy(home, categoryIds))
  {
    match (home, categoryIds)
    case (Some(h), Some(ids)) =>
      FilterFilter(images, HomeIs(h), LinkedToAny(ids));
      FilterAgreeing(images, Both(HomeIs(h), LinkedToAny(ids)), SelectedBy(home, categoryIds));
    case (Some(h), None) =>
      FilterAgreeing(images, HomeIs(h), SelectedBy(home, categoryIds));
    case (None, Some(ids)) =>
      FilterAgreeing(images, LinkedToAny(ids), SelectedBy(home, categoryIds));
    case (None, None) =>
      FilterAllKept(images, SelectedBy(home, categoryIds));
  }

  /** The home filter, then the category filter, each applied only when requested. */
  function FilterImages(images: seq<Image>, home: Option<bool>, categoryIds: Option<seq<Id>>): (r: seq<Image>)
    ensures r == Filter(images, SelectedBy(home, categoryIds))
    ensures IsSubsequence(r, images)
    ensures forall k :: 0 <= k < |r| ==> Selected(r[k], home, categoryIds)
    ensures forall k :: 0 <= k < |images| && Selected(images[k], home, categoryIds) ==> images[k] in r
  {
    var afterHome := if home.Some? then Filter(images, HomeIs(home.value)) else images;
    SequentialFiltersSelect(images, home, categoryIds);
    if categoryIds.Some? then Filter(afterHome, LinkedToAny(categoryIds.value)) else afterHome
  }
}

=== FILE: read_routes.dfy ===
/** The public read routes of `src/index.js`: `GET /api/about`, `/api/logo`, `/api/categories`,
    `/api/references`, `/api/images/:id` and the filtered, paginated `GET /api/images`. */
module ReadRoutes {
  import opened Wrappers
  import opened Seqs
  import opened Sorting
  import opened Tables
  import opened Localization
  import opened Media
  import opened StoreSchema
  import opened Store
  import opened Projection
  import opened Pagination
  import opened Query

  // ---------------------------------------------------------------- about, logo

  /** `{ About_text, translations, updatedAt }`. */
  datatype AboutView = AboutView(aboutText: string, translations: Bundle, updatedAt: int)

  /** `GET /api/about`: the text in the request language (with the usual fallback) beside
      both stored translations. */
  function AboutRoute(db: Db, lang: LangCode): (r: AboutView)
    ensures r.translations == Bundle(db.about.contentEn, db.about.contentTr)
    ensures r.updatedAt == db.about.updatedAt
    ensures r.aboutText in {db.about.contentEn, db.about.contentTr}
    ensures r.translations.Get(lang) != "" ==> r.aboutText == r.translations.Get(lang)
    ensures r.aboutText == "" <==> db.about.contentEn == "" && db.about.contentTr == ""
  {
    var b := Bundle(db.about.contentEn, db.about.contentTr);
    PickLangIsOneOfTheTranslations(b, lang);
    AboutView(PickLang(Translations(b), lang), b, db.about.updatedAt)
  }

  /** The id column of the logo singleton. */
  const LogoId: string := "logo"

  /** `{ id, img, alt, translations }`. */
  datatype LogoView = LogoView(id: string, img: Option<MediaRef>, alt: string, translations: Bundle)

  /** `GET /api/logo`. */
  function LogoRoute(db: Db, lang: LangCode, baseUrl: string): (r: LogoView)
    ensures r.id == LogoId
    ensures r.img.None? <==> db.logo.imgPath == ""
    ensures r.img == BuildMedia(db.logo.imgPath, baseUrl)
    ensures r.translations == Bundle(db.logo.altEn, db.logo.altTr)
    ensures r.alt in {db.logo.altEn, db.logo.altTr}
    ensures r.translations.Get(lang) != "" ==> r.alt == r.translations.Get(lang)
    ensures r.alt == "" <==> db.logo.altEn == "" && db.logo.altTr == ""
  {
    var b := Bundle(db.logo.altEn, db.logo.altTr);
    PickLangIsOneOfTheTranslations(b, lang);
    LogoView(LogoId, BuildMedia(db.logo.imgPath, baseUrl), PickLang(Translations(b), lang), b)
  }

  // ---------------------------------------------------------------- categories, references

  /** The sort key `a.position ?? 0` (the store already reads a NULL position as 0). */
  function CategoryPosition(c: Category): int
  {
    c.position
  }

  /** The categories in display order: ascending position, ties in table order. */
  function CategoriesInDisplayOrder(db: Db): (r: seq<Category>)
    ensures multiset(r) == multiset(ListCategories(db))
    ensures |r| == |db.categories|
    ensures forall i :: 0 <= i < |r| ==> r[i] in ListCategories(db)
    ensures forall i, j :: 0 <= i < j < |r| ==> r[i].position <= r[j].position
    ensures forall position :: Filter(r, KeyIs(CategoryPosition, position))
                               == Filter(ListCategories(db), KeyIs(CategoryPosition, position))
  {
    var cats := ListCategories(db);
    var r := SortBy(cats, CategoryPosition);
    assert forall i, j :: 0 <= i < j < |r| ==> CategoryPosition(r[i]) <= CategoryPosition(r[j]);
    SortByElements(cats, CategoryPosition);
    SortByStableAll(cats, CategoryPosition);
    r
  }

  /** A listed category carries the id of a stored row. */
  lemma StoredCategoryId(db: Db, c: Category)
    requires c in ListCategories(db)
    ensures exists k :: 0 <= k < |db.categories| && c.id == db.categories[k].id
  {
    var cats := ListCategories(db);
    var k :| 0 <= k < |cats| && cats[k] == c;
    assert c.id == db.categories[k].id;
  }

  /** `GET /api/categories`: every category, formatted, by ascending position. Each stored
      category has a view, and under the primary-key constraint no id is shown twice. */
  function CategoriesRoute(db: Db, lang: LangCode): (r: seq<CategoryView>)
    ensures |r| == |db.categories|
    ensures forall i :: 0 <= i < |r| ==> r[i] == FormatCategory(CategoriesInDisplayOrder(db)[i], lang)
    ensures forall i, j :: 0 <= i < j < |r| ==> r[i].position <= r[j].position
    ensures forall i :: 0 <= i < |r| ==> exists k :: 0 <= k < |db.categories| && r[i].id == db.categories[k].id
    ensures forall k :: 0 <= k < |db.categories| ==>
              exists i :: 0 <= i < |r| && r[i] == FormatCategory(ListCategories(db)[k], lang)
    ensures Valid(db) ==> forall i, j :: 0 <= i < j < |r| ==> r[i].id != r[j].id
  {
    var cats := CategoriesInDisplayOrder(db);
    var r := seq(|cats|, i requires 0 <= i < |cats| => FormatCategory(cats[i], lang));
    StoredIdsShown(db, lang, r);
    EveryCategoryShown(db, lang, r);
    ShownIdsDistinct(db, lang, r);
    r
  }

  /** Every view in a list formatted from the display order shows a stored row's id. */
  lemma StoredIdsShown(db: Db, lang: LangCode, r: seq<CategoryView>)
    requires |r| == |CategoriesInDisplayOrder(db)|
    requires forall i :: 0 <= i < |r| ==> r[i] == FormatCategory(CategoriesInDisplayOrder(db)[i], lang)
    ensures forall i :: 0 <= i < |r| ==> exists k :: 0 <= k < |db.categories| && r[i].id == db.categories[k].id
  {
    var cats := CategoriesInDisplayOrder(db);
    forall i | 0 <= i < |r| ensures exists k :: 0 <= k < |db.categories| && r[i].id == db.categories[k].id {
      StoredCategoryId(db, cats[i]);
    }
  }

  /** Under the primary-key constraint a list formatted from the display order shows each id once. */
  lemma ShownIdsDistinct(db: Db, lang: LangCode, r: seq<CategoryView>)
    requires |r| == |CategoriesInDisplayOrder(db)|
    requires forall i :: 0 <= i < |r| ==> r[i] == FormatCategory(CategoriesInDisplayOrder(db)[i], lang)
    ensures Valid(db) ==> forall i, j :: 0 <= i < j < |r| ==> r[i].id != r[j].id
  {
    if Valid(db) {
      DisplayOrderIdsDistinct(db);
    }
  }

  /** Every listed category is formatted somewhere in a list formatted from the display order. */
  lemma EveryCategoryShown(db: Db, lang: LangCode, r: seq<CategoryView>)
    requires |r| == |CategoriesInDisplayOrder(db)|
    requires forall i :: 0 <= i < |r| ==> r[i] == FormatCategory(CategoriesInDisplayOrder(db)[i], lang)
    ensures forall k :: 0 <= k < |db.categories| ==>
              exists i :: 0 <= i < |r| && r[i] == FormatCategory(ListCategories(db)[k], lang)
  {
    var cats := CategoriesInDisplayOrder(db);
    var listed := ListCategories(db);
    forall k | 0 <= k < |db.categories|
      ensures exists i :: 0 <= i < |r| && r[i] == FormatCategory(listed[k], lang)
    {
      assert listed[k] in multiset(cats);
      var i :| 0 <= i < |cats| && cats[i] == listed[k];
      assert r[i] == FormatCategory(listed[k], lang);
    }
  }

  /** Under the primary-key constraint the display order shows each id once. */
  lemma DisplayOrderIdsDistinct(db: Db)
    requires Valid(db)
    ensures forall i, j :: 0 <= i < j < |CategoriesInDisplayOrder(db)| ==>
              CategoriesInDisplayOrder(db)[i].id != CategoriesInDisplayOrder(db)[j].id
  {
    var listed := ListCategories(db);
    assert forall p, q :: 0 <= p < q < |listed| ==> CategoryId(listed[p]) != CategoryId(listed[q]) by {
      forall p, q | 0 <= p < q < |listed| ensures CategoryId(listed[p]) != CategoryId(listed[q]) {
        assert CategoryKey(db.categories[p]) != CategoryKey(db.categories[q]);
      }
    }
    DistinctKeysOfPermutation(CategoriesInDisplayOrder(db), listed, CategoryId);
  }

  /** `GET /api/references`: every reference in table order, its images as stubs (dangling ids
      included). */
  function ReferencesRoute(db: Db, lang: LangCode, baseUrl: string): (r: seq<ReferenceView>)
    ensures |r| == |db.references|
    ensures forall i :: 0 <= i < |r| ==> r[i].id == db.references[i].id && HasStubImages(r[i])
    ensures forall i :: 0 <= i < |r| ==> r[i] == FormatReference(ListReferences(db)[i], lang, baseUrl, true, [])
    ensures forall i :: 0 <= i < |r| ==>
              r[i].images.Stubs?
              && |r[i].images.stubs| == |ListReferences(db)[i].imageIds|
              && forall k :: 0 <= k < |r[i].images.stubs| ==> r[i].images.stubs[k].id == ListReferences(db)[i].imageIds[k]
  {
    var refs := ListReferences(db);
    seq(|refs|, i requires 0 <= i < |refs| => FormatReference(refs[i], lang, baseUrl, true, []))
  }

  /** A reference listed by `GET /api/references` names exactly the images linked to it in
      `reference_images`. */
  lemma ReferencesRouteStubsAreLinks(db: Db, lang: LangCode, baseUrl: string, i: int, imageId: Id)
    requires Valid(db)
    requires 0 <= i < |db.references|
    ensures var v := ReferencesRoute(db, lang, baseUrl)[i];
            (exists k :: 0 <= k < |v.images.stubs| && v.images.stubs[k].id == imageId)
              <==> imageId in GetReference(db, v.id).value.imageIds
  {
    var v := ReferencesRoute(db, lang, baseUrl)[i];
    var ids := ListReferences(db)[i].imageIds;
    assert GetReference(db, v.id) == Some(ListReferences(db)[i]);
    if imageId in ids {
      var k :| 0 <= k < |ids| && ids[k] == imageId;
      assert v.images.stubs[k].id == imageId;
    }
  }

  // ---------------------------------------------------------------- one image

  /** `GET /api/images/:id`: 404 (`None`) for an unknown id, else the formatted image with its
      links resolved against every stored category and reference. */
  function ImageRoute(db: Db, id: Id, lang: LangCode, baseUrl: string, now: int): (r: Option<ImageView>)
    ensures r.None? <==> GetImage(db, id, now).None?
    ensures r.Some? ==> r.value.id == id
    ensures r.Some? ==>
              r.value == FormatImage(GetImage(db, id, now).value, lang, ListCategories(db), ListReferences(db), baseUrl)
    ensures r.Some? ==>
              forall c :: c in IdsOf(r.value.categories, (v: CategoryView) => v.id)
                <==> c in GetImage(db, id, now).value.categoryIds && GetCategory(db, c).Some?
    ensures r.Some? ==>
              forall x :: x in IdsOf(r.value.references, (v: ReferenceView) => v.id)
                <==> x in GetImage(db, id, now).value.referenceIds && GetReference(db, x).Some?
  {
    match GetImage(db, id, now)
    case None => None
    case Some(img) =>
      var cats := ListCategories(db);
      var refs := ListReferences(db);
      KnownCategoriesAreStored(db);
      KnownReferencesAreStored(db);
      Some(FormatImage(img, lang, cats, refs, baseUrl))
  }

  /** A category id resolves against `listCategories()` exactly when `getCategory` finds it. */
  lemma KnownCategoriesAreStored(db: Db)
    ensures forall c :: Known(ListCategories(db), CategoryId)(c) <==> GetCategory(db, c).Some?
  {
    forall c ensures Known(ListCategories(db), CategoryId)(c) <==> GetCategory(db, c).Some? {
      KnownCategoryIsStored(db, c);
    }
  }

  lemma KnownCategoryIsStored(db: Db, c: Id)
    ensures Known(ListCategories(db), CategoryId)(c) <==> GetCategory(db, c).Some?
  {
    var cats := ListCategories(db);
    if GetCategory(db, c).Some? {
      assert GetCategory(db, c).value in cats;
      var k :| 0 <= k < |cats| && cats[k] == GetCategory(db, c).value;
      assert CategoryId(cats[k]) == c;
    }
    if Known(cats, CategoryId)(c) {
      var k :| 0 <= k < |cats| && CategoryId(cats[k]) == c;
      assert CategoryKey(db.categories[k]) == c;
    }
  }

  /** A reference id resolves against `listReferences()` exactly when `getReference` finds it. */
  lemma KnownReferencesAreStored(db: Db)
    ensures forall x :: Known(ListReferences(db), ReferenceId)(x) <==> GetReference(db, x).Some?
  {
    forall x ensures Known(ListReferences(db), ReferenceId)(x) <==> GetReference(db, x).Some? {
      KnownReferenceIsStored(db, x);
    }
  }

  lemma KnownReferenceIsStored(db: Db, x: Id)
    ensures Known(ListReferences(db), ReferenceId)(x) <==> GetReference(db, x).Some?
  {
    var refs := ListReferences(db);
    if GetReference(db, x).Some? {
      assert GetReference(db, x).value in refs;
      var k :| 0 <= k < |refs| && refs[k] == GetReference(db, x).value;
      assert ReferenceId(refs[k]) == x;
    }
    if Known(refs, ReferenceId)(x) {
      var k :| 0 <= k < |refs| && ReferenceId(refs[k]) == x;
      assert ReferenceKey(db.references[k]) == x;
    }
  }
}

=== FILE: seqs.dfy ===
/** Order-preserving selection over sequences, the `Array.prototype.filter` of the model. */
module Seqs {

  /** `sub` can be obtained from `s` by deleting elements, keeping the order of the rest. */
  ghost predicate IsSubsequence<T>(sub: seq<T>, s: seq<T>)
    decreases |s|
  {
    if sub == [] then true
    else if s == [] then false
    else if sub[0] == s[0] then IsSubsequence(sub[1..], s[1..])
    else IsSubsequence(sub, s[1..])
  }

  /** The elements of `s` satisfying `keep`, in their original order. */
  function Filter<T>(s: seq<T>, keep: T -> bool): (r: seq<T>)
    ensures |r| <= |s|
    ensures forall k :: 0 <= k < |r| ==> r[k] in s && keep(r[k])
    ensures forall k :: 0 <= k < |s| && keep(s[k]) ==> s[k] in r
    ensures IsSubsequence(r, s)
  {
    if s == [] then []
    else if keep(s[0]) then [s[0]] + Filter(s[1..], keep)
    else Filter(s[1..], keep)
  }

  /** Filtering distributes over concatenation. */
  lemma {:induction false} FilterAppend<T>(a: seq<T>, b: seq<T>, keep: T -> bool)
    ensures Filter(a + b, keep) == Filter(a, keep) + Filter(b, keep)
  {
    if a == [] {
      assert a + b == b;
    } else {
      var head, tail := a[0], a[1..];
      assert (a + b)[0] == head;
      assert (a + b)[1..] == tail + b;
      FilterAppend(tail, b, keep);
      if keep(head) {
        calc {
          Filter(a + b, keep);
          [head] + Filter(tail + b, keep);
          [head] + (Filter(tail, keep) + Filter(b, keep));
          ([head] + Filter(tail, keep)) + Filter(b, keep);
          Filter(a, keep) + Filter(b, keep);
        }
      } else {
        assert Filter(a + b, keep) == Filter(tail + b, keep);
        assert Filter(a, keep) == Filter(tail, keep);
      }
    }
  }

  /** A one-element sequence keeps its element exactly when it passes the test. */
  lemma FilterSingleton<T>(e: T, keep: T -> bool)
    ensures Filter([e], keep) == if keep(e) then [e] else []
  {
    assert [e][1..] == [];
  }

  /** A sequence whose every element passes the test is its own filter. */
  lemma {:induction false} FilterAllKept<T>(s: seq<T>, keep: T -> bool)
    requires forall k :: 0 <= k < |s| ==> keep(s[k])
    ensures Filter(s, keep) == s
  {
    if s != [] {
      FilterAllKept(s[1..], keep);
    }
  }

  /** A sequence whose every element fails the test filters to nothing. */
  lemma {:induction false} FilterNoneKept<T>(s: seq<T>, keep: T -> bool)
    requires forall k :: 0 <= k < |s| ==> !keep(s[k])
    ensures Filter(s, keep) == []
  {
    if s != [] {
      FilterNoneKept(s[1..], keep);
    }
  }

  /** Whether some element of `a` also occurs in `b`: JavaScript's `a.some((x) => b.includes(x))`. */
  predicate Intersects<T(==)>(a: seq<T>, b: seq<T>)
  {
    exists i :: 0 <= i < |a| && a[i] in b
  }

  /** Both tests hold. */
  function Both<T>(p: T -> bool, q: T -> bool): T -> bool
  {
    x => p(x) && q(x)
  }

  /** Two filters in a row select what one filter with both tests selects. */
  lemma {:induction false} FilterFilter<T>(s: seq<T>, p: T -> bool, q: T -> bool)
    ensures Filter(Filter(s, p), q) == Filter(s, Both(p, q))
  {
    if s != [] {
      FilterFilter(s[1..], p, q);
      if p(s[0]) {
        assert Filter(s, p) == [s[0]] + Filter(s[1..], p);
        assert Filter(s, p)[1..] == Filter(s[1..], p);
      }
    }
  }

  /** Two tests that agree on every element keep the same elements. */
  lemma {:induction false} FilterAgreeing<T>(s: seq<T>, p: T -> bool, q: T -> bool)
    requires forall k :: 0 <= k < |s| ==> p(s[k]) == q(s[k])
    ensures Filter(s, p) == Filter(s, q)
  {
    if s != [] {
      FilterAgreeing(s[1..], p, q);
    }
  }

  /** Filtering keeps every passing element as often as it occurs, and no other. */
  lemma {:induction false} FilterMultiset<T>(s: seq<T>, keep: T -> bool)
    ensures forall x :: multiset(Filter(s, keep))[x] == if keep(x) then multiset(s)[x] else 0
  {
    if s != [] {
      FilterMultiset(s[1..], keep);
      assert s == [s[0]] + s[1..];
      assert multiset(s) == multiset{s[0]} + multiset(s[1..]);
    }
  }

  /** Filtering two orderings of the same elements keeps the same elements, as often. */
  lemma FilterPermutation<T>(a: seq<T>, b: seq<T>, keep: T -> bool)
    requires multiset(a) == multiset(b)
    ensures multiset(Filter(a, keep)) == multiset(Filter(b, keep))
    ensures |Filter(a, keep)| == |Filter(b, keep)|
  {
    FilterMultiset(a, keep);
    FilterMultiset(b, keep);
    assert multiset(Filter(a, keep)) == multiset(Filter(b, keep));
    assert |multiset(Filter(a, keep))| == |Filter(a, keep)|;
  }
}

=== FILE: sessions.dfy ===
/** The admin sessions of `src/index.js`: the in-memory `sessions` map, `POST /admin/login`
    that adds to it, and the `auth` middleware that checks, refreshes and expires entries.
    The clock is the `now` parameter and `crypto.randomUUID()` the `token` parameter. */
module Sessions {
  import opened Wrappers
  import opened Strings

  /** `1000 * 60 * 60 * 24`: a session lives one day. */
  const SessionTtlMs: int := 86_400_000

  /** The `expiresIn` the login response reports, in seconds. */
  const ExpiresInSeconds: int := 86_400

  /** The password used when `ADMIN_PASSWORD` is unset or empty. */
  const DefaultPassword: string := "change-me"

  datatype Session = Session(createdAt: int, expiresAt: int, lastSeen: int)

  /** Token to session. */
  type SessionTable = map<string, Session>

  /** `process.env.ADMIN_PASSWORD || 'change-me'`: never empty. */
  function AdminPassword(configured: Option<string>): (r: string)
    ensures r != ""
    ensures configured.Some? && configured.value != "" ==> r == configured.value
    ensures configured.None? || configured.value == "" ==> r == DefaultPassword
  {
    if configured.Some? && configured.value != "" then configured.value else DefaultPassword
  }

  /** The login response: a token with its lifetime, or 401 `Invalid credentials`. */
  datatype LoginResponse = Token(token: string, expiresIn: int) | InvalidCredentials

  datatype LoginOutcome = LoginOutcome(sessions: SessionTable, response: LoginResponse)

  /** `POST /admin/login`. `password` is the body's `password` when it is a string (`None`
      when it is absent or of another type, which `!==` can never equate to the configured
      string). A missing, empty or wrong password creates nothing; otherwise the fresh token
      maps to a session created now and expiring a day later. */
  function Login(sessions: SessionTable, adminPassword: string, password: Option<string>, token: string, now: int)
    : (r: LoginOutcome)
    ensures r.response.Token? <==> password.Some? && password.value != "" && password.value == adminPassword
    ensures r.response.InvalidCredentials? ==> r.sessions == sessions
    ensures r.response.Token? ==>
              && r.response == Token(token, ExpiresInSeconds)
              && r.sessions == sessions[token := Session(now, now + SessionTtlMs, now)]
  {
    if password.None? || password.value == "" || password.value != adminPassword then
      LoginOutcome(sessions, InvalidCredentials)
    else
      LoginOutcome(sessions[token := Session(now, now + SessionTtlMs, now)], Token(token, ExpiresInSeconds))
  }

  /** `(req.headers.authorization || '').replace('Bearer ', '')`: the first "Bearer " is cut
      out wherever it is; a header without one is used whole. */
  function BearerToken(authorization: Option<string>): (r: string)
    ensures authorization.None? ==> r == ""
    ensures authorization.Some? && StartsWith(authorization.value, "Bearer ") ==> r == authorization.value[7..]
    ensures authorization.Some? && !Occurs(authorization.value, "Bearer ") ==> r == authorization.value
    ensures authorization.Some? ==>
              forall i :: FirstOccurrence(authorization.value, "Bearer ", i) ==>
                r == authorization.value[..i] + authorization.value[i + 7..]
  {
    ReplaceFirst(authorization.GetOr(""), "Bearer ", "")
  }

  /** A "Bearer " after the start is cut out too: "Token Bearer abc" yields "Token abc". */
  lemma BearerCutMidHeader()
    ensures BearerToken(Some("Token Bearer abc")) == "Token abc"
  {
    var h := "Token Bearer abc";
    assert FirstOccurrence(h, "Bearer ", 6) by {
      assert h[6..13] == "Bearer ";
      forall j | 0 <= j < 6 ensures !OccursAt(h, "Bearer ", j) {
        assert h[j..j + 7][0] == h[j] != 'B' == "Bearer "[0];
      }
    }
    assert h[..6] + h[13..] == "Token abc";
  }

  /** Whether `auth` lets a request through, and the session table it leaves behind. */
  datatype AuthOutcome = AuthOutcome(sessions: SessionTable, admitted: bool)

  /** `auth`: a non-empty token of a live session (`expiresAt > now`) is admitted and its
      `lastSeen` set to now; a token of an expired session is removed and refused; any other
      request is refused and changes nothing. */
  function Auth(sessions: SessionTable, authorization: Option<string>, now: int): (r: AuthOutcome)
    ensures var token := BearerToken(authorization);
            r.admitted <==> token != "" && token in sessions && sessions[token].expiresAt > now
    ensures var token := BearerToken(authorization);
            r.admitted ==> r.sessions == sessions[token := sessions[token].(lastSeen := now)]
    ensures var token := BearerToken(authorization);
            token != "" && token in sessions && sessions[token].expiresAt <= now ==>
              r.sessions == sessions - {token} && !r.admitted
    ensures var token := BearerToken(authorization);
            token == "" || token !in sessions ==> r.sessions == sessions && !r.admitted
    ensures r.sessions.Keys <= sessions.Keys
  {
    var token := BearerToken(authorization);
    if token != "" && token in sessions then
      var session := sessions[token];
      if session.expiresAt > now then
        AuthOutcome(sessions[token := session.(lastSeen := now)], true)
      else
        AuthOutcome(sessions - {token}, false)
    else
      AuthOutcome(sessions, false)
  }

  /** A token from a successful login admits requests that carry it as a bearer token until a
      day has passed, and is refused and dropped from then on. */
  lemma LoginThenAuth(sessions: SessionTable, adminPassword: string, password: string, token: string,
                      loginAt: int, requestAt: int)
    requires password != "" && password == adminPassword
    requires token != ""
    ensures var loggedIn := Login(sessions, adminPassword, Some(password), token, loginAt).sessions;
            var checked := Auth(loggedIn, Some("Bearer " + token), requestAt);
            && (checked.admitted <==> requestAt < loginAt + SessionTtlMs)
            && (!checked.admitted ==> token !in checked.sessions)
  {
    assert StartsWith("Bearer " + token, "Bearer ");
    assert ("Bearer " + token)[7..] == token;
  }

  /** A refused login leaves every existing session as it was, so a guessed password cannot
      log anyone out or in. */
  lemma FailedLoginChangesNothing(sessions: SessionTable, adminPassword: string, password: Option<string>,
                                  token: string, now: int, authorization: Option<string>, later: int)
    requires password != Some(adminPassword)
    ensures var outcome := Login(sessions, adminPassword, password, token, now);
            && outcome.response.InvalidCredentials?
            && Auth(outcome.sessions, authorization, later) == Auth(sessions, authorization, later)
  {
  }

  /** A refreshed session keeps its expiry: `lastSeen` does not extend the lifetime. */
  lemma AuthDoesNotExtendExpiry(sessions: SessionTable, authorization: Option<string>, now: int, token: string)
    requires token in sessions
    ensures var r := Auth(sessions, authorization, now);
            token in r.sessions ==> r.sessions[token].expiresAt == sessions[token].expiresAt
                                    && r.sessions[token].createdAt == sessions[token].createdAt
  {
  }
}

=== FILE: sorting.dfy ===
/** A stable sort by an integer key: `Array.prototype.sort((a, b) => key(a) - key(b))`
    (the ECMAScript sort is stable). It also fixes the order of an SQL `ORDER BY`, whose
    ties SQLite leaves unspecified, as table order. */
module Sorting {
  import opened Seqs

  predicate SortedBy<T>(s: seq<T>, key: T -> int)
  {
    forall i, j :: 0 <= i < j < |s| ==> key(s[i]) <= key(s[j])
  }

  /** An element no larger than any element of a sorted sequence may go in front of it. */
  lemma SortedCons<T>(h: T, s: seq<T>, key: T -> int)
    requires SortedBy(s, key)
    requires forall j :: 0 <= j < |s| ==> key(h) <= key(s[j])
    ensures SortedBy([h] + s, key)
  {
    var r := [h] + s;
    forall i, j | 0 <= i < j < |r| ensures key(r[i]) <= key(r[j]) {
      assert r[j] == s[j - 1];
      if i > 0 {
        assert r[i] == s[i - 1];
      }
    }
  }

  /** A lower bound on `x` and on every element of `pool` bounds every element of a
      sequence holding exactly those. */
  lemma BoundedByMultiset<T>(lo: int, rest: seq<T>, pool: seq<T>, x: T, key: T -> int)
    requires multiset(rest) == multiset(pool) + multiset{x}
    requires lo <= key(x)
    requires forall j :: 0 <= j < |pool| ==> lo <= key(pool[j])
    ensures forall j :: 0 <= j < |rest| ==> lo <= key(rest[j])
  {
    forall j | 0 <= j < |rest| ensures lo <= key(rest[j]) {
      assert rest[j] in multiset(rest);
      if rest[j] != x {
        assert rest[j] in multiset(pool);
        assert rest[j] in pool;
      }
    }
  }

  /** Inserts `x` in front of the first element whose key is not smaller, so that `x`
      precedes every element of `s` carrying the same key. */
  function Insert<T>(x: T, s: seq<T>, key: T -> int): (r: seq<T>)
    requires SortedBy(s, key)
    ensures |r| == |s| + 1
    ensures SortedBy(r, key)
    ensures multiset(r) == multiset(s) + multiset{x}
  {
    if s == [] || key(x) <= key(s[0]) then
      SortedCons(x, s, key);
      [x] + s
    else
      var head, tail := s[0], s[1..];
      assert s == [head] + tail;
      var rest := Insert(x, tail, key);
      BoundedByMultiset(key(head), rest, tail, x, key);
      SortedCons(head, rest, key);
      [head] + rest
  }

  /** Ascending order of `key`, ties kept in input order. */
  function SortBy<T>(s: seq<T>, key: T -> int): (r: seq<T>)
    ensures |r| == |s|
    ensures SortedBy(r, key)
    ensures multiset(r) == multiset(s)
  {
    if s == [] then []
    else
      assert s == [s[0]] + s[1..];
      Insert(s[0], SortBy(s[1..], key), key)
  }

  /** Sorting an already sorted sequence changes nothing. */
  lemma {:induction false} SortByOfSorted<T>(s: seq<T>, key: T -> int)
    requires SortedBy(s, key)
    ensures SortBy(s, key) == s
  {
    if s != [] {
      SortByOfSorted(s[1..], key);
      assert [s[0]] + s[1..] == s;
    }
  }

  /** The test "has key `v`". */
  function KeyIs<T>(key: T -> int, v: int): T -> bool
  {
    e => key(e) == v
  }

  lemma {:induction false} InsertKeepsKeyClass<T>(x: T, s: seq<T>, key: T -> int, v: int)
    requires SortedBy(s, key)
    ensures Filter(Insert(x, s, key), KeyIs(key, v))
         == (if key(x) == v then [x] else []) + Filter(s, KeyIs(key, v))
  {
    var keep := KeyIs(key, v);
    var fromX := if key(x) == v then [x] else [];
    FilterSingleton(x, keep);
    if s == [] || key(x) <= key(s[0]) {
      FilterAppend([x], s, keep);
    } else {
      var head, tail := s[0], s[1..];
      assert [head] + tail == s;
      var rest := Insert(x, tail, key);
      assert Insert(x, s, key) == [head] + rest;
      InsertKeepsKeyClass(x, tail, key, v);
      FilterAppend([head], rest, keep);
      FilterAppend([head], tail, keep);
      FilterSingleton(head, keep);
      var fromHead := Filter([head], keep);
      assert fromHead == [] || fromX == [];
      SwapPastEmpty(fromHead, fromX, Filter(tail, keep));
    }
  }

  /** Two pieces of which one is empty can be put in either order in front of a third. */
  lemma SwapPastEmpty<T>(a: seq<T>, b: seq<T>, c: seq<T>)
    requires a == [] || b == []
    ensures a + (b + c) == b + (a + c)
  {
    if a == [] {
      assert a + (b + c) == b + c == b + (a + c);
    } else {
      assert a + (b + c) == a + c == b + (a + c);
    }
  }

  /** Stability: the elements sharing any one key come out in the order they went in. */
  lemma {:induction false} SortByStable<T>(s: seq<T>, key: T -> int, v: int)
    ensures Filter(SortBy(s, key), KeyIs(key, v)) == Filter(s, KeyIs(key, v))
  {
    if s != [] {
      SortByStable(s[1..], key, v);
      InsertKeepsKeyClass(s[0], SortBy(s[1..], key), key, v);
      FilterAppend([s[0]], s[1..], KeyIs(key, v));
      assert [s[0]] + s[1..] == s;
    }
  }

  /** Stability for every key value at once. */
  lemma SortByStableAll<T>(s: seq<T>, key: T -> int)
    ensures forall v :: Filter(SortBy(s, key), KeyIs(key, v)) == Filter(s, KeyIs(key, v))
  {
    forall v ensures Filter(SortBy(s, key), KeyIs(key, v)) == Filter(s, KeyIs(key, v)) {
      SortByStable(s, key, v);
    }
  }

  /** Every element of the sorted sequence comes from the input. */
  lemma SortByElements<T>(s: seq<T>, key: T -> int)
    ensures forall i :: 0 <= i < |SortBy(s, key)| ==> SortBy(s, key)[i] in s
  {
    var r := SortBy(s, key);
    forall i | 0 <= i < |r| ensures r[i] in s {
      assert r[i] in multiset(s);
    }
  }

  /** Keeping a subsequence keeps the order. */
  lemma {:induction false} SubsequenceOfSorted<T>(sub: seq<T>, s: seq<T>, key: T -> int)
    requires IsSubsequence(sub, s)
    requires SortedBy(s, key)
    ensures SortedBy(sub, key)
    decreases |s|
  {
    if sub != [] && s != [] {
      if sub[0] == s[0] {
        SubsequenceOfSorted(sub[1..], s[1..], key);
        SubsequenceElements(sub[1..], s[1..]);
        forall j | 0 < j < |sub|
          ensures key(sub[0]) <= key(sub[j])
        {
          assert sub[1..][j - 1] == sub[j];
        }
      } else {
        SubsequenceOfSorted(sub, s[1..], key);
      }
    }
  }

  lemma {:induction false} SubsequenceElements<T>(sub: seq<T>, s: seq<T>)
    requires IsSubsequence(sub, s)
    ensures forall j :: 0 <= j < |sub| ==> sub[j] in s
    decreases |s|
  {
    if sub != [] && s != [] {
      if sub[0] == s[0] {
        SubsequenceElements(sub[1..], s[1..]);
        forall j | 0 < j < |sub|
          ensures sub[j] in s
        {
          assert sub[1..][j - 1] == sub[j];
        }
      } else {
        SubsequenceElements(sub, s[1..]);
      }
    }
  }

  /** A value that occurs twice in a sequence's multiset sits at two different positions. */
  lemma TwiceAtTwoPositions<T>(s: seq<T>, x: T)
    requires multiset(s)[x] >= 2
    ensures exists p, q :: 0 <= p < q < |s| && s[p] == x && s[q] == x
  {
    var p :| 0 <= p < |s| && s[p] == x;
    assert s == s[..p] + [s[p]] + s[p + 1..];
    assert multiset(s) == multiset(s[..p]) + multiset{x} + multiset(s[p + 1..]);
    if x in s[..p] {
      var i :| 0 <= i < p && s[..p][i] == x;
      assert s[i] == x;
    } else {
      assert x in multiset(s[p + 1..]);
      var j :| 0 <= j < |s[p + 1..]| && s[p + 1..][j] == x;
      assert s[p + 1 + j] == x;
    }
  }

  /** Reordering a sequence whose elements carry distinct keys keeps the keys distinct. */
  lemma DistinctKeysOfPermutation<T, K>(a: seq<T>, b: seq<T>, key: T -> K)
    requires multiset(a) == multiset(b)
    requires forall p, q :: 0 <= p < q < |b| ==> key(b[p]) != key(b[q])
    ensures forall i, j :: 0 <= i < j < |a| ==> key(a[i]) != key(a[j])
  {
    forall i, j | 0 <= i < j < |a| ensures key(a[i]) != key(a[j]) {
      if a[i] == a[j] {
        assert a == a[..j] + a[j..];
        assert a[i] in multiset(a[..j]) by { assert a[..j][i] == a[i]; }
        assert a[j] in multiset(a[j..]) by { assert a[j..][0] == a[j]; }
        assert multiset(a) == multiset(a[..j]) + multiset(a[j..]);
        TwiceAtTwoPositions(b, a[i]);
      } else {
        assert a[i] in multiset(b) && a[j] in multiset(b);
        var p :| 0 <= p < |b| && b[p] == a[i];
        var q :| 0 <= q < |b| && b[q] == a[j];
      }
    }
  }
}

=== FILE: store.dfy ===
/** The `store` object of `src/db.js`: reads and writes over the immutable `Db` value.
    `Date.now()` is the `now` parameter and `crypto.randomUUID()` the `freshId` parameter. */
module Store {
  import opened Wrappers
  import opened Seqs
  import opened Sorting
  import opened Tables
  import opened Links
  import opened Localization
  import opened StoreSchema

  /** A create payload's field set; `None` is a field the caller left out. Update payloads use
      the same shape and ignore `id` and `createdAt`. In an update the texts, position, paths
      and year are merged with `??`, so a null there keeps the stored value as an omitted field
      does; `is_active` and `home` are tested with `=== undefined`, where a null would be
      written as 0. The routes hand those two flags over only as booleans or not at all, so
      they are `Option<bool>` here. */
  datatype CategoryInput = CategoryInput(
    id: Option<Id>,
    titleEn: Option<string>, titleTr: Option<string>,
    descriptionEn: Option<string>, descriptionTr: Option<string>,
    position: Option<int>,
    isActive: Option<bool>)

  datatype ImageInput = ImageInput(
    id: Option<Id>,
    titleEn: Option<string>, titleTr: Option<string>,
    altEn: Option<string>, altTr: Option<string>,
    home: Option<bool>,
    position: Option<int>,
    imagePath: Option<string>,
    createdAt: Option<int>,
    categoryIds: Option<seq<Id>>,
    referenceIds: Option<seq<Id>>)

  datatype ReferenceInput = ReferenceInput(
    id: Option<Id>,
    titleEn: Option<string>, titleTr: Option<string>,
    descriptionEn: Option<string>, descriptionTr: Option<string>,
    year: Option<string>,
    logoLightPath: Option<string>, logoDarkPath: Option<string>,
    imageIds: Option<seq<Id>>)

  /** A create either commits, returning the new database and the entity read back, or fails on
      the primary key (an id already in the table) and leaves the database as it was. */
  datatype Created<T> = Created(db: Db, value: T) | Rejected(duplicate: Id)

  /** An update returns the new database and the entity read back, or `None` (and the
      unchanged database) when no row carries the id. */
  datatype Updated<T> = Updated(db: Db, value: Option<T>)

  /** `data.id || crypto.randomUUID()`. */
  function ChosenId(supplied: Option<Id>, freshId: Id): (id: Id)
    ensures supplied.Some? && supplied.value != "" ==> id == supplied.value
    ensures supplied.None? || supplied.value == "" ==> id == freshId
  {
    if supplied.Some? && supplied.value != "" then supplied.value else freshId
  }

  /** `value ? 1 : 0` on an optional flag: only an explicit true stores 1. */
  function Flag(value: Option<bool>): (r: int)
    ensures r == 1 <==> value == Some(true)
    ensures r == 0 || r == 1
  {
    if value == Some(true) then 1 else 0
  }

  function Bit(b: bool): (r: int)
    ensures Truthy(Some(r)) == b
  {
    if b then 1 else 0
  }

  // ---------------------------------------------------------------- about and logo

  /** `updateAbout({en, tr})`: both languages are written; one left out is cleared. */
  function UpdateAbout(db: Db, en: Option<string>, tr: Option<string>, now: int): (r: Db)
    ensures r.about.contentEn == en.GetOr("") && r.about.contentTr == tr.GetOr("")
    ensures en.None? ==> r.about.contentEn == ""
    ensures tr.None? ==> r.about.contentTr == ""
    ensures r.about.updatedAt == now
    ensures r == db.(about := r.about)
  {
    db.(about := AboutRow(en.GetOr(""), tr.GetOr(""), now))
  }

  /** `updateLogo({imgPath, alt_en, alt_tr})`: every column is written; an absent path or text
      is stored as ''. */
  function UpdateLogo(db: Db, imgPath: Option<string>, altEn: Option<string>, altTr: Option<string>, now: int): (r: Db)
    ensures r.logo.imgPath == imgPath.GetOr("")
    ensures r.logo.altEn == altEn.GetOr("") && r.logo.altTr == altTr.GetOr("")
    ensures r.logo.updatedAt == now
    ensures r == db.(logo := r.logo)
  {
    db.(logo := LogoRow(imgPath.GetOr(""), altEn.GetOr(""), altTr.GetOr(""), now))
  }

  // ---------------------------------------------------------------- categories

  /** `getCategory(id)`. */
  function GetCategory(db: Db, id: Id): (r: Option<Category>)
    ensures r.Some? <==> HasKey(db.categories, CategoryKey, id)
    ensures r.Some? ==> r.value.id == id
  {
    match Find(db.categories, CategoryKey, id)
    case None => None
    case Some(row) => Some(RowToCategory(row))
  }

  /** `listCategories()`: every row, in table order. */
  function ListCategories(db: Db): (r: seq<Category>)
    ensures |r| == |db.categories|
    ensures forall i :: 0 <= i < |r| ==> r[i].id == db.categories[i].id
    ensures Valid(db) ==> forall i :: 0 <= i < |r| ==> GetCategory(db, r[i].id) == Some(r[i])
    ensures forall id :: GetCategory(db, id).Some? ==> GetCategory(db, id).value in r
  {
    var rows := db.categories;
    var r := seq(|rows|, i requires 0 <= i < |rows| => RowToCategory(rows[i]));
    assert Valid(db) ==> forall i :: 0 <= i < |r| ==> GetCategory(db, r[i].id) == Some(r[i]) by {
      if Valid(db) {
        forall i | 0 <= i < |r| ensures GetCategory(db, r[i].id) == Some(r[i]) {
          FindUnique(rows, CategoryKey, i);
        }
      }
    }
    assert forall id :: GetCategory(db, id).Some? ==> GetCategory(db, id).value in r by {
      forall id | GetCategory(db, id).Some? ensures GetCategory(db, id).value in r {
        var row := Find(rows, CategoryKey, id).value;
        var i :| 0 <= i < |rows| && rows[i] == row;
        assert r[i] == GetCategory(db, id).value;
      }
    }
    r
  }

  /** `createCategory(data)`: absent texts become '', an absent position 0, and the category is
      active only when `is_active` is truthy. */
  function CreateCategory(db: Db, data: CategoryInput, freshId: Id): (r: Created<Category>)
    ensures r.Rejected? <==> HasKey(db.categories, CategoryKey, ChosenId(data.id, freshId))
    ensures r.Rejected? ==> r.duplicate == ChosenId(data.id, freshId)
    ensures r.Created? ==>
              && r.value.id == ChosenId(data.id, freshId)
              && GetCategory(r.db, r.value.id) == Some(r.value)
              && r.value.title == Bundle(data.titleEn.GetOr(""), data.titleTr.GetOr(""))
              && r.value.description == Bundle(data.descriptionEn.GetOr(""), data.descriptionTr.GetOr(""))
              && r.value.position == data.position.GetOr(0)
              && (r.value.isActive <==> data.isActive == Some(true))
    ensures r.Created? ==> forall x :: x != r.value.id ==> GetCategory(r.db, x) == GetCategory(db, x)
    ensures r.Created? ==> r.db == db.(categories := r.db.categories)
    ensures r.Created? && Valid(db) ==> Valid(r.db)
  {
    var id := ChosenId(data.id, freshId);
    if HasKey(db.categories, CategoryKey, id) then Rejected(id)
    else
      var row := CategoryRow(
        id,
        Some(data.titleEn.GetOr("")), Some(data.titleTr.GetOr("")),
        Some(data.descriptionEn.GetOr("")), Some(data.descriptionTr.GetOr("")),
        Some(data.position.GetOr(0)),
        Some(Flag(data.isActive)));
      var db' := db.(categories := db.categories + [row]);
      assert forall x :: GetCategory(db', x) == if x == id then Some(RowToCategory(row)) else GetCategory(db, x) by {
        forall x ensures GetCategory(db', x) == if x == id then Some(RowToCategory(row)) else GetCategory(db, x) {
          FindAfterInsert(db.categories, CategoryKey, row, x);
        }
      }
      assert Valid(db) ==> Valid(db') by {
        if Valid(db) {
          UniqueAfterInsert(db.categories, CategoryKey, row);
        }
      }
      Created(db', RowToCategory(row))
  }

  /** `updateCategory(id, data)`: each supplied field (including '', 0 and false) replaces the
      stored one, each absent field keeps it; an unknown id changes nothing. A kept active flag
      is written back as 1 or 0, as `updateImage` does for `home`; `UpdateCategoryAsWritten`
      shows the code binding the boolean itself. */
  function UpdateCategory(db: Db, id: Id, data: CategoryInput): (r: Updated<Category>)
    ensures r.value.None? <==> GetCategory(db, id).None?
    ensures r.value.None? ==> r.db == db
    ensures r.value.Some? ==>
              var before := GetCategory(db, id).value;
              && GetCategory(r.db, id) == r.value
              && r.value.value.id == id
              && r.value.value.title == Bundle(data.titleEn.GetOr(before.title.en), data.titleTr.GetOr(before.title.tr))
              && r.value.value.description
                   == Bundle(data.descriptionEn.GetOr(before.description.en), data.descriptionTr.GetOr(before.description.tr))
              && r.value.value.position == data.position.GetOr(before.position)
              && r.value.value.isActive == data.isActive.GetOr(before.isActive)
    ensures forall x :: x != id ==> GetCategory(r.db, x) == GetCategory(db, x)
    ensures r.db == db.(categories := r.db.categories)
    ensures Valid(db) ==> Valid(r.db)
  {
    match GetCategory(db, id)
    case None => Updated(db, None)
    case Some(existing) =>
      var row := CategoryRow(
        id,
        Some(data.titleEn.GetOr(existing.title.en)), Some(data.titleTr.GetOr(existing.title.tr)),
        Some(data.descriptionEn.GetOr(existing.description.en)),
        Some(data.descriptionTr.GetOr(existing.description.tr)),
        Some(data.position.GetOr(existing.position)),
        Some(Bit(data.isActive.GetOr(existing.isActive))));
      var db' := db.(categories := UpdateRow(db.categories, CategoryKey, id, row));
      assert forall x :: GetCategory(db', x) == if x == id then Some(RowToCategory(row)) else GetCategory(db, x) by {
        forall x ensures GetCategory(db', x) == if x == id then Some(RowToCategory(row)) else GetCategory(db, x) {
          FindAfterUpdate(db.categories, CategoryKey, id, row, x);
        }
      }
      assert Valid(db) ==> Valid(db') by {
        if Valid(db) {
          UniqueAfterUpdate(db.categories, CategoryKey, id, row);
        }
      }
      Updated(db', Some(RowToCategory(row)))
  }

  /** The value `updateCategory` as written hands to SQLite for `is_active`: the number
      `data.is_active ? 1 : 0` when the update carries the flag, otherwise `existing.is_active`
      itself, which `rowToCategory` has made a JavaScript boolean. */
  datatype IsActiveBinding = BindsNumber(n: int) | BindsBoolean(b: bool)

  function IsActiveBindingAsWritten(data: CategoryInput, existing: Category): (r: IsActiveBinding)
    ensures r.BindsBoolean? <==> data.isActive.None?
    ensures r.BindsBoolean? ==> r.b == existing.isActive
    ensures r.BindsNumber? ==> (r.n == 0 || r.n == 1) && Truthy(Some(r.n)) == data.isActive.value
  {
    if data.isActive.None? then BindsBoolean(existing.isActive) else BindsNumber(Bit(data.isActive.value))
  }

  /** The outcome of a store write whose statement parameters better-sqlite3 may refuse: it binds
      numbers, strings, bigints, buffers and null only, and throws on any other value before
      the statement runs. */
  datatype WriteOutcome<T> = Written(result: Updated<T>) | BindFailed

  /** `updateCategory` as written: on a stored id, an update that leaves `is_active` out binds a
      boolean and throws, writing nothing; everything else behaves as `UpdateCategory`. */
  function UpdateCategoryAsWritten(db: Db, id: Id, data: CategoryInput): (r: WriteOutcome<Category>)
    ensures r.BindFailed? <==> GetCategory(db, id).Some? && data.isActive.None?
    ensures r.Written? ==> (r.result.value.None? <==> GetCategory(db, id).None?)
    ensures r.Written? && r.result.value.Some? ==>
              r.result.value.value.isActive == data.isActive.value
    ensures r.Written? ==> r.result == UpdateCategory(db, id, data)
  {
    match GetCategory(db, id)
    case None => Written(Updated(db, None))
    case Some(existing) =>
      match IsActiveBindingAsWritten(data, existing)
      case BindsBoolean(_) => BindFailed
      case BindsNumber(_) => Written(UpdateCategory(db, id, data))
  }

  /** `deleteCategory(id)`: its links go first, then the row; images stay. */
  function DeleteCategory(db: Db, id: Id): (r: Db)
    ensures GetCategory(r, id).None?
    ensures forall x :: x != id ==> GetCategory(r, x) == GetCategory(db, x)
    ensures forall l :: l in r.imageCategories <==> l in db.imageCategories && l.right != id
    ensures r == db.(categories := r.categories, imageCategories := r.imageCategories)
    ensures Valid(db) ==> Valid(r)
  {
    var r := db.(imageCategories := WithoutRight(db.imageCategories, id),
                 categories := DeleteRow(db.categories, CategoryKey, id));
    assert forall x :: GetCategory(r, x) == if x == id then None else GetCategory(db, x) by {
      forall x ensures GetCategory(r, x) == if x == id then None else GetCategory(db, x) {
        FindAfterDelete(db.categories, CategoryKey, id, x);
      }
    }
    assert Valid(db) ==> Valid(r) by {
      if Valid(db) {
        UniqueAfterDelete(db.categories, CategoryKey, id);
      }
    }
    r
  }

  // ---------------------------------------------------------------- images

  /** The `ORDER BY created_at DESC` sort key: smaller keys first means newer first. */
  function NewestFirst(row: ImageRow): int
  {
    -row.createdAt
  }

  /** The image a stored row reads back as, with its links from both link tables. */
  function ImageOf(db: Db, row: ImageRow, now: int): (img: Image)
    ensures img.id == row.id
    ensures forall c :: c in img.categoryIds <==> Link(row.id, c) in db.imageCategories
    ensures forall x :: x in img.referenceIds <==> Link(x, row.id) in db.referenceImages
  {
    RowToImage(row, RightsOf(db.imageCategories, row.id), LeftsOf(db.referenceImages, row.id), now)
  }

  /** `getImage(id)`. */
  function GetImage(db: Db, id: Id, now: int): (r: Option<Image>)
    ensures r.Some? <==> HasKey(db.images, ImageKey, id)
    ensures r.Some? ==> r.value.id == id
    ensures r.Some? ==> r.value.categoryIds == RightsOf(db.imageCategories, id)
    ensures r.Some? ==> r.value.referenceIds == LeftsOf(db.referenceImages, id)
  {
    match Find(db.images, ImageKey, id)
    case None => None
    case Some(row) => Some(ImageOf(db, row, now))
  }

  /** The rows of `listImages()`, in `ORDER BY created_at DESC` order. SQLite does not fix
      the order of rows with the same timestamp; this model takes their table order, one
      order SQLite may return. */
  function ListImageRows(db: Db): (rows: seq<ImageRow>)
    ensures |rows| == |db.images|
    ensures multiset(rows) == multiset(db.images)
    ensures forall i, j :: 0 <= i < j < |rows| ==> rows[i].createdAt >= rows[j].createdAt
    ensures forall v :: Filter(rows, KeyIs(NewestFirst, v)) == Filter(db.images, KeyIs(NewestFirst, v))
  {
    var rows := SortBy(db.images, NewestFirst);
    assert forall i, j :: 0 <= i < j < |rows| ==> NewestFirst(rows[i]) <= NewestFirst(rows[j]);
    SortByStableAll(db.images, NewestFirst);
    rows
  }

  /** `listImages()`: every image, newest first. */
  function ListImages(db: Db, now: int): (r: seq<Image>)
    ensures |r| == |db.images|
    ensures forall i :: 0 <= i < |r| ==> r[i] == ImageOf(db, ListImageRows(db)[i], now)
  {
    var rows := ListImageRows(db);
    seq(|rows|, i requires 0 <= i < |rows| => ImageOf(db, rows[i], now))
  }

  /** An image write that leaves another image's row and both of its link readings alone leaves
      what `getImage` returns for it alone. */
  lemma ImageWriteFrame(db: Db, db': Db, id: Id, now: int)
    requires forall x :: x != id ==> Find(db'.images, ImageKey, x) == Find(db.images, ImageKey, x)
    requires forall x :: x != id ==> RightsOf(db'.imageCategories, x) == RightsOf(db.imageCategories, x)
    requires forall x :: x != id ==> LeftsOf(db'.referenceImages, x) == LeftsOf(db.referenceImages, x)
    ensures forall x :: x != id ==> GetImage(db', x, now) == GetImage(db, x, now)
  {
  }

  /** Inserting an image row and replacing its links changes nothing any other image reads. */
  lemma InsertImageFrame(db: Db, row: ImageRow, cats: seq<Id>, refs: seq<Id>, now: int)
    requires !HasKey(db.images, ImageKey, row.id)
    ensures var db' := db.(images := db.images + [row],
                           imageCategories := ReplaceRights(db.imageCategories, row.id, cats),
                           referenceImages := ReplaceLefts(db.referenceImages, row.id, refs));
            && (forall x :: RightsOf(db'.imageCategories, x) == if x == row.id then cats else RightsOf(db.imageCategories, x))
            && (forall x :: x != row.id ==> LeftsOf(db'.referenceImages, x) == LeftsOf(db.referenceImages, x))
            && (forall x :: x != row.id ==> GetImage(db', x, now) == GetImage(db, x, now))
  {
    var id := row.id;
    var db' := db.(images := db.images + [row],
                   imageCategories := ReplaceRights(db.imageCategories, id, cats),
                   referenceImages := ReplaceLefts(db.referenceImages, id, refs));
    forall x ensures Find(db'.images, ImageKey, x) == if x == id then Some(row) else Find(db.images, ImageKey, x) {
      FindAfterInsert(db.images, ImageKey, row, x);
    }
    forall x ensures RightsOf(db'.imageCategories, x) == if x == id then cats else RightsOf(db.imageCategories, x) {
      RightsOfReplaceRights(db.imageCategories, id, cats, x);
    }
    forall x ensures LeftsOf(db'.referenceImages, x) == if x == id then refs else LeftsOf(db.referenceImages, x) {
      LeftsOfReplaceLefts(db.referenceImages, id, refs, x);
    }
    ImageWriteFrame(db, db', id, now);
  }

  /** `createImage(data)`: the row is inserted with '' / 0 / false defaults and `createdAt`
      defaulting to `now`, then the image's links in both link tables are replaced by the
      supplied lists (absent lists clear them). */
  function CreateImage(db: Db, data: ImageInput, freshId: Id, now: int): (r: Created<Image>)
    ensures r.Rejected? <==> HasKey(db.images, ImageKey, ChosenId(data.id, freshId))
    ensures r.Rejected? ==> r.duplicate == ChosenId(data.id, freshId)
    ensures r.Created? ==>
              && r.value.id == ChosenId(data.id, freshId)
              && GetImage(r.db, r.value.id, now) == Some(r.value)
              && r.value.title == Bundle(data.titleEn.GetOr(""), data.titleTr.GetOr(""))
              && r.value.alt == Bundle(data.altEn.GetOr(""), data.altTr.GetOr(""))
              && (r.value.home <==> data.home == Some(true))
              && r.value.position == data.position.GetOr(0)
              && r.value.imagePath == data.imagePath.GetOr("")
              && r.value.categoryIds == data.categoryIds.GetOr([])
              && r.value.referenceIds == data.referenceIds.GetOr([])
    ensures r.Created? && data.createdAt.None? ==> r.value.createdAt == now
    ensures r.Created? && data.createdAt.Some? && data.createdAt.value != 0 ==> r.value.createdAt == data.createdAt.value
    ensures r.Created? ==>
              forall x :: x != r.value.id ==> RightsOf(r.db.imageCategories, x) == RightsOf(db.imageCategories, x)
    ensures r.Created? ==>
              forall x :: x != r.value.id ==> LeftsOf(r.db.referenceImages, x) == LeftsOf(db.referenceImages, x)
    ensures r.Created? ==>
              forall x :: x != r.value.id ==> GetImage(r.db, x, now) == GetImage(db, x, now)
    ensures r.Created? ==>
              r.db == db.(images := r.db.images, imageCategories := r.db.imageCategories,
                          referenceImages := r.db.referenceImages)
    ensures r.Created? && Valid(db) ==> Valid(r.db)
  {
    var id := ChosenId(data.id, freshId);
    if HasKey(db.images, ImageKey, id) then Rejected(id)
    else
      var row := ImageRow(
        id,
        Some(data.titleEn.GetOr("")), Some(data.titleTr.GetOr("")),
        Some(data.altEn.GetOr("")), Some(data.altTr.GetOr("")),
        Some(Flag(data.home)),
        Some(data.position.GetOr(0)),
        Some(data.imagePath.GetOr("")),
        data.createdAt.GetOr(now));
      var cats := data.categoryIds.GetOr([]);
      var refs := data.referenceIds.GetOr([]);
      var db' := db.(images := db.images + [row],
                     imageCategories := ReplaceRights(db.imageCategories, id, cats),
                     referenceImages := ReplaceLefts(db.referenceImages, id, refs));
      FindAfterInsert(db.images, ImageKey, row, id);
      LeftsOfReplaceLefts(db.referenceImages, id, refs, id);
      InsertImageFrame(db, row, cats, refs, now);
      assert Valid(db) ==> Valid(db') by {
        if Valid(db) {
          UniqueAfterInsert(db.images, ImageKey, row);
        }
      }
      Created(db', ImageOf(db', row, now))
  }

  /** `updateImage(id, data)`: supplied fields replace, absent ones keep; `createdAt` is never
      written; a supplied link list (even an empty one) replaces the image's links in that table,
      an absent one leaves them. An unknown id changes nothing. */
  function UpdateImage(db: Db, id: Id, data: ImageInput, now: int): (r: Updated<Image>)
    ensures r.value.None? <==> GetImage(db, id, now).None?
    ensures r.value.None? ==> r.db == db
    ensures r.value.Some? ==>
              var before := GetImage(db, id, now).value;
              && GetImage(r.db, id, now) == r.value
              && r.value.value.id == id
              && r.value.value.title == Bundle(data.titleEn.GetOr(before.title.en), data.titleTr.GetOr(before.title.tr))
              && r.value.value.alt == Bundle(data.altEn.GetOr(before.alt.en), data.altTr.GetOr(before.alt.tr))
              && r.value.value.home == data.home.GetOr(before.home)
              && r.value.value.position == data.position.GetOr(before.position)
              && r.value.value.imagePath == data.imagePath.GetOr(before.imagePath)
              && r.value.value.createdAt == before.createdAt
              && r.value.value.categoryIds == data.categoryIds.GetOr(before.categoryIds)
              && r.value.value.referenceIds == data.referenceIds.GetOr(before.referenceIds)
    ensures r.value.Some? ==>
              Find(r.db.images, ImageKey, id).value.createdAt == Find(db.images, ImageKey, id).value.createdAt
    ensures forall x :: x != id ==> Find(r.db.images, ImageKey, x) == Find(db.images, ImageKey, x)
    ensures forall x :: x != id ==> RightsOf(r.db.imageCategories, x) == RightsOf(db.imageCategories, x)
    ensures forall x :: x != id ==> LeftsOf(r.db.referenceImages, x) == LeftsOf(db.referenceImages, x)
    ensures forall x :: x != id ==> GetImage(r.db, x, now) == GetImage(db, x, now)
    ensures r.db == db.(images := r.db.images, imageCategories := r.db.imageCategories,
                        referenceImages := r.db.referenceImages)
    ensures Valid(db) ==> Valid(r.db)
  {
    match Find(db.images, ImageKey, id)
    case None => Updated(db, None)
    case Some(stored) =>
      var existing := ImageOf(db, stored, now);
      var row := stored.(
        titleEn := Some(data.titleEn.GetOr(existing.title.en)),
        titleTr := Some(data.titleTr.GetOr(existing.title.tr)),
        altEn := Some(data.altEn.GetOr(existing.alt.en)),
        altTr := Some(data.altTr.GetOr(existing.alt.tr)),
        home := Some(Bit(data.home.GetOr(existing.home))),
        position := Some(data.position.GetOr(existing.position)),
        imagePath := Some(data.imagePath.GetOr(existing.imagePath)));
      var db' := db.(images := UpdateRow(db.images, ImageKey, id, row),
                     imageCategories := MaybeReplaceRights(db.imageCategories, id, data.categoryIds),
                     referenceImages := MaybeReplaceLefts(db.referenceImages, id, data.referenceIds));
      assert forall x :: Find(db'.images, ImageKey, x) == if x == id then Some(row) else Find(db.images, ImageKey, x) by {
        forall x ensures Find(db'.images, ImageKey, x) == if x == id then Some(row) else Find(db.images, ImageKey, x) {
          FindAfterUpdate(db.images, ImageKey, id, row, x);
        }
      }
      ImageWriteFrame(db, db', id, now);
      assert Valid(db) ==> Valid(db') by {
        if Valid(db) {
          UniqueAfterUpdate(db.images, ImageKey, id, row);
        }
      }
      Updated(db', Some(ImageOf(db', row, now)))
  }

  /** `deleteImage(id)`: its links in both link tables go first, then the row. */
  function DeleteImage(db: Db, id: Id): (r: Db)
    ensures !HasKey(r.images, ImageKey, id)
    ensures forall x :: x != id ==> Find(r.images, ImageKey, x) == Find(db.images, ImageKey, x)
    ensures forall l :: l in r.imageCategories <==> l in db.imageCategories && l.left != id
    ensures forall l :: l in r.referenceImages <==> l in db.referenceImages && l.right != id
    ensures r == db.(images := r.images, imageCategories := r.imageCategories, referenceImages := r.referenceImages)
    ensures Valid(db) ==> Valid(r)
  {
    var r := db.(referenceImages := WithoutRight(db.referenceImages, id),
                 imageCategories := WithoutLeft(db.imageCategories, id),
                 images := DeleteRow(db.images, ImageKey, id));
    assert forall x :: x != id ==> Find(r.images, ImageKey, x) == Find(db.images, ImageKey, x) by {
      forall x | x != id ensures Find(r.images, ImageKey, x) == Find(db.images, ImageKey, x) {
        FindAfterDelete(db.images, ImageKey, id, x);
      }
    }
    assert Valid(db) ==> Valid(r) by {
      if Valid(db) {
        UniqueAfterDelete(db.images, ImageKey, id);
      }
    }
    r
  }

  // ---------------------------------------------------------------- references

  /** The reference a stored row reads back as, with its images in link-table order. */
  function ReferenceOf(db: Db, row: ReferenceRow): (ref: Reference)
    ensures ref.id == row.id
    ensures forall x :: x in ref.imageIds <==> Link(row.id, x) in db.referenceImages
  {
    RowToReference(row, RightsOf(db.referenceImages, row.id))
  }

  /** `getReference(id)`. */
  function GetReference(db: Db, id: Id): (r: Option<Reference>)
    ensures r.Some? <==> HasKey(db.references, ReferenceKey, id)
    ensures r.Some? ==> r.value.id == id
    ensures r.Some? ==> r.value.imageIds == RightsOf(db.referenceImages, id)
  {
    match Find(db.references, ReferenceKey, id)
    case None => None
    case Some(row) => Some(ReferenceOf(db, row))
  }

  /** `listReferences()`: every row, in table order. */
  function ListReferences(db: Db): (r: seq<Reference>)
    ensures |r| == |db.references|
    ensures forall i :: 0 <= i < |r| ==> r[i].id == db.references[i].id
    ensures Valid(db) ==> forall i :: 0 <= i < |r| ==> GetReference(db, r[i].id) == Some(r[i])
    ensures forall id :: GetReference(db, id).Some? ==> GetReference(db, id).value in r
  {
    var rows := db.references;
    var r := seq(|rows|, i requires 0 <= i < |rows| => ReferenceOf(db, rows[i]));
    assert Valid(db) ==> forall i :: 0 <= i < |r| ==> GetReference(db, r[i].id) == Some(r[i]) by {
      if Valid(db) {
        forall i | 0 <= i < |r| ensures GetReference(db, r[i].id) == Some(r[i]) {
          FindUnique(rows, ReferenceKey, i);
        }
      }
    }
    assert forall id :: GetReference(db, id).Some? ==> GetReference(db, id).value in r by {
      forall id | GetReference(db, id).Some? ensures GetReference(db, id).value in r {
        var row := Find(rows, ReferenceKey, id).value;
        var i :| 0 <= i < |rows| && rows[i] == row;
        assert r[i] == GetReference(db, id).value;
      }
    }
    r
  }

  /** `createReference(data)`: absent texts become '', and the reference's image links are
      replaced by the supplied list (absent clears them). */
  function CreateReference(db: Db, data: ReferenceInput, freshId: Id): (r: Created<Reference>)
    ensures r.Rejected? <==> HasKey(db.references, ReferenceKey, ChosenId(data.id, freshId))
    ensures r.Rejected? ==> r.duplicate == ChosenId(data.id, freshId)
    ensures r.Created? ==>
              && r.value.id == ChosenId(data.id, freshId)
              && GetReference(r.db, r.value.id) == Some(r.value)
              && r.value.title == Bundle(data.titleEn.GetOr(""), data.titleTr.GetOr(""))
              && r.value.description == Bundle(data.descriptionEn.GetOr(""), data.descriptionTr.GetOr(""))
              && r.value.year == data.year.GetOr("")
              && r.value.logoLightPath == data.logoLightPath.GetOr("")
              && r.value.logoDarkPath == data.logoDarkPath.GetOr("")
              && r.value.imageIds == data.imageIds.GetOr([])
    ensures r.Created? ==>
              forall x :: x != r.value.id ==> RightsOf(r.db.referenceImages, x) == RightsOf(db.referenceImages, x)
    ensures r.Created? ==> r.db == db.(references := r.db.references, referenceImages := r.db.referenceImages)
    ensures r.Created? && Valid(db) ==> Valid(r.db)
  {
    var id := ChosenId(data.id, freshId);
    if HasKey(db.references, ReferenceKey, id) then Rejected(id)
    else
      var row := ReferenceRow(
        id,
        Some(data.titleEn.GetOr("")), Some(data.titleTr.GetOr("")),
        Some(data.descriptionEn.GetOr("")), Some(data.descriptionTr.GetOr("")),
        Some(data.year.GetOr("")),
        Some(data.logoLightPath.GetOr("")), Some(data.logoDarkPath.GetOr("")));
      var imgs := data.imageIds.GetOr([]);
      var db' := db.(references := db.references + [row],
                     referenceImages := ReplaceRights(db.referenceImages, id, imgs));
      FindAfterInsert(db.references, ReferenceKey, row, id);
      assert forall x :: RightsOf(db'.referenceImages, x) == if x == id then imgs else RightsOf(db.referenceImages, x) by {
        forall x ensures RightsOf(db'.referenceImages, x) == if x == id then imgs else RightsOf(db.referenceImages, x) {
          RightsOfReplaceRights(db.referenceImages, id, imgs, x);
        }
      }
      assert Valid(db) ==> Valid(db') by {
        if Valid(db) {
          UniqueAfterInsert(db.references, ReferenceKey, row);
        }
      }
      Created(db', ReferenceOf(db', row))
  }

  /** `updateReference(id, data)`: supplied fields replace, absent ones keep; a supplied image
      list (even an empty one) replaces the links, an absent one leaves them. */
  function UpdateReference(db: Db, id: Id, data: ReferenceInput): (r: Updated<Reference>)
    ensures r.value.None? <==> GetReference(db, id).None?
    ensures r.value.None? ==> r.db == db
    ensures r.value.Some? ==>
              var before := GetReference(db, id).value;
              && GetReference(r.db, id) == r.value
              && r.value.value.id == id
              && r.value.value.title == Bundle(data.titleEn.GetOr(before.title.en), data.titleTr.GetOr(before.title.tr))
              && r.value.value.description
                   == Bundle(data.descriptionEn.GetOr(before.description.en), data.descriptionTr.GetOr(before.description.tr))
              && r.value.value.year == data.year.GetOr(before.year)
              && r.value.value.logoLightPath == data.logoLightPath.GetOr(before.logoLightPath)
              && r.value.value.logoDarkPath == data.logoDarkPath.GetOr(before.logoDarkPath)
              && r.value.value.imageIds == data.imageIds.GetOr(before.imageIds)
    ensures forall x :: x != id ==> GetReference(r.db, x) == GetReference(db, x)
    ensures r.db == db.(references := r.db.references, referenceImages := r.db.referenceImages)
    ensures Valid(db) ==> Valid(r.db)
  {
    match GetReference(db, id)
    case None => Updated(db, None)
    case Some(existing) =>
      var row := ReferenceRow(
        id,
        Some(data.titleEn.GetOr(existing.title.en)), Some(data.titleTr.GetOr(existing.title.tr)),
        Some(data.descriptionEn.GetOr(existing.description.en)),
        Some(data.descriptionTr.GetOr(existing.description.tr)),
        Some(data.year.GetOr(existing.year)),
        Some(data.logoLightPath.GetOr(existing.logoLightPath)),
        Some(data.logoDarkPath.GetOr(existing.logoDarkPath)));
      var links := MaybeReplaceRights(db.referenceImages, id, data.imageIds);
      var db' := db.(references := UpdateRow(db.references, ReferenceKey, id, row), referenceImages := links);
      assert forall x :: GetReference(db', x) == if x == id then Some(ReferenceOf(db', row)) else GetReference(db, x) by {
        forall x ensures GetReference(db', x) == if x == id then Some(ReferenceOf(db', row)) else GetReference(db, x) {
          FindAfterUpdate(db.references, ReferenceKey, id, row, x);
        }
      }
      assert Valid(db) ==> Valid(db') by {
        if Valid(db) {
          UniqueAfterUpdate(db.references, ReferenceKey, id, row);
        }
      }
      Updated(db', Some(ReferenceOf(db', row)))
  }

  /** `deleteReference(id)`: its image links go first, then the row; images stay. */
  function DeleteReference(db: Db, id: Id): (r: Db)
    ensures GetReference(r, id).None?
    ensures forall x :: x != id ==> Find(r.references, ReferenceKey, x) == Find(db.references, ReferenceKey, x)
    ensures forall l :: l in r.referenceImages <==> l in db.referenceImages && l.left != id
    ensures r == db.(references := r.references, referenceImages := r.referenceImages)
    ensures Valid(db) ==> Valid(r)
  {
    var r := db.(referenceImages := WithoutLeft(db.referenceImages, id),
                 references := DeleteRow(db.references, ReferenceKey, id));
    assert forall x :: x != id ==> Find(r.references, ReferenceKey, x) == Find(db.references, ReferenceKey, x) by {
      forall x | x != id ensures Find(r.references, ReferenceKey, x) == Find(db.references, ReferenceKey, x) {
        FindAfterDelete(db.references, ReferenceKey, id, x);
      }
    }
    assert Valid(db) ==> Valid(r) by {
      if Valid(db) {
        UniqueAfterDelete(db.references, ReferenceKey, id);
      }
    }
    r
  }
}

=== FILE: store_properties.dfy ===
/** Properties relating several store operations: the one relation behind both link readings,
    the delete cascades, and the order and completeness of the list reads. */
module StoreProperties {
  import opened Wrappers
  import opened Seqs
  import opened Sorting
  import opened Tables
  import opened Links
  import opened StoreSchema
  import opened Store

  /** An image lists a reference exactly when that reference lists the image: both readings
      come from the one `reference_images` table. */
  lemma ImageReferenceAgreement(db: Db, imageId: Id, referenceId: Id, now: int)
    requires GetImage(db, imageId, now).Some? && GetReference(db, referenceId).Some?
    ensures referenceId in GetImage(db, imageId, now).value.referenceIds
        <==> imageId in GetReference(db, referenceId).value.imageIds
  {
    OneRelationTwoReadings(db.referenceImages, referenceId, imageId);
  }

  /** Creating an image with `referenceIds` makes every existing reference list the image
      exactly when it was named. */
  lemma CreateImageLinksReferences(db: Db, data: ImageInput, freshId: Id, now: int, referenceId: Id)
    requires CreateImage(db, data, freshId, now).Created?
    requires GetReference(db, referenceId).Some?
    ensures var r := CreateImage(db, data, freshId, now);
            GetReference(r.db, referenceId).Some?
            && (r.value.id in GetReference(r.db, referenceId).value.imageIds
                <==> referenceId in data.referenceIds.GetOr([]))
  {
    var r := CreateImage(db, data, freshId, now);
    ImageReferenceAgreement(r.db, r.value.id, referenceId, now);
  }

  /** `deleteCategory` keeps every image and removes exactly that category from each image's
      `categoryIds`, keeping the other ids in order. */
  lemma DeleteCategoryCascade(db: Db, categoryId: Id, imageId: Id, now: int)
    requires GetImage(db, imageId, now).Some?
    ensures var after := GetImage(DeleteCategory(db, categoryId), imageId, now);
            && after.Some?
            && after.value.categoryIds == Filter(GetImage(db, imageId, now).value.categoryIds, IdIsNot(categoryId))
            && categoryId !in after.value.categoryIds
            && after.value == GetImage(db, imageId, now).value.(categoryIds := after.value.categoryIds)
  {
    RightsOfWithoutRight(db.imageCategories, categoryId, imageId);
  }

  /** `deleteImage` keeps every reference and removes exactly that image from each reference's
      `imageIds`, keeping the other ids in order. */
  lemma DeleteImageCascade(db: Db, imageId: Id, referenceId: Id)
    requires GetReference(db, referenceId).Some?
    ensures var after := GetReference(DeleteImage(db, imageId), referenceId);
            && after.Some?
            && after.value.imageIds == Filter(GetReference(db, referenceId).value.imageIds, IdIsNot(imageId))
            && after.value == GetReference(db, referenceId).value.(imageIds := after.value.imageIds)
  {
    RightsOfWithoutRight(db.referenceImages, imageId, referenceId);
  }

  /** `deleteImage` leaves every other image's categories alone. */
  lemma DeleteImageKeepsOtherImages(db: Db, imageId: Id, otherId: Id, now: int)
    requires otherId != imageId
    ensures var after := GetImage(DeleteImage(db, imageId), otherId, now);
            && (after.Some? <==> GetImage(db, otherId, now).Some?)
            && (after.Some? ==> after.value.categoryIds == GetImage(db, otherId, now).value.categoryIds)
  {
    RightsOfWithoutLeft(db.imageCategories, imageId, otherId);
  }

  /** `deleteReference` keeps every image and removes exactly that reference from each image's
      `referenceIds`, keeping the other ids in order. */
  lemma DeleteReferenceCascade(db: Db, referenceId: Id, imageId: Id, now: int)
    requires GetImage(db, imageId, now).Some?
    ensures var after := GetImage(DeleteReference(db, referenceId), imageId, now);
            && after.Some?
            && after.value.referenceIds == Filter(GetImage(db, imageId, now).value.referenceIds, IdIsNot(referenceId))
            && after.value == GetImage(db, imageId, now).value.(referenceIds := after.value.referenceIds)
  {
    LeftsOfWithoutLeft(db.referenceImages, referenceId, imageId);
  }

  /** Deleting an id no row and no link carries leaves the database exactly as it was. */
  lemma {:induction false} DeleteMissingCategoryIsNoOp(db: Db, categoryId: Id)
    requires !HasKey(db.categories, CategoryKey, categoryId)
    requires forall k :: 0 <= k < |db.imageCategories| ==> db.imageCategories[k].right != categoryId
    ensures DeleteCategory(db, categoryId) == db
  {
    FilterAllKept(db.imageCategories, RightIsNot(categoryId));
    FilterAllKept(db.categories, KeyIsNot(CategoryKey, categoryId));
  }

  /** Deleting an unknown category still removes the link rows that point at it. */
  lemma DeleteMissingCategoryDropsDanglingLinks(db: Db, categoryId: Id, now: int, imageId: Id)
    requires !HasKey(db.categories, CategoryKey, categoryId)
    ensures DeleteCategory(db, categoryId).categories == db.categories
    ensures GetImage(db, imageId, now).Some? ==>
              categoryId !in GetImage(DeleteCategory(db, categoryId), imageId, now).value.categoryIds
  {
    FilterAllKept(db.categories, KeyIsNot(CategoryKey, categoryId));
  }

  /** Every entry of `listImages()` is what `getImage` returns for its id. */
  lemma {:induction false} ListedImagesAreGettable(db: Db, now: int)
    requires Valid(db)
    ensures forall i :: 0 <= i < |ListImages(db, now)| ==>
              GetImage(db, ListImages(db, now)[i].id, now) == Some(ListImages(db, now)[i])
  {
    var rows := ListImageRows(db);
    var r := ListImages(db, now);
    forall i | 0 <= i < |r| ensures GetImage(db, r[i].id, now) == Some(r[i]) {
      assert rows[i] in multiset(db.images);
      var k :| 0 <= k < |db.images| && db.images[k] == rows[i];
      FindUnique(db.images, ImageKey, k);
    }
  }

  /** Every image `getImage` can see appears in `listImages()`. */
  lemma {:induction false} EveryImageIsListed(db: Db, id: Id, now: int)
    requires GetImage(db, id, now).Some?
    ensures GetImage(db, id, now).value in ListImages(db, now)
  {
    var rows := ListImageRows(db);
    var row := Find(db.images, ImageKey, id).value;
    assert row in multiset(rows);
    var i :| 0 <= i < |rows| && rows[i] == row;
    assert ListImages(db, now)[i] == GetImage(db, id, now).value;
  }

  /** `ORDER BY created_at DESC`: when no row holds the zero timestamp (which reads back as
      `now`), the listed `createdAt` values never increase. */
  lemma {:induction false} ListImagesNewestFirst(db: Db, now: int)
    requires forall k :: 0 <= k < |db.images| ==> db.images[k].createdAt != 0
    ensures forall i, j :: 0 <= i < j < |ListImages(db, now)| ==>
              ListImages(db, now)[i].createdAt >= ListImages(db, now)[j].createdAt
  {
    var rows := ListImageRows(db);
    var r := ListImages(db, now);
    forall i | 0 <= i < |r| ensures r[i].createdAt == rows[i].createdAt {
      assert rows[i] in multiset(db.images);
      var k :| 0 <= k < |db.images| && db.images[k] == rows[i];
    }
  }

  /** An update that supplies nothing reads back the category as it was. */
  lemma EmptyCategoryUpdateKeepsCategory(db: Db, id: Id)
    requires GetCategory(db, id).Some?
    ensures var r := UpdateCategory(db, id, CategoryInput(None, None, None, None, None, None, None));
            r.value == GetCategory(db, id)
  {
  }

  /** Applying the same category update twice reads back what applying it once did. */
  lemma UpdateCategoryIdempotent(db: Db, id: Id, data: CategoryInput)
    ensures var once := UpdateCategory(db, id, data);
            UpdateCategory(once.db, id, data).value == once.value
  {
  }

  /** A title-only update of a stored category: as written it fails on the `is_active` binding
      and the row keeps its old title; `UpdateCategory` renames the category and keeps its
      active flag. */
  lemma TitleOnlyUpdateFailsAsWritten(db: Db, id: Id, title: string)
    requires GetCategory(db, id).Some?
    ensures var data := CategoryInput(None, Some(title), None, None, None, None, None);
            UpdateCategoryAsWritten(db, id, data).BindFailed?
    ensures var data := CategoryInput(None, Some(title), None, None, None, None, None);
            var r := UpdateCategory(db, id, data);
            && r.value.Some?
            && r.value.value.title.en == title
            && r.value.value.isActive == GetCategory(db, id).value.isActive
  {
  }
}

=== FILE: store_schema.dfy ===
/** The backend's SQLite schema (`src/db.js`) as an immutable value: the about and logo
    singleton rows, three entity tables and two link tables, plus the `rowTo*` normalisers
    that turn a stored row into the entity the store hands out. */
module StoreSchema {
  import opened Wrappers
  import opened Tables
  import opened Links
  import opened Localization

  /** A TEXT column; `None` is SQL NULL (the DDL declares no column NOT NULL). */
  type Text = Option<string>

  /** An INTEGER column; `None` is SQL NULL. */
  type Integer = Option<int>

  datatype CategoryRow = CategoryRow(
    id: Id,
    titleEn: Text, titleTr: Text,
    descriptionEn: Text, descriptionTr: Text,
    position: Integer,
    isActive: Integer)

  /** `created_at` is always written: by `createImage`, and by the column default otherwise. */
  datatype ImageRow = ImageRow(
    id: Id,
    titleEn: Text, titleTr: Text,
    altEn: Text, altTr: Text,
    home: Integer,
    position: Integer,
    imagePath: Text,
    createdAt: int)

  datatype ReferenceRow = ReferenceRow(
    id: Id,
    titleEn: Text, titleTr: Text,
    descriptionEn: Text, descriptionTr: Text,
    year: Text,
    logoLightPath: Text, logoDarkPath: Text)

  /** The single `about` row (id 'about'); `SELECT *` returns it unnormalised. */
  datatype AboutRow = AboutRow(contentEn: string, contentTr: string, updatedAt: int)

  /** The single `logo` row (id 'logo'). */
  datatype LogoRow = LogoRow(imgPath: string, altEn: string, altTr: string, updatedAt: int)

  function CategoryKey(row: CategoryRow): Id { row.id }
  function ImageKey(row: ImageRow): Id { row.id }
  function ReferenceKey(row: ReferenceRow): Id { row.id }

  /** The whole database. `imageCategories` rows are (image_id, category_id);
      `referenceImages` rows are (reference_id, image_id). */
  datatype Db = Db(
    about: AboutRow,
    logo: LogoRow,
    categories: seq<CategoryRow>,
    images: seq<ImageRow>,
    references: seq<ReferenceRow>,
    imageCategories: seq<Link>,
    referenceImages: seq<Link>)

  /** The PRIMARY KEY constraints of the three entity tables. */
  predicate Valid(db: Db)
  {
    && UniqueKeys(db.categories, CategoryKey)
    && UniqueKeys(db.images, ImageKey)
    && UniqueKeys(db.references, ReferenceKey)
  }

  /** A freshly created database file: the two singletons with empty content, empty tables. */
  function Initial(now: int): (db: Db)
    ensures Valid(db)
    ensures db.about.contentEn == "" && db.about.contentTr == ""
    ensures db.logo.imgPath == "" && db.logo.altEn == "" && db.logo.altTr == ""
    ensures db.categories == [] && db.images == [] && db.references == []
    ensures db.imageCategories == [] && db.referenceImages == []
    ensures db.about.updatedAt == now && db.logo.updatedAt == now
  {
    Db(AboutRow("", "", now), LogoRow("", "", "", now), [], [], [], [], [])
  }

  /** A category as the store returns it. */
  datatype Category = Category(id: Id, title: Bundle, description: Bundle, position: int, isActive: bool)

  /** An image as the store returns it, with its links in table order. */
  datatype Image = Image(
    id: Id,
    title: Bundle, alt: Bundle,
    home: bool,
    position: int,
    imagePath: string,
    createdAt: int,
    categoryIds: seq<Id>,
    referenceIds: seq<Id>)

  /** A reference as the store returns it, with its links in table order. */
  datatype Reference = Reference(
    id: Id,
    title: Bundle, description: Bundle,
    year: string,
    logoLightPath: string, logoDarkPath: string,
    imageIds: seq<Id>)

  /** `column || ''`: NULL (and '') read back as ''. */
  function Str(column: Text): (r: string)
    ensures column.None? ==> r == ""
    ensures column.Some? ==> r == column.value
  {
    column.GetOr("")
  }

  /** `!!column`: NULL and 0 read back as false. */
  function Truthy(column: Integer): (r: bool)
    ensures r <==> column.Some? && column.value != 0
  {
    column.Some? && column.value != 0
  }

  /** `rowToCategory`. */
  function RowToCategory(row: CategoryRow): (c: Category)
    ensures c.id == row.id
    ensures c.title == Bundle(Str(row.titleEn), Str(row.titleTr))
    ensures c.description == Bundle(Str(row.descriptionEn), Str(row.descriptionTr))
    ensures row.position.None? ==> c.position == 0
    ensures row.position.Some? ==> c.position == row.position.value
    ensures c.isActive <==> Truthy(row.isActive)
  {
    Category(
      row.id,
      Bundle(Str(row.titleEn), Str(row.titleTr)),
      Bundle(Str(row.descriptionEn), Str(row.descriptionTr)),
      row.position.GetOr(0),
      Truthy(row.isActive))
  }

  /** `rowToImage`: `created_at || Date.now()`, so a zero timestamp reads back as `now`. */
  function RowToImage(row: ImageRow, categoryIds: seq<Id>, referenceIds: seq<Id>, now: int): (img: Image)
    ensures img.id == row.id
    ensures img.title == Bundle(Str(row.titleEn), Str(row.titleTr))
    ensures img.alt == Bundle(Str(row.altEn), Str(row.altTr))
    ensures img.home <==> Truthy(row.home)
    ensures row.position.None? ==> img.position == 0
    ensures row.position.Some? ==> img.position == row.position.value
    ensures img.imagePath == Str(row.imagePath)
    ensures row.createdAt != 0 ==> img.createdAt == row.createdAt
    ensures row.createdAt == 0 ==> img.createdAt == now
    ensures img.categoryIds == categoryIds && img.referenceIds == referenceIds
  {
    Image(
      row.id,
      Bundle(Str(row.titleEn), Str(row.titleTr)),
      Bundle(Str(row.altEn), Str(row.altTr)),
      Truthy(row.home),
      row.position.GetOr(0),
      Str(row.imagePath),
      if row.createdAt != 0 then row.createdAt else now,
      categoryIds,
      referenceIds)
  }

  /** `rowToReference`. */
  function RowToReference(row: ReferenceRow, imageIds: seq<Id>): (r: Reference)
    ensures r.id == row.id
    ensures r.title == Bundle(Str(row.titleEn), Str(row.titleTr))
    ensures r.description == Bundle(Str(row.descriptionEn), Str(row.descriptionTr))
    ensures r.year == Str(row.year)
    ensures r.logoLightPath == Str(row.logoLightPath) && r.logoDarkPath == Str(row.logoDarkPath)
    ensures r.imageIds == imageIds
  {
    Reference(
      row.id,
      Bundle(Str(row.titleEn), Str(row.titleTr)),
      Bundle(Str(row.descriptionEn), Str(row.descriptionTr)),
      Str(row.year),
      Str(row.logoLightPath), Str(row.logoDarkPath),
      imageIds)
  }
}

=== FILE: strings.dfy ===
/** The JavaScript string operations the backend and the client use, over `seq<char>`. */
module Strings {

  predicate StartsWith(s: string, prefix: string)
  {
    |prefix| <= |s| && s[..|prefix|] == prefix
  }

  predicate EndsWith(s: string, suffix: string)
  {
    |suffix| <= |s| && s[|s| - |suffix|..] == suffix
  }

  /** `c.toLowerCase()` restricted to the ASCII letters; every other character is left as is. */
  function LowerChar(c: char): (r: char)
    ensures 'A' <= c <= 'Z' ==> r as int == c as int + 32
    ensures !('A' <= c <= 'Z') ==> r == c
    ensures !('A' <= r <= 'Z')
  {
    if 'A' <= c <= 'Z' then (c as int + 32) as char else c
  }

  /** `s.toLowerCase()` (ASCII letters only). */
  function Lower(s: string): (r: string)
    ensures |r| == |s|
    ensures forall i :: 0 <= i < |s| ==> r[i] == LowerChar(s[i])
  {
    seq(|s|, i requires 0 <= i < |s| => LowerChar(s[i]))
  }

  /** Lowercasing twice is lowercasing once. */
  lemma LowerIdempotent(s: string)
    ensures Lower(Lower(s)) == Lower(s)
  {
  }

  /** Case-insensitive equality, stated character by character. */
  predicate EqualsIgnoreCase(a: string, b: string)
  {
    |a| == |b| && forall i :: 0 <= i < |a| ==> LowerChar(a[i]) == LowerChar(b[i])
  }

  lemma EqualsIgnoreCaseIsLowerEquality(a: string, b: string)
    ensures EqualsIgnoreCase(a, b) <==> Lower(a) == Lower(b)
  {
    if Lower(a) == Lower(b) {
      assert forall i :: 0 <= i < |a| ==> Lower(a)[i] == Lower(b)[i];
    }
  }

  /** The text before the first `sep`, or all of `s` when `sep` does not occur:
      `s.split(sep)[0]`. */
  function TakeUntil(s: string, sep: char): (r: string)
    ensures StartsWith(s, r)
    ensures sep !in r
    ensures |r| == |s| || s[|r|] == sep
  {
    if s == [] || s[0] == sep then []
    else [s[0]] + TakeUntil(s[1..], sep)
  }

  /** A prefix free of the separator passes through unchanged. */
  lemma {:induction false} TakeUntilPrefix(p: string, rest: string, sep: char)
    requires sep !in p
    ensures TakeUntil(p + rest, sep) == p + TakeUntil(rest, sep)
  {
    if p != [] {
      TakeUntilPrefix(p[1..], rest, sep);
      assert (p + rest)[1..] == p[1..] + rest;
      assert (p + rest)[0] == p[0] != sep;
      assert p == [p[0]] + p[1..];
    } else {
      assert p + rest == rest;
    }
  }

  /** `s.split(sep)` for a one-character separator: there is always at least one piece. */
  function Split(s: string, sep: char): (pieces: seq<string>)
    ensures |pieces| >= 1
    ensures forall k :: 0 <= k < |pieces| ==> sep !in pieces[k]
    decreases |s|
  {
    var head := TakeUntil(s, sep);
    if |head| == |s| then [s]
    else [head] + Split(s[|head| + 1..], sep)
  }

  /** `pieces.join(sep)`. */
  function Join(pieces: seq<string>, sep: char): string
  {
    if pieces == [] then []
    else if |pieces| == 1 then pieces[0]
    else pieces[0] + [sep] + Join(pieces[1..], sep)
  }

  /** Splitting loses nothing: joining the pieces back gives the original string. */
  lemma {:induction false} SplitJoin(s: string, sep: char)
    ensures Join(Split(s, sep), sep) == s
    decreases |s|
  {
    var head := TakeUntil(s, sep);
    if |head| < |s| {
      var rest := s[|head| + 1..];
      SplitJoin(rest, sep);
      assert s == head + [sep] + rest;
    }
  }

  /** Splitting a join of separator-free pieces gives the pieces back. */
  lemma {:induction false} JoinSplit(pieces: seq<string>, sep: char)
    requires |pieces| >= 1
    requires forall k :: 0 <= k < |pieces| ==> sep !in pieces[k]
    ensures Split(Join(pieces, sep), sep) == pieces
  {
    var s := Join(pieces, sep);
    if |pieces| == 1 {
      TakeUntilPrefix(pieces[0], [], sep);
      assert pieces[0] + [] == pieces[0];
    } else {
      var head, tail := pieces[0], pieces[1..];
      var rest := Join(tail, sep);
      assert s == head + ([sep] + rest);
      TakeUntilPrefix(head, [sep] + rest, sep);
      assert TakeUntil(s, sep) == head;
      assert s[|head| + 1..] == rest;
      assert Split(s, sep) == [head] + Split(rest, sep);
      JoinSplit(tail, sep);
      assert pieces == [head] + tail;
    }
  }

  /** The ASCII characters JavaScript's `trim` removes (the Unicode space separators are not modelled). */
  predicate IsWhitespace(c: char)
  {
    c == ' ' || c == '\t' || c == '\n' || c == '\r' || c == '\U{000B}' || c == '\U{000C}'
  }

  function TrimStart(s: string): (r: string)
    ensures EndsWith(s, r)
    ensures r == [] || !IsWhitespace(r[0])
    ensures forall i :: 0 <= i < |s| - |r| ==> IsWhitespace(s[i])
  {
    if s != [] && IsWhitespace(s[0]) then TrimStart(s[1..]) else s
  }

  function TrimEnd(s: string): (r: string)
    ensures StartsWith(s, r)
    ensures r == [] || !IsWhitespace(r[|r| - 1])
    ensures forall i :: |r| <= i < |s| ==> IsWhitespace(s[i])
  {
    if s != [] && IsWhitespace(s[|s| - 1]) then TrimEnd(s[..|s| - 1]) else s
  }

  /** No whitespace at either end. */
  predicate IsTrimmed(s: string)
  {
    s == [] || (!IsWhitespace(s[0]) && !IsWhitespace(s[|s| - 1]))
  }

  /** `r` is `s` with `d` whitespace characters cut from the front and only whitespace cut
      from the back. */
  predicate CutsOnlyEnds(s: string, r: string, d: int)
  {
    && 0 <= d && d + |r| <= |s|
    && r == s[d..d + |r|]
    && (forall i :: 0 <= i < d ==> IsWhitespace(s[i]))
    && (forall i :: d + |r| <= i < |s| ==> IsWhitespace(s[i]))
  }

  /** `s.trim()`: no whitespace is left at either end, only whitespace at the two ends is
      removed, and the result is empty exactly when `s` is all whitespace. */
  function Trim(s: string): (r: string)
    ensures IsTrimmed(r)
    ensures exists d :: CutsOnlyEnds(s, r, d)
    ensures forall k :: 0 <= k < |r| ==> r[k] in s
    ensures r == [] <==> forall k :: 0 <= k < |s| ==> IsWhitespace(s[k])
  {
    var t := TrimStart(s);
    var r := TrimEnd(t);
    CutBothEnds(s, t, r);
    assert CutsOnlyEnds(s, r, |s| - |t|);
    r
  }

  /** Cutting leading whitespace to get `t`, then trailing whitespace to get `r`, cuts
      whitespace from the two ends of `s` and nothing else. */
  lemma CutBothEnds(s: string, t: string, r: string)
    requires EndsWith(s, t) && (t == [] || !IsWhitespace(t[0]))
    requires forall i :: 0 <= i < |s| - |t| ==> IsWhitespace(s[i])
    requires StartsWith(t, r) && (r == [] || !IsWhitespace(r[|r| - 1]))
    requires forall i :: |r| <= i < |t| ==> IsWhitespace(t[i])
    ensures CutsOnlyEnds(s, r, |s| - |t|)
    ensures IsTrimmed(r)
    ensures r == [] ==> t == []
  {
    var d := |s| - |t|;
    assert t == s[d..];
    assert r == t[..|r|];
    assert r == s[d..d + |r|];
    forall i | d + |r| <= i < |s| ensures IsWhitespace(s[i]) {
      assert s[i] == t[i - d];
    }
    if r != [] {
      assert r[0] == t[0];
    }
    if t != [] {
      assert !IsWhitespace(t[0]);
    }
  }

  /** Trimming a trimmed string changes nothing. */
  lemma TrimOfTrimmed(s: string)
    requires IsTrimmed(s)
    ensures Trim(s) == s
  {
    assert TrimStart(s) == s;
    assert TrimEnd(s) == s;
  }

  /** `s.replace(pattern, replacement)` with a string pattern: only the FIRST occurrence, wherever it is, is replaced. */
  function ReplaceFirst(s: string, pattern: string, replacement: string): (r: string)
    ensures !Occurs(s, pattern) ==> r == s
    ensures StartsWith(s, pattern) ==> r == replacement + s[|pattern|..]
    ensures forall i :: FirstOccurrence(s, pattern, i) ==> r == s[..i] + replacement + s[i + |pattern|..]
  {
    if StartsWith(s, pattern) then
      assert OccursAt(s, pattern, 0);
      replacement + s[|pattern|..]
    else if s == [] then []
    else
      assert forall i :: OccursAt(s[1..], pattern, i) ==> OccursAt(s, pattern, i + 1) by {
        forall i | OccursAt(s[1..], pattern, i)
          ensures OccursAt(s, pattern, i + 1)
        {
          assert s[1..][i..i + |pattern|] == s[i + 1..i + 1 + |pattern|];
        }
      }
      var rest := ReplaceFirst(s[1..], pattern, replacement);
      ReplaceFirstStep(s, pattern, replacement, rest);
      [s[0]] + rest
  }

  /** Replacing the first occurrence in the tail of a string that does not start with the
      pattern replaces the first occurrence in the whole string. */
  lemma ReplaceFirstStep(s: string, pattern: string, replacement: string, rest: string)
    requires s != [] && !StartsWith(s, pattern)
    requires forall j :: FirstOccurrence(s[1..], pattern, j) ==> rest == s[1..][..j] + replacement + s[1..][j + |pattern|..]
    ensures forall i :: FirstOccurrence(s, pattern, i) ==> [s[0]] + rest == s[..i] + replacement + s[i + |pattern|..]
  {
    forall i | FirstOccurrence(s, pattern, i)
      ensures [s[0]] + rest == s[..i] + replacement + s[i + |pattern|..]
    {
      FirstOccurrenceOfTail(s, pattern, i);
      SplitAroundTail(s, i, |pattern|);
    }
  }

  /** Cutting `s` at `i` and `i + n` is cutting its tail one position earlier, behind `s[0]`. */
  lemma SplitAroundTail(s: string, i: int, n: nat)
    requires 1 <= i && i + n <= |s|
    ensures s[..i] == [s[0]] + s[1..][..i - 1]
    ensures s[i + n..] == s[1..][i - 1 + n..]
  {
  }

  /** `i` is where `pattern` first occurs in `s`. */
  predicate FirstOccurrence(s: string, pattern: string, i: int)
  {
    OccursAt(s, pattern, i) && forall j :: 0 <= j < i ==> !OccursAt(s, pattern, j)
  }

  /** A first occurrence past the start is, one position earlier, the first occurrence in the tail. */
  lemma FirstOccurrenceOfTail(s: string, pattern: string, i: int)
    requires s != [] && !StartsWith(s, pattern)
    requires FirstOccurrence(s, pattern, i)
    ensures i >= 1 && FirstOccurrence(s[1..], pattern, i - 1)
  {
    assert OccursAt(s, pattern, 0) ==> StartsWith(s, pattern);
    assert s[1..][i - 1..i - 1 + |pattern|] == s[i..i + |pattern|];
    forall j | 0 <= j < i - 1 ensures !OccursAt(s[1..], pattern, j) {
      if OccursAt(s[1..], pattern, j) {
        assert s[1..][j..j + |pattern|] == s[j + 1..j + 1 + |pattern|];
        assert OccursAt(s, pattern, j + 1);
      }
    }
  }

  predicate OccursAt(s: string, pattern: string, i: int)
  {
    0 <= i <= |s| - |pattern| && s[i..i + |pattern|] == pattern
  }

  /** `pattern` occurs somewhere in `s`. */
  ghost predicate Occurs(s: string, pattern: string)
  {
    exists i :: OccursAt(s, pattern, i)
  }
}

=== FILE: tables.dfy ===
/** A SQLite table with a TEXT primary key, as the rows it holds in rowid order.
    `key` projects a row's primary key. */
module Tables {
  import opened Wrappers
  import opened Seqs

  type Id = string

  predicate HasKey<R>(rows: seq<R>, key: R -> Id, id: Id)
  {
    exists i :: 0 <= i < |rows| && key(rows[i]) == id
  }

  /** The PRIMARY KEY constraint. */
  predicate UniqueKeys<R>(rows: seq<R>, key: R -> Id)
  {
    forall i, j :: 0 <= i < j < |rows| ==> key(rows[i]) != key(rows[j])
  }

  /** `SELECT ... WHERE id=?` followed by `.get()`: the first row carrying the key, if any. */
  function Find<R>(rows: seq<R>, key: R -> Id, id: Id): (r: Option<R>)
    ensures r.Some? <==> HasKey(rows, key, id)
    ensures r.Some? ==> r.value in rows && key(r.value) == id
  {
    if rows == [] then None
    else if key(rows[0]) == id then Some(rows[0])
    else
      var r := Find(rows[1..], key, id);
      assert HasKey(rows, key, id) ==> key(rows[0]) == id || HasKey(rows[1..], key, id) by {
        if HasKey(rows, key, id) {
          var i :| 0 <= i < |rows| && key(rows[i]) == id;
          if i > 0 {
            assert key(rows[1..][i - 1]) == id;
          }
        }
      }
      r
  }

  /** In a table that keeps its primary key, the lookup finds the one row with that key. */
  lemma {:induction false} FindUnique<R>(rows: seq<R>, key: R -> Id, i: int)
    requires UniqueKeys(rows, key)
    requires 0 <= i < |rows|
    ensures Find(rows, key, key(rows[i])) == Some(rows[i])
  {
    if i > 0 {
      assert key(rows[0]) != key(rows[i]);
      FindUnique(rows[1..], key, i - 1);
    }
  }

  /** `UPDATE ... WHERE id=?`: every row carrying the key is overwritten by `row`. */
  function UpdateRow<R>(rows: seq<R>, key: R -> Id, id: Id, row: R): (r: seq<R>)
    requires key(row) == id
    ensures |r| == |rows|
    ensures forall i :: 0 <= i < |rows| ==> key(r[i]) == key(rows[i])
    ensures forall i :: 0 <= i < |rows| && key(rows[i]) != id ==> r[i] == rows[i]
  {
    if rows == [] then []
    else [if key(rows[0]) == id then row else rows[0]] + UpdateRow(rows[1..], key, id, row)
  }

  /** After the update the key finds the new row; every other key finds what it found before. */
  lemma {:induction false} FindAfterUpdate<R>(rows: seq<R>, key: R -> Id, id: Id, row: R, x: Id)
    requires key(row) == id
    ensures Find(UpdateRow(rows, key, id, row), key, x)
         == if x == id && HasKey(rows, key, id) then Some(row) else Find(rows, key, x)
  {
    if rows != [] {
      FindAfterUpdate(rows[1..], key, id, row, x);
      if key(rows[0]) != x && key(rows[0]) != id {
        assert HasKey(rows, key, id) ==> HasKey(rows[1..], key, id) by {
          if HasKey(rows, key, id) {
            var i :| 0 <= i < |rows| && key(rows[i]) == id;
            assert key(rows[1..][i - 1]) == id;
          }
        }
      }
    }
  }

  /** The test "does not carry key `id`". */
  function KeyIsNot<R>(key: R -> Id, id: Id): R -> bool
  {
    row => key(row) != id
  }

  /** `DELETE FROM ... WHERE id=?`. */
  function DeleteRow<R>(rows: seq<R>, key: R -> Id, id: Id): (r: seq<R>)
    ensures !HasKey(r, key, id)
    ensures forall i :: 0 <= i < |rows| && key(rows[i]) != id ==> rows[i] in r
    ensures forall i :: 0 <= i < |r| ==> r[i] in rows
  {
    Filter(rows, KeyIsNot(key, id))
  }

  /** After the delete the key finds nothing; every other key finds what it found before. */
  lemma {:induction false} FindAfterDelete<R>(rows: seq<R>, key: R -> Id, id: Id, x: Id)
    ensures Find(DeleteRow(rows, key, id), key, x) == if x == id then None else Find(rows, key, x)
  {
    if rows != [] && x != id {
      FindAfterDelete(rows[1..], key, id, x);
      FilterAppend([rows[0]], rows[1..], KeyIsNot(key, id));
      assert [rows[0]] + rows[1..] == rows;
    }
  }

  /** `INSERT INTO ...` of a row whose key is new: the key now finds it, the others are unaffected. */
  lemma {:induction false} FindAfterInsert<R>(rows: seq<R>, key: R -> Id, row: R, x: Id)
    requires !HasKey(rows, key, key(row))
    ensures Find(rows + [row], key, x) == if x == key(row) then Some(row) else Find(rows, key, x)
  {
    if rows == [] {
      assert rows + [row] == [row];
    } else {
      assert (rows + [row])[1..] == rows[1..] + [row];
      forall i | 0 <= i < |rows[1..]|
        ensures key(rows[1..][i]) != key(row)
      {
        assert rows[1..][i] == rows[i + 1];
      }
      FindAfterInsert(rows[1..], key, row, x);
    }
  }

  lemma UniqueAfterInsert<R>(rows: seq<R>, key: R -> Id, row: R)
    requires UniqueKeys(rows, key)
    requires !HasKey(rows, key, key(row))
    ensures UniqueKeys(rows + [row], key)
  {
  }

  lemma UniqueAfterUpdate<R>(rows: seq<R>, key: R -> Id, id: Id, row: R)
    requires UniqueKeys(rows, key)
    requires key(row) == id
    ensures UniqueKeys(UpdateRow(rows, key, id, row), key)
  {
  }

  lemma {:induction false} UniqueAfterDelete<R>(rows: seq<R>, key: R -> Id, id: Id)
    requires UniqueKeys(rows, key)
    ensures UniqueKeys(DeleteRow(rows, key, id), key)
  {
    SubsequenceUnique(DeleteRow(rows, key, id), rows, key);
  }

  lemma {:induction false} SubsequenceUnique<R>(sub: seq<R>, rows: seq<R>, key: R -> Id)
    requires IsSubsequence(sub, rows)
    requires UniqueKeys(rows, key)
    ensures UniqueKeys(sub, key)
    decreases |rows|
  {
    if sub != [] && rows != [] {
      if sub[0] == rows[0] {
        SubsequenceUnique(sub[1..], rows[1..], key);
        SubsequenceKeys(sub[1..], rows[1..]);
        forall i, j | 0 <= i < j < |sub|
          ensures key(sub[i]) != key(sub[j])
        {
          assert sub[j] == sub[1..][j - 1];
          if i > 0 {
            assert sub[i] == sub[1..][i - 1];
          }
        }
      } else {
        SubsequenceUnique(sub, rows[1..], key);
      }
    }
  }

  lemma {:induction false} SubsequenceKeys<R>(sub: seq<R>, rows: seq<R>)
    requires IsSubsequence(sub, rows)
    ensures forall j :: 0 <= j < |sub| ==> exists i :: 0 <= i < |rows| && rows[i] == sub[j]
    decreases |rows|
  {
    if sub != [] && rows != [] {
      if sub[0] == rows[0] {
        SubsequenceKeys(sub[1..], rows[1..]);
        forall j | 0 < j < |sub|
          ensures exists i :: 0 <= i < |rows| && rows[i] == sub[j]
        {
          assert sub[j] == sub[1..][j - 1];
          var i :| 0 <= i < |rows[1..]| && rows[1..][i] == sub[j];
          assert rows[i + 1] == sub[j];
        }
        assert rows[0] == sub[0];
      } else {
        SubsequenceKeys(sub, rows[1..]);
        forall j | 0 <= j < |sub|
          ensures exists i :: 0 <= i < |rows| && rows[i] == sub[j]
        {
          var i :| 0 <= i < |rows[1..]| && rows[1..][i] == sub[j];
          assert rows[i + 1] == sub[j];
        }
      }
    }
  }
}

=== FILE: wrappers.dfy ===
/** Optional values: JavaScript's `undefined`/`null` on one side, a present value on the other. */
module Wrappers {

  /** `None` stands for an absent (undefined or null) value. */
  datatype Option<+T> = None | Some(value: T) {

    /** The value, or `default` when absent: JavaScript's `x ?? default`. */
    function GetOr(default: T): T {
      match this
      case Some(v) => v
      case None => default
    }
  }
}
